=== FILE: README.md ===
# codeforcewarrior bot: a verified model of its decision logic

The codeforcewarrior bot is a Telegram bot for a Codeforces study group,
written in Python. Its pieces are:

- a command front end, in a Cloud Functions version (`gcp/tgbot.py`) and an
  older Flask version (`tgbot/main.py`). It has commands to pick a random
  problem (`/select`) and to claim a Codeforces handle (`/sign_on`), and it
  answers requests to join the group;
- a handle verification. It checks every 30 seconds whether a user who
  claimed a handle has submitted to a given problem in the last ten minutes.
  It exists in three deployments: `tgbot/functions.py`, `gcp/main.py` and
  `cf_verification/main.py`;
- an update service (`tgbot/cf_update/__init__.py`, with an older version in
  `cf_update/main.py`). It keeps one snapshot of recent submissions per
  tracked handle and announces new or changed ones. It reports predicted or
  official rating changes for the latest contests and reminds the group of
  upcoming contests;
- a parser for the table of predicted rating changes
  (`cf_update/predicted_deltas.py`);
- clients for the Codeforces and clist.by APIs, their data models, and small
  helpers for durations.

This project models these decision procedures in Dafny as pure functions
over immutable data and proves properties about them.

- The stores (Firestore collections, the TinyDB handle table) become maps.
- The task queue and the Telegram calls become effects that the functions
  return.
- The remote APIs become function parameters.
- Time is integer epoch seconds.

Modules, one per file:

| file | module | models |
|---|---|---|
| wrappers.dfy | Wrappers | `Option` and `Result` |
| errors.dfy | Errors | the exceptions the code raises or catches |
| text.dfy | Text | `strip`, `split`, `replace`, `lower`, `str(int)` and `int(str)` |
| collections.dfy | Collections | list comprehensions with a condition, and `any` |
| sorting.dfy | Sorting | Python's stable `sort` by a tuple key |
| utils.dfy | Utils | `plural`, `duration`, countdown wording |
| cf_models.dfy | CfModels | the Codeforces records and their derived fields |
| cf_client.dfy | CfClient | the response-envelope classification and the list filters of the three Codeforces clients |
| clist.dfy | Clist | clist.by contests, their texts, `can_join`, and the upcoming-contest lists |
| predicted_deltas.dfy | PredictedDeltas | the event-driven table-row parser |
| cf_update.dfy | CfUpdate | handle reconciliation, the submission diff, contest selection, the delta source, reminders |
| cf_update_legacy.dfy | CfUpdateLegacy | the older update service, compared with the current one |
| verification.dfy | Verification | `verify` and the verification check in its three deployments |
| bot_commands.dfy | BotCommands | the Cloud Functions bot |
| bot_commands_legacy.dfy | BotCommandsLegacy | the older bot, compared with the Cloud Functions bot |

Notes on the code:

- The submission diff compares whole submission records (`!=` on the model
  instances), not only the verdict and the test set.
- In `tgbot/cf_update/__init__.py` at line 124, `send_delta` with no started
  contest never evaluates `contests[-1]`, because the comprehension iterates
  an empty list. The report is then empty text, not an `IndexError`. The
  older `cf_update/main.py` does raise at `contests[0]`.
- In `gcp/tgbot.py` a bot sender's `/select` without a rating raises
  `TypeError`: `get_handle(user["id"])` subscripts `None`. The older bot
  answers it.

## Model

| member | source | states |
|---|---|---|
| CfModels.UserText | tgbot/codeforces/models.py:22-29 | `str(user)` fails, as `capwords(None)` does, exactly when a truthy rating comes without a rank or a peak rank; any text it gives opens with the linked handle line |
| CfModels.UserTextUnrated | tgbot/codeforces/models.py:24-28 | "Unrated" follows the handle line exactly when the rating is missing or zero |
| CfModels.ProblemLinkedName | tgbot/codeforces/models.py:39-49 | the linked name contains both the problem id and the problem URL |
| CfModels.ProblemIdInjective | tgbot/codeforces/models.py:39-41 | two problems whose indexes start with a letter and whose ids agree have the same contest and index |
| CfModels.GetAuthor | tgbot/codeforces/models.py:72-93 | a team has no author; an individual party's author is its first member, and a party without members raises |
| CfModels.ContestCountdown | tgbot/codeforces/models.py:130-139 | "Starts in" exactly before the start, counting down to the start; "Ends in" from the start on, counting down to start plus duration |
| CfClient.Unwrap | tgbot/codeforces/client.py:36-41 | only an OK envelope succeeds and yields its result; a FAILED one raises a `CodeforcesError`; an undecodable body raises the JSON error |
| CfClient.NotFoundClassification | tgbot/codeforces/client.py:36-40 | a FAILED envelope becomes "Not found" exactly when its lower-cased comment contains "not found" |
| CfClient.SyncRequest | tgbot/codeforces/client.py:18-41 | a response without a `Content-Type` header raises `KeyError`; then the outage text, a 504 HTML page and a non-JSON content type are rejected in that order, with their messages; success exactly for a JSON OK envelope otherwise |
| CfClient.LegacyRequest | tgbot/codeforces/__init__.py:18-30 | only the outage text is checked before the envelope; success exactly for an OK envelope without it |
| CfClient.RunToPlusJsonIff | tgbot/codeforces/async_client.py:28 | the recursive reading of aiohttp's `[\w.+-]+?\+json` part is a run of that class whose last character is `+`, followed by `json` |
| CfClient.JsonPrefixAccepted | tgbot/codeforces/async_client.py:28 | the media-type match is anchored only at the start, so any type beginning `application/json` is decoded |
| CfClient.PlusJsonAccepted | tgbot/codeforces/async_client.py:28 | every `application/<run>+json` type is decoded, whatever follows it |
| CfClient.ProblemJsonAccepted | tgbot/codeforces/async_client.py:28 | `application/problem+json` is decoded |
| CfClient.EmptyRunRefused | tgbot/codeforces/async_client.py:28 | `application/+json` is refused: the run before `+` cannot be empty |
| CfClient.OtherTypesRefused | tgbot/codeforces/async_client.py:28 | a media type outside `application/` is refused |
| CfClient.AsyncRequest | tgbot/codeforces/async_client.py:22-34 | after the outage text, a media type aiohttp's `resp.json()` does not decode (see `JsonAccepted`: `application/json`, the `+json` types, and anything they prefix) raises `ContentTypeError` before decoding; an undecodable body of an accepted type raises the decode error; success exactly for an accepted type and an OK envelope |
| CfClient.AsyncDecodesPlusJson | tgbot/codeforces/async_client.py:25-34 | an `application/problem+json` answer without the outage text is classified by its envelope alone |
| CfClient.AsyncRefinesLegacy | tgbot/codeforces/async_client.py:22-34 | the asynchronous client answers as the older one on a media type aiohttp decodes and otherwise raises `ContentTypeError` unless the outage text came first; whatever it accepts the older one accepts alike |
| CfClient.AsyncAgrees | tgbot/codeforces/async_client.py:22-34 | on a JSON response that is not a 504 page and has a media type aiohttp decodes, all three clients classify alike |
| CfClient.RequestsAgree | tgbot/codeforces/__init__.py:18-30 | on a JSON response that is not a 504 page the synchronous and the older client classify alike |
| CfClient.SyncStricter | tgbot/codeforces/client.py:18-27 | whatever the synchronous client accepts the older one accepts with the same result |
| CfClient.GetUser | tgbot/codeforces/client.py:43-44 | the first user returned; an empty list raises `IndexError`; a request error passes through |
| CfClient.StatusParams | tgbot/codeforces/client.py:51-54 | the handle is always sent, and `count` exactly when one is given |
| CfClient.GetStatus | tgbot/codeforces/client.py:51-58 | keeps exactly the fetched submissions by a non-team author to problems outside any problemset |
| CfClient.AsyncGetStatus | tgbot/codeforces/async_client.py:45-50 | the asynchronous client returns every fetched submission unfiltered, and only for a media type aiohttp decodes; any other media type raises `ContentTypeError` after the outage check |
| CfClient.StatusVariants | tgbot/codeforces/client.py:56-57 | where the synchronous client answers and aiohttp decodes the media type, its list is the asynchronous list filtered, in the same order |
| CfClient.ArchiveProblems | tgbot/codeforces/client.py:60-65 | keeps exactly the problems outside any problemset |
| CfClient.AvailableTags | tgbot/codeforces/client.py:67-70 | a tag is available exactly when some problem carries it |
| CfClient.SelectContests | tgbot/codeforces/client.py:72-79 | the result holds exactly the contests in one of the phases (all when none are given), is a permutation of them and is sorted by start time |
| CfClient.GetContests | tgbot/codeforces/client.py:72-79 | succeeds exactly when the request does, with the selected contests |
| CfClient.LegacySelectContests | tgbot/codeforces/__init__.py:50-56 | exactly the BEFORE and CODING contests, sorted by start time |
| CfClient.LegacyContestsAreDefault | tgbot/codeforces/async_client.py:52-58 | the fixed-phase selection equals the synchronous one with its default phases |
| Utils.Plural | tgbot/utils.py:16-17 | the suffix is empty exactly for a count of one, and "s" otherwise |
| Utils.Decompose | tgbot/utils.py:20-27 | days, hours, minutes and seconds add back up to the total, with hours below 24 and minutes and seconds below 60 |
| Utils.DecomposeUnique | tgbot/utils.py:21-27 | any decomposition with hours, minutes and seconds in range is the one computed |
| Utils.ZeroParts | tgbot/utils.py:21-27 | the only in-range decomposition of zero seconds is all zeros |
| Utils.UnitsFrom | tgbot/utils.py:29-37 | the non-zero units from a position on, in listing order, add up to the seconds those units account for |
| Utils.NoUnitsOfZero | tgbot/utils.py:30-37 | zero seconds list no unit |
| Utils.Units | tgbot/utils.py:29-37 | at most four non-zero units, strictly largest first, adding up to the duration; none exactly for a zero duration |
| Utils.RenderUnits | tgbot/utils.py:31-37 | each listed unit is rendered in place, one piece per unit |
| Utils.RenderUnitShape | tgbot/utils.py:31-37 | a rendered unit starts with its count and ends in "s" exactly when the count is not one |
| Utils.DurationEmptyIff | tgbot/utils.py:39 | the duration text is empty exactly for a zero duration |
| Utils.Duration | tgbot/utils.py:20-39 | at most the first two non-zero units, largest first, joined by one space: nothing for a zero duration, the one unit alone, or the first two units |
| Utils.CountdownText | tgbot/codeforces/models.py:136-139 | "Starts in " or "Ends in " followed by exactly the duration text of the count |
| Utils.CountdownAt | tgbot/codeforces/models.py:135-139 | "Starts in" strictly before the start with a positive count to it; "Ends in" from the start on, counting to the end |
| Clist.LinkedName | tgbot/clist/models.py:29-31 | an unknown judge raises `KeyError`; otherwise the text starts with the judge's display name and contains the event |
| Clist.EndPart | tgbot/clist/models.py:35-38 | the end is written with its full date exactly when the contest lasts at least one day |
| Clist.Describe | tgbot/clist/models.py:33-49 | fails exactly for an unknown judge; otherwise one linked name, the end format above, and "Starts in" exactly before the start, counting to the start, else counting to the end |
| Clist.CanJoin | tgbot/clist/models.py:51-56 | two contests can be merged exactly when judge, start and end agree |
| Clist.CanJoinEquivalence | tgbot/clist/models.py:51-56 | mergeability is reflexive, symmetric and transitive |
| Clist.JoinStr | tgbot/clist/models.py:58-75 | succeeds exactly when both judges are known; the times and format are the first contest's, then both names, the first contest's first |
| Clist.JoinStrSymmetric | tgbot/clist/models.py:58-75 | merging two mergeable contests the other way round changes only the order of the two names |
| Clist.JoinStrExtendsDescribe | tgbot/clist/models.py:58-75 | the merged text is the first contest's own text with the second name appended |
| Clist.Objects | tgbot/clist/client.py:29-31 | only a body with an `objects` list succeeds, yielding that list |
| Clist.SyncRequest | tgbot/clist/client.py:18-31 | a response without a `Content-Type` header raises `KeyError`; a header not mentioning `application/json` raises the non-JSON error; success exactly for a JSON header and a body with objects |
| Clist.AsyncRequest | tgbot/clist/async_client.py:26-40 | a media type other than exactly `application/json` raises the non-JSON error; success exactly for that type and a body with objects |
| Clist.RequestsAgree | tgbot/clist/async_client.py:26-40 | once the content type passes both checks, both clients read the body alike |
| Clist.CodePoints | tgbot/clist/client.py:40 | the event name's key has one code point per character, in order |
| Clist.Upcoming | tgbot/clist/client.py:38-39 | keeps exactly the contests starting at most 14 days from now |
| Clist.SyncUpcoming | tgbot/clist/client.py:33-41 | a permutation of the contests within two weeks, sorted by start, end and event name |
| Clist.KeyStartsWithTimes | tgbot/clist/client.py:40 | the synchronous sort key begins with the start and the end |
| Clist.AsyncUpcoming | tgbot/clist/async_client.py:42-50 | a permutation of the contests within two weeks, sorted by start and end |
| Clist.AsyncUpcomingStable | tgbot/clist/async_client.py:49 | contests with equal start and end keep their fetched order |
| Clist.UpcomingVariantsAgree | tgbot/clist/async_client.py:42-50 | both clients list the same contests, the same number of times |
| Sorting.LexLeReflexive | tgbot/clist/client.py:40 | the key order is reflexive |
| Sorting.LexLeTotal | tgbot/clist/client.py:40 | any two keys are comparable |
| Sorting.LexLeTransitive | tgbot/clist/client.py:40 | the key order is transitive |
| Sorting.LexLeAntisymmetric | tgbot/clist/client.py:40 | keys that compare both ways are equal |
| Sorting.LexLePairs | tgbot/clist/async_client.py:49 | a pair key compares its first components first, then its second |
| Sorting.Insert | tgbot/clist/client.py:40 | inserting adds exactly the one element and keeps a sorted list sorted |
| Sorting.SortBy | tgbot/codeforces/client.py:78 | `list.sort(key=...)` returns a sorted permutation of its input |
| Sorting.SortByMembers | tgbot/codeforces/client.py:78 | sorting keeps exactly the elements it was given |
| Sorting.InsertKeyFilter | tgbot/codeforces/client.py:78 | insertion puts the new element before every element with an equal key that it is inserted into |
| Sorting.SortStable | tgbot/codeforces/client.py:78 | the sort is stable: elements with equal keys keep their relative order |
| Sorting.KeyFilterMembers | tgbot/codeforces/client.py:78 | the elements with a given key come from the input and have that key |
| Sorting.SortedHeadIsFirstMinimum | cf_update/main.py:85-88 | the first element after sorting has the smallest key and is the earliest input element with that key |
| PredictedDeltas.SignedChange | cf_update/predicted_deltas.py:32-34 | the change always starts with a sign; it is kept as is exactly when it already starts with `-`, otherwise `+` is put in front |
| PredictedDeltas.RowOf | cf_update/predicted_deltas.py:32-35 | fewer than three cells raise `IndexError`; a rank cell that is not an integer raises `ValueError`; otherwise the rank, the handle cell and the signed change |
| PredictedDeltas.Step | cf_update/predicted_deltas.py:16-37 | each callback's effect: `<tbody>` starts and `</tbody>` stops parsing, `<tr>` and `<td>` reset the row and the cell, text is collected only while parsing, `</td>` appends the stripped cell and `</tr>` stores the row under its handle |
| PredictedDeltas.FeedAppend | cf_update/predicted_deltas.py:47-48 | feeding two chunks in turn is feeding their concatenation |
| PredictedDeltas.Feed | cf_update/predicted_deltas.py:47-48 | only the end of a row can raise or touch the stored table: callbacks without a `</tr>` always succeed and keep it |
| PredictedDeltas.FeedKeepsWellFormed | cf_update/predicted_deltas.py:28-35 | every stored row stays filed under its own handle with a signed change |
| PredictedDeltas.FeedOutsideTable | cf_update/predicted_deltas.py:24-37 | before any `<tbody>` nothing is stored and no text is collected |
| PredictedDeltas.CellStep | cf_update/predicted_deltas.py:21-30 | one cell inside the table appends its stripped text to the row |
| PredictedDeltas.CellsStep | cf_update/predicted_deltas.py:21-30 | cells inside the table append their stripped texts to the row in order and store nothing |
| PredictedDeltas.RowFeed | cf_update/predicted_deltas.py:19-35 | a whole row inside the table ends in the `</tr>` step with exactly its stripped cells as the row |
| PredictedDeltas.ShortRowRaises | cf_update/predicted_deltas.py:32 | a row of fewer than three cells raises `IndexError` |
| PredictedDeltas.BadRankRaises | cf_update/predicted_deltas.py:35 | a row whose rank cell is not an integer raises `ValueError` |
| PredictedDeltas.RowRoundTrip | cf_update/predicted_deltas.py:28-35 | a rendered row is stored under its handle with its rank and signed change read back exactly |
| PredictedDeltas.RowCellsStripped | cf_update/predicted_deltas.py:28-30 | the cells of a rendered row have no surrounding whitespace, so stripping keeps them |
| PredictedDeltas.RowCellsParsed | cf_update/predicted_deltas.py:32-35 | the cells of a rendered row are read back as its rank, handle and signed change |
| PredictedDeltas.RowStored | cf_update/predicted_deltas.py:19-35 | a row of stripped cells that parses is stored under its handle, and nothing else in the table changes |
| PredictedDeltas.RowsRoundTrip | cf_update/predicted_deltas.py:28-35 | rendered rows are stored one after the other, each under its handle |
| PredictedDeltas.StoreLastWins | cf_update/predicted_deltas.py:35 | a later row with the same handle overwrites the earlier one and nothing else |
| PredictedDeltas.StoreOthersUnchanged | cf_update/predicted_deltas.py:35 | a handle that occurs in no row keeps its entry |
| PredictedDeltas.TableRoundTrip | cf_update/predicted_deltas.py:40-50 | a rendered table is read back completely: each handle maps to its last row, and parsing has stopped |
| CfUpdate.Reconcile | tgbot/cf_update/__init__.py:57-66 | the stored handles become the kept wanted ones plus the newly fetched ones; kept entries are untouched; every wanted unstored handle is either stored with its fetch or has a failing fetch |
| CfUpdate.Init | tgbot/cf_update/__init__.py:47-68 | an unauthenticated call changes nothing and fails; otherwise the store is reconciled, and success is reported exactly when every initial fetch succeeded |
| CfUpdate.ReconcileKeys | tgbot/cf_update/__init__.py:57-66 | after a reconcile without failing fetches the stored handles are exactly the wanted ones |
| CfUpdate.ReconcileIdempotent | tgbot/cf_update/__init__.py:57-66 | reconciling again with the same handles fetches nothing and changes nothing |
| CfUpdate.IdIndex | tgbot/cf_update/__init__.py:162 | the index holds exactly the ids of the stored submissions, each with a submission carrying it |
| CfUpdate.IdIndexUnique | tgbot/cf_update/__init__.py:162 | with distinct ids, each submission is found under its own id |
| CfUpdate.UpdatedStatus | tgbot/cf_update/__init__.py:163 | keeps a fetched submission exactly when its id is new or its stored record differs |
| CfUpdate.UpdatedStatusInOrder | tgbot/cf_update/__init__.py:163 | the updates of two fetched runs in a row are the updates of each, in turn: fetched order is kept |
| CfUpdate.UpdatedStatusCount | tgbot/cf_update/__init__.py:163 | a new or changed submission is kept as often as it was fetched, any other never |
| CfUpdate.UpdatedUnique | tgbot/cf_update/__init__.py:162-163 | with distinct stored ids, the updated list is the fetched submissions not already stored |
| CfUpdate.UpdatedOfSelf | tgbot/cf_update/__init__.py:162-163 | a list compared with itself has no updates |
| CfUpdate.FirstLookupError | tgbot/cf_update/__init__.py:165-170 | no error exactly when every submission's contest can be looked up |
| CfUpdate.Announced | tgbot/cf_update/__init__.py:169-172 | announces a submission exactly when its contest resolves and `should_notify` accepts it |
| CfUpdate.AnnouncedInOrder | tgbot/cf_update/__init__.py:169-172 | the announcements of two runs in a row are those of each, in turn: order is kept |
| CfUpdate.AnnouncedCount | tgbot/cf_update/__init__.py:169-172 | an accepted submission is announced as often as it occurs, any other never |
| CfUpdate.Poll | tgbot/cf_update/__init__.py:147-180 | a missing handle raises `IndexError`; a failing fetch raises its error; a successful poll replaces that handle's snapshot by the fetched list and announces exactly the accepted updated submissions, and succeeds exactly when their contests resolve |
| CfUpdate.PollTwice | tgbot/cf_update/__init__.py:154-180 | polling again with the same answer announces nothing and changes nothing |
| CfUpdate.WithStickers | tgbot/cf_update/__init__.py:174 | one announcement per submission, with an accepted sticker exactly for an `OK` verdict |
| CfUpdate.UpdateStatus | tgbot/cf_update/__init__.py:154-182 | a successful poll stores its snapshot and sends its announcements with stickers; a failed poll changes nothing and sends nothing, swallowing a `CodeforcesError` and letting anything else escape |
| CfUpdate.PollAnnouncesAccepted | tgbot/cf_update/__init__.py:154-180 | when every contest resolves, the poll raises nothing, stores the fetched list and announces with stickers every updated submission `should_notify` accepts, in order |
| CfUpdate.OnlyUpdatedAnnounced | tgbot/cf_update/__init__.py:163-172 | every announced submission was fetched and is new or changed |
| CfUpdate.StartedSorted | tgbot/cf_update/__init__.py:121-123 | exactly the contests that are not BEFORE, sorted by start time and id |
| CfUpdate.StartedSortedIsSorted | tgbot/cf_update/__init__.py:123 | the started contests are in start-and-id order |
| CfUpdate.StartedLastIsLatest | tgbot/cf_update/__init__.py:123-124 | the last started contest starts no earlier than any other |
| CfUpdate.WithStart | tgbot/cf_update/__init__.py:124 | keeps exactly the contests with the given start time |
| CfUpdate.LaterSameStart | tgbot/cf_update/__init__.py:123 | among contests with the same start, a later one has no smaller id |
| CfUpdate.WithStartOrdered | tgbot/cf_update/__init__.py:123-124 | the contests kept for one start time are in id order |
| CfUpdate.LastStartsLatest | tgbot/cf_update/__init__.py:124 | in the sorted list the last contest starts latest |
| CfUpdate.SelectLatestMembers | tgbot/cf_update/__init__.py:121-124 | the selected contests have started and share one start time |
| CfUpdate.SelectLatestEmpty | tgbot/cf_update/__init__.py:122-124 | nothing is selected exactly when no contest has started; the comprehension then never reads the last element |
| CfUpdate.SelectLatestUnfold | tgbot/cf_update/__init__.py:123-124 | with a started contest, the selection is the contests sharing the last one's start |
| CfUpdate.SelectLatestMaximal | tgbot/cf_update/__init__.py:121-124 | every started contest starts no later than the selected ones, and one with the same start is selected |
| CfUpdate.SelectLatestOrdered | tgbot/cf_update/__init__.py:123-124 | the selected contests are in id order |
| CfUpdate.SelectLatest | tgbot/cf_update/__init__.py:121-124 | only started contests from the list are selected |
| CfUpdate.DeltaSource | tgbot/cf_update/__init__.py:80-95 | before the end the prediction is used; after it the official changes are used exactly when they are fetched and non-empty; only an error without "Rating changes are unavailable" escapes |
| CfUpdate.OfficialNotConsultedEarly | tgbot/cf_update/__init__.py:82 | before the end the official answer does not matter |
| CfUpdate.DeltaRows | tgbot/cf_update/__init__.py:98-100 | one row per tracked handle found in the table, none exactly when no handle is found |
| CfUpdate.DeltaRowsOrder | tgbot/cf_update/__init__.py:98-100 | the row list handed to `render` comes in the order of the tracked handles |
| CfUpdate.GetDeltaTable | tgbot/cf_update/__init__.py:80-109 | the source's error or the prediction's error escapes; otherwise "No members" exactly when no tracked handle is in the chosen table, and a table's row list, before rendering, holds one row per tracked handle found, in tracked order: the predicted rows, or the official changes as table rows |
| CfUpdate.DeltaTableText | tgbot/cf_update/__init__.py:102-109 | "No members are competing in " followed by the contest name, or the source, "rating changes for" and the name, then the rendered rows in `<pre>` |
| CfUpdate.RowsOf | tgbot/cf_update/__init__.py:100 | each official entry is turned into its table row, in order |
| CfUpdate.Tables | tgbot/cf_update/__init__.py:126 | one table per selected contest, in order |
| CfUpdate.SendDelta | tgbot/cf_update/__init__.py:112-133 | the report's tables are exactly one per latest started contest, in order, and the first error escapes; the system-test note exactly when one of them is in SYSTEM_TEST; no started contest gives an empty report |
| CfUpdate.TablesText | tgbot/cf_update/__init__.py:126-127 | one text per table, each the text of the table at its place |
| CfUpdate.ReportText | tgbot/cf_update/__init__.py:126-129 | every table's text is in the report, and the system-test note closes it when it is due; no tables give only the note or nothing |
| CfUpdate.MinuteFloor | tgbot/cf_update/__init__.py:203 | `now` with seconds cut off: a whole minute at most `now`, less than a minute before it |
| CfUpdate.ReminderMinutes | tgbot/cf_update/__init__.py:206-214 | a reminder offset is chosen exactly when the contest starts that many minutes after the current minute |
| CfUpdate.Reminders | tgbot/cf_update/__init__.py:206-214 | every contest starting at one of the offsets is reminded of, and only those |
| CfUpdate.UpcomingReminders | tgbot/cf_update/__init__.py:206-214 | only 5, 15 and 60 minutes before the start, measured from the current minute |
| CfUpdate.ReminderText | tgbot/cf_update/__init__.py:216-219 | the text starts with the linked name; an unknown judge raises |
| CfUpdate.SendReminders | tgbot/cf_update/__init__.py:206-222 | reminders are sent in order until the first one whose text raises, which stops the rest |
| CfUpdateLegacy.LegacyUpdateStatus | cf_update/main.py:137-166 | a successful poll stores its snapshot and announces its submissions; a failed one changes nothing and lets every exception escape, `IndexError` for a missing handle |
| CfUpdateLegacy.Submissions | cf_update/main.py:151-161 | the announced submissions, one per announcement, in order |
| CfUpdateLegacy.PollVariantsAgree | cf_update/main.py:144-166 | both services store the same snapshot and announce the same submissions; the current one only swallows `CodeforcesError` |
| CfUpdateLegacy.LatestFirst | cf_update/main.py:86-87 | exactly the started contests, each as often as listed, in non-increasing start time |
| CfUpdateLegacy.PickLatest | cf_update/main.py:85-88 | no started contest raises `IndexError`; otherwise a started contest is picked |
| CfUpdateLegacy.PickLatestIsFirstLatest | cf_update/main.py:86-88 | the pick starts no earlier than any started contest and is the first listed among those with its start |
| CfUpdateLegacy.PickIsSelected | cf_update/main.py:85-88 | the contest the older service reports on is one the current service reports on |
| CfUpdateLegacy.LegacyDeltaSource | cf_update/main.py:90-99 | before the end the prediction; after it any fetched official answer, even an empty one; only an error without "Rating changes are unavailable" escapes |
| CfUpdateLegacy.DeltaSourcesAgree | cf_update/main.py:90-99 | the two services choose differently exactly when the contest has ended and the official answer is empty |
| CfUpdateLegacy.LegacySendDelta | cf_update/main.py:75-127 | unauthenticated calls are refused; no started contest raises `IndexError`; for the picked contest the source's or the prediction's error escapes, and otherwise the table is sent with one row per tracked handle found, in tracked order, from the prediction or the official changes |
| CfUpdateLegacy.OfficialTable | cf_update/main.py:110-113 | an official change becomes the row of rank, handle and delta under the same handle, for exactly the handles changed |
| CfUpdateLegacy.LegacyEmptyTable | cf_update/main.py:101-109 | with no tracked handle in the prediction the report is an empty table, not a "No members" line |
| CfUpdateLegacy.LegacyReminders | cf_update/main.py:185-195 | only 5 and 15 minutes ahead, measured from the current minute |
| CfUpdateLegacy.LegacyReminderText | cf_update/main.py:197 | the text fails exactly for an unknown judge and matches the current wording for 5 and 15 minutes |
| CfUpdateLegacy.OffsetsUnfold | cf_update/main.py:190-195 | the offsets are tried in order, and a start matches at most one of them |
| CfUpdateLegacy.LegacyRemindersAreCurrentOnes | cf_update/main.py:189-195 | the older reminders are the current ones without the hourly reminder |
| Verification.Verify | cf_verification/main.py:65-71 | the handle is verified exactly when one of its fetched submissions is to the problem, at most ten minutes old and, in the standalone deployment, not a team's |
| Verification.VerdictIgnored | tgbot/functions.py:17-23 | the verdict of a submission plays no part: a wrong answer proves the handle as well as an accepted one |
| Verification.TeamFilterStronger | cf_verification/main.py:67 | refusing team submissions can only turn a success into a failure, and changes nothing when no submission is a team's |
| Verification.WrappedKeyIsNoUserKey | tgbot/functions.py:30 | the document key of a payload that holds an object, `str({'user_id': ...})`, is the key of no user |
| Verification.Decide | tgbot/functions.py:43-92 | on success the record is removed, the handle bound, the user told and approved, and the handle list posted exactly in the deployments that post it; below 19 checks the count rises by one and one check is scheduled 30 seconds later; otherwise the record is removed and the failure told |
| Verification.CheckWith | gcp/main.py:23-89 | a missing record answers "doc was deleted" and changes nothing; a failing submission fetch is the only error; otherwise the outcome is the decision on the fetched submissions |
| Verification.Check | gcp/main.py:73-76 | a pending check schedules the next check with the very payload it received |
| Verification.CheckAsWritten | tgbot/functions.py:76-79 | a pending check of the `tgbot` deployment schedules a payload wrapped once more |
| Verification.UnprovenCheck | cf_verification/main.py:118-135 | a check of a user with no submission to the problem is decided as unverified |
| Verification.ExpiresAfterTwentyChecks | gcp/main.py:73-89 | a user who never submits to the problem gets `19 - count` "pending" answers and then "verification failed", after which the record is gone |
| Verification.TwentyChecksAtMost | cf_verification/main.py:118-135 | a fresh record of a user who never submits gets exactly twenty checks, the last one failing and deleting the record |
| Verification.Follow | gcp/main.py:73-89 | at most `n` answers; with no answer the store is unchanged; there is a first answer exactly when the first check succeeds, and it is that check's answer |
| Verification.AsWrittenStallsAfterOneCheck | tgbot/functions.py:76-79 | as written, the second check finds no record and answers "doc was deleted", so the record stays pending with its count raised by one |
| Verification.AsWrittenFirstCheck | tgbot/functions.py:43-79 | the first check of a user who has not submitted is pending, raises the count by one and queues the next check with the payload wrapped |
| Text.Strip | gcp/tgbot.py:55 | `strip()` gives a trimmed slice of its input: everything before the slice and everything after it is whitespace, and a result as long as the input is the input itself |
| Text.StripLeft | gcp/tgbot.py:55 | `lstrip()` leaves nothing or a first character that is not whitespace |
| Text.StripRight | gcp/tgbot.py:55 | `rstrip()` leaves nothing or a last character that is not whitespace |
| Text.StripIdempotent | gcp/tgbot.py:103 | stripping an already stripped entry changes nothing |
| Text.Split | gcp/tgbot.py:103 | `split(sep)` gives at least one piece, no piece holds the separator, and joining the pieces with it gives the input back |
| Text.SplitJoin | gcp/tgbot.py:108 | splitting the join of separator-free pieces gives exactly those pieces |
| Text.SplitOnce | gcp/tgbot.py:105 | `split(sep, maxsplit=1)` cuts at the first separator, or gives the whole input as the only piece when there is none |
| Text.SplitOnceAt | gcp/tgbot.py:48 | a text whose head holds no separator splits exactly after that head |
| Text.RemoveAllAbsent | gcp/tgbot.py:49 | `replace(pat, "")` leaves a text without `pat` unchanged |
| Text.RemoveAllPrefix | gcp/tgbot.py:49 | text before the first character of the pattern is kept as it is |
| Text.Lower | tgbot/codeforces/client.py:37 | `lower()` keeps the length and lowers each letter of the ASCII range |
| Text.IntToStringRoundTrip | gcp/tgbot.py:112 | `int(str(n)) == n` for every integer |
| Text.IntToStringInjective | gcp/common.py:62 | distinct user ids name distinct documents |
| Text.JoinTwo | tgbot/utils.py:39 | two pieces join as the first, the separator and the second |
| Text.JoinContains | tgbot/cf_update/__init__.py:127 | each piece occurs in the joined text |
| Collections.Filter | gcp/tgbot.py:23 | a comprehension keeps exactly the elements meeting the condition, and nothing else |
| Collections.FilterFilter | gcp/tgbot.py:22-30 | successive comprehensions filter by the conjunction of their conditions |
| Collections.FilterCongruent | gcp/tgbot.py:27-30 | conditions that agree on every element filter alike |
| Collections.FilterAppend | tgbot/cf_update/__init__.py:163 | filtering two runs in a row filters each, in turn |
| BotCommands.ExtractCommand | gcp/tgbot.py:47-55 | the command holds no space, the argument is stripped, and a text without a space has the empty argument |
| BotCommands.ExtractCommandRoundTrip | gcp/tgbot.py:47-55 | a command typed plainly or addressed to the bot by name, then a space and an argument, comes back as that command and the stripped argument |
| BotCommands.Caller | gcp/tgbot.py:52-54 | a bot sender is no user; any other sender is the user with its id |
| Text.StripEach | gcp/tgbot.py:103 | each piece is stripped, and none is dropped or reordered |
| BotCommands.Pieces | gcp/tgbot.py:103 | every piece the query is cut into is trimmed, non-empty and free of the separator |
| BotCommands.PiecesOfJoin | gcp/tgbot.py:103 | pieces that are trimmed, non-empty and free of the separator are read back from their join unchanged |
| BotCommands.TagSet | gcp/tgbot.py:108-110 | every tag read is trimmed, non-empty and free of `,` |
| BotCommands.TagSetOfJoin | gcp/tgbot.py:108-110 | a `tags=` value written from writable tags yields exactly those tags |
| BotCommands.ParseRatingSingle | gcp/tgbot.py:112-114 | a single non-negative bound stands for the range from it to itself |
| BotCommands.ParseRatingPair | gcp/tgbot.py:112 | `lo-hi` with a non-negative `lo` is read as the range from `lo` to `hi` |
| BotCommands.NegativeLowerBoundInvalid | gcp/tgbot.py:112 | a range starting with `-` is invalid, because `int("")` raises |
| BotCommands.ParseRating | gcp/tgbot.py:112-114 | a single bound stands for both ends and is valid exactly when it is an integer; a range is valid exactly when both bounds are integers |
| BotCommands.ParseEntry | gcp/tgbot.py:105-116 | an entry is accepted exactly when it has `=` and its key is `tags`, or `rating` with a valid range |
| BotCommands.ParseEntries | gcp/tgbot.py:104-117 | the query is accepted exactly when every entry is valid, so one bad entry makes it invalid; tags only accumulate |
| BotCommands.AllValidEvery | gcp/tgbot.py:104-117 | validity entry by entry from the front is every entry being valid |
| BotCommands.ParseSelect | gcp/tgbot.py:102-118 | a `/select` argument is accepted exactly when each of its non-blank bar-separated pieces is a valid entry |
| BotCommands.ParseSelectRoundTrip | gcp/tgbot.py:102-118 | a query written as a `tags=` entry and a `rating=lo-hi` entry joined by a bar, with writable tags and a non-negative `lo`, parses back to the same tag set and range |
| BotCommands.ParseTwoEntries | gcp/tgbot.py:103-114 | a tags entry and a rating entry separated by a bar give the tags of the first and the range of the second |
| BotCommands.EntriesParse | gcp/tgbot.py:104-114 | tags accumulate from the empty set, and the rating entry sets the range |
| BotCommands.EmptyQuery | gcp/tgbot.py:99-103 | an empty argument is the query with no tags and no rating |
| BotCommands.PlainStage | gcp/tgbot.py:22-23 | the `*special` filter, applied only when the tags do not ask for `*special`, keeps exactly the problems the condition allows |
| BotCommands.TagStage | gcp/tgbot.py:24-25 | the tag filter, applied only for a non-empty tag set, keeps exactly the problems carrying every tag |
| BotCommands.RatingStage | gcp/tgbot.py:26-30 | the rating filter, applied only when a range is given, keeps exactly the rated problems within it |
| BotCommands.CandidatesAreEligible | gcp/tgbot.py:20-30 | the three filters together keep, in order, exactly the eligible problems |
| BotCommands.CandidatesSound | gcp/tgbot.py:20-33 | every candidate is an eligible problem from the list, and there is none exactly when no problem is eligible |
| BotCommands.Select | gcp/tgbot.py:20-33 | there is no answer exactly when no problem is eligible; an answer is an eligible problem from the list |
| BotCommands.GetHandle | gcp/common.py:61-64 | a handle is found exactly when a binding is stored under the user's id |
| BotCommands.SuggestedMin | gcp/tgbot.py:123-126 | the suggested minimum is a multiple of 100, at least the user's rating and at least 800, and less than 100 above the larger of the two |
| BotCommands.SuggestedRange | gcp/tgbot.py:127 | the suggested range starts at the rounded-up minimum `SuggestedMin` and spans 200 points from it |
| BotCommands.Search | gcp/tgbot.py:129-136 | a failing problem fetch is the only error; a found problem is eligible; no match means no problem is eligible for the criteria reported |
| BotCommands.Answer | gcp/tgbot.py:119-136 | fails exactly when the problems cannot be fetched, a bot asks without a range (`TypeError`), or a registered user asks without a range and the user lookup fails, with that error; an explicit range is searched as given, an unregistered user searches without one, and a registered user's suggested range is searched when it has an eligible problem, with a fallback to no range otherwise; a found problem is eligible, and a no match reports exactly the query's tags and range and means no problem is eligible for them |
| BotCommands.SelectCommand | gcp/tgbot.py:98-136 | "Your query is invalid" is the answer exactly when the argument does not parse; otherwise the answer to the parsed query, so a found problem is eligible for the parsed tags and range, and a no match reports exactly them |
| BotCommands.SelectText | gcp/tgbot.py:118-136 | the invalid notice is sent exactly for an invalid query; a found problem's reply shows its linked name; a no match opens with "no problem match search criteria" |
| BotCommands.ProblemText | tgbot/codeforces/models.py:51-55 | `str(problem)` opens with the problem's linked name |
| BotCommands.Owners | gcp/tgbot.py:159-160 | when the listing covers every document, the collision query streams a document exactly when its binding holds the handle, and nothing exactly when no binding holds it |
| BotCommands.SignOn | gcp/tgbot.py:137-186 | no user means no reply and no change; a handle some binding holds is refused, as the user's own exactly when the first owner is the user; only a started sign-on writes, for a handle no binding holds, a record with count 0 and a problem rated 3000 to 3500 under the user's id, scheduling its check 30 seconds later; "cannot be found" exactly for a Codeforces "Not found"; it fails exactly for another lookup error, or for a free handle when the problems cannot be fetched or none is rated 3000 to 3500 (`AttributeError`) |
| BotCommands.FreeHandleStarts | gcp/tgbot.py:150-186 | a found handle no binding holds starts a verification whenever some problem is rated 3000 to 3500 |
| BotCommands.SignOnOpensCheck | gcp/tgbot.py:171-180 | the scheduled check names the record just written, whose count is 0 |
| BotCommands.UnansweredSignOnExpires | gcp/tgbot.py:170-186 | after a sign-on by a user who never submits to the problem, twenty checks follow and the last fails and deletes the record |
| BotCommands.StartedText | gcp/tgbot.py:182-186 | the sign-on reply names the linked problem to submit to |
| BotCommands.SignOnText | gcp/tgbot.py:137-186 | a sign-on sends a text unless it had no user |
| BotCommands.JoinRequest | gcp/tgbot.py:217-236 | a join request is approved exactly when the user holds a non-empty handle; otherwise the user is told how to register and the request is declined 30 minutes later |
| BotCommands.VerifiedUserJoins | gcp/main.py:40-71 | after a successful verification the user's join request is approved |
| BotCommands.ResponseOutput | gcp/tgbot.py:238-247 | a non-empty text reply to a message goes to that chat with its preview switch; otherwise the structured response |
| BotCommands.Guard | gcp/tgbot.py:62-66 | only "Codeforces is temporarily unavailable." is turned into a reply saying so; every other exception escapes |
| BotCommands.Hello | gcp/tgbot.py:250-261 | an escaping exception answers nothing; an unavailable Codeforces is reported to the chat; a digest is answered with its response output |
| BotCommands.MessageChat | gcp/tgbot.py:239-242 | an update has a chat exactly when it is a message |
| BotCommands.Command | gcp/tgbot.py:68-211 | `/select` answers with the text of `SelectCommand` and changes nothing, the sign-on aliases answer with `SignOn` and keep its store and tasks, and errors of either escape; every other modelled command answers nothing; the commands left out of the model are recognised as such |
| BotCommands.Digester | gcp/tgbot.py:36-66 | a text message goes to the command handler, with its unavailable error turned into a reply; a joining member is greeted with "妳好" unless it is a bot; a join request gets its structured response and tasks; an unmodelled update answers nothing; the unavailable error never escapes |
| BotCommands.BotSignOnIgnored | gcp/tgbot.py:52-55 | a bot's `/sign_on`, under any alias, gets no reply and changes nothing |
| BotCommands.UnknownCallerSignOn | gcp/tgbot.py:137-140 | a sign-on without a user answers nothing and changes nothing |
| BotCommands.JoinRequestAnswered | gcp/tgbot.py:217-247 | a join request is answered with the response it computed, never with a text reply |
| BotCommandsLegacy.LegacySelectCommand | tgbot/main.py:114-139 | "Your query is invalid" exactly when the argument does not parse; a failing problem fetch is the only error; a found problem is eligible for the parsed tags and range; a no match reports exactly the parsed criteria and means no problem is eligible |
| BotCommandsLegacy.ExplicitRatingAgrees | tgbot/main.py:114-139 | with an explicit range the older and the newer bot answer a query alike, whoever sends it |
| BotCommandsLegacy.BotSelectOnlyLegacy | tgbot/main.py:115-136 | a bot's `/select` without a range is answered by the older bot, while the newer one raises `TypeError` |
| BotCommandsLegacy.LegacySignOn | tgbot/main.py:140-187 | no user means no reply and no change; anything but a sign-in leaves the bindings alone and sends nothing; a found handle that no other user holds is signed in at once, bound, confirmed in the chat and its join request approved; "taken" exactly when another user holds the handle; an error exactly for a lookup failure other than "Not found" |
| BotCommandsLegacy.ForeignOwnerHolds | tgbot/main.py:161-169 | a streamed holder other than the user exists exactly when a binding under another key holds the handle |
| BotCommandsLegacy.LegacyRefusesLess | tgbot/main.py:161-169 | what the older bot refuses as taken the newer bot refuses too; what the newer bot reports as someone else's the older bot refuses; a sign-on the newer bot starts, the older bot completes |
| BotCommandsLegacy.LegacySignOnIdempotent | tgbot/main.py:161-172 | signing on again with the same handle succeeds and changes the bindings no further |
| BotCommandsLegacy.OwnersAfterBind | tgbot/main.py:162-172 | after binding, the user is still the only holder of the handle among the streamed documents |
| BotCommandsLegacy.LegacySignOnText | tgbot/main.py:140-187 | a sign-on sends no text reply exactly when there was no user or the user was signed in, whose confirmation goes out separately |
| BotCommandsLegacy.LegacyJoinRequest | tgbot/main.py:209-228 | a join request is approved exactly when a binding is stored under the user's id; otherwise the user is told how to register and nothing is scheduled |
| BotCommandsLegacy.JoinApprovalsCompared | tgbot/main.py:209-228 | whom the newer bot lets in the older one lets in too; they differ only for a stored empty handle, which only the older bot accepts |
| BotCommandsLegacy.SignedInUserJoins | tgbot/main.py:171-187 | a user the older bot has just signed on is let into the group |
| BotCommandsLegacy.LegacyCommand | tgbot/main.py:88-203 | only `/sign_on` changes the bindings or sends a side message, with the outcome of `LegacySignOn`; `/select` replies with the reply text of its answer, and its errors escape unchanged |
| BotCommandsLegacy.LegacyDigester | tgbot/main.py:56-86 | a text message goes to the command handler, with its unavailable error turned into a reply; a joining member is greeted unless it is a bot; a join request gets its structured response without changing anything; the unavailable error never escapes |
| BotCommandsLegacy.AliasesIgnored | tgbot/main.py:140 | the aliases `/signon`, `/sign_in` and `/signin` of the newer bot get no reply from the older one and bind nothing |

## Left out

- Network and platform I/O is not modelled. This covers Telegram calls, HTTP requests to Codeforces and clist.by, Flask and aiohttp routing, and startup and cleanup hooks. The API answers are parameters. The messages a handler sends are returned as values.
- Firestore, TinyDB and Cloud Tasks are not modelled; they are I/O. The collections become maps, and a scheduled task becomes a returned effect. `gcp/common.py` and `tgbot/gcp_common.py` are only that plumbing. `get_handle` is modelled as a map lookup (`BotCommands.GetHandle`).
- The order in which a Firestore query streams documents is left to the store. It is a parameter (`order`) of the sign-on functions. The sign-on functions require that this listing names every stored binding, because a query streams every matching document. In what order it does so is not constrained.
- CfClient.AsyncRequest: its acceptance test `JsonAccepted` reads `\w` in aiohttp's pattern `^application/(?:[\w.+-]+?\+)?json` over ASCII letters, digits and `_`. A `+json` type whose run holds other Unicode word characters is refused here but decoded by aiohttp. Older aiohttp releases tested for the substring `application/json` instead; the model follows the pattern.
- How aiohttp derives the bare media type from the `Content-Type` header is not modelled. Both response types carry it as a separate field, `mediaType`, beside the raw header.
- Concurrency is not modelled: asyncio locks, `gather`, fire-and-forget tasks, and the sleeps between handles. The model runs each handler to completion, one at a time.
- TTL caching of `get_handles`, `get_problems` and the contest lists is not modelled, because it depends on wall-clock expiry. Every call sees the current store.
- `random.choice` is a parameter `choice` that picks an index of the candidates. The model proves only that the pick is one of them.
- Time zones, `strptime`, `strftime` and date rendering are not modelled: they are library behaviour. Times are integer epoch seconds, and sub-second parts of a `timedelta` are dropped, as `int(td.total_seconds())` drops them.
- `string.capwords` is a parameter of `CfModels.UserText`. `Contest.linked_name` is a parameter wherever a report names a contest.
- PrettyTable rendering is a parameter `render`, and HTML tokenisation is not modelled. The rendering re-sorts the rows by rank (`sortby="#"`), so the tracked order the model states is that of the row list handed to `render`, not of the printed table. The table parser runs over an abstract sequence of start-tag, data and end-tag events.
- `Submission.should_notify`, `get_contest`, `get_rating_changes`, `get_table_row` and the `problemsetName` field are not defined in the code this model covers, so they are parameters.
- `int()` is modelled for ASCII digits with an optional sign and surrounding whitespace. Underscores between digits and non-ASCII digits, which Python also accepts, are not modelled.
- `lower()` is modelled for ASCII letters only. It is only used to look for "not found", and no other character lowers into one of its letters.
- pydantic validation of API records is not modelled; records are assumed well-typed.
- The `/help`, `/tags`, `/stalk`, `/contests` and `/delta` commands and the sticker commands are not modelled. They only render or forward data, and they are recognised as `Unmodelled`.
- Failures of Telegram sends are not modelled. The code ignores their answers.
- `schedule_unpin_poll`, `unpin_poll`, `deluser/main.py`, `decline_join_request/main.py` and the `decline_join_request` function of `tgbot/functions.py` are not modelled: each only forwards one call to Telegram or the store. A declined join request is modelled as the scheduled `DeclineAt` task.
- `main.py` is not part of this model. It does not parse, and its `/select` uses an undefined name.
- BotCommands.SelectText: the no-match reply is stated only through its fixed opening text, because Python's rendering of a set and a list is not modelled.
- BotCommands.ProblemText: the contract states only that the text opens with the linked name, because the tag list and the rating follow in a fixed layout.
- Verification.Decide: the handle list posted after a success is the set of bound handles. `get_handles` returns a list that can repeat a handle, and it may be up to five seconds stale.
- Verification.Follow: a chain of checks is followed for at most `n` steps, with a fixed submission list for the whole chain. Submissions that arrive between checks are not modelled.

## Findings

| source | as written | input that shows it | evidently intended | confidence | as-written member | corrected member |
|---|---|---|---|---|---|---|
| tgbot/functions.py:77 | the pending branch schedules the next check with `{"user_id": user_id}`, and `schedule_task` wraps its argument in `{"user_id": ...}` again (tgbot/gcp_common.py:42) | any pending record whose user has not yet submitted: the second check reads `user_id == {'user_id': id}` and looks up the document `"{'user_id': id}"`, which does not exist | pass the plain user id, as `gcp/main.py:74` does, so that the record is checked up to twenty times and then expires | not executed | Verification.AsWrittenStallsAfterOneCheck | Verification.ExpiresAfterTwentyChecks |

With the code as written, the second check answers "doc was deleted". The pending record stays in the store with its count raised by one, and nobody checks it again. The user is never verified by a later submission, and no failure message is sent. The rest of the model uses `Verification.Check`, which hands on the payload it received, as the other two deployments do.

=== FILE: bot_commands.dfy ===
/**
 * The Telegram front end of the bot (`gcp/tgbot.py`): how a message becomes a
 * command and its argument, the `/select` query language and problem choice,
 * the `/sign_on` branches that open a handle verification, join requests, and
 * the choice of the webhook response.
 */
module BotCommands {
  import opened Wrappers
  import opened Errors
  import Text
  import opened Collections
  import opened CfModels
  import CfClient
  import Verification

  // ---------------------------------------------------------------------------
  // Command extraction
  // ---------------------------------------------------------------------------

  const BotName := "@codeforcewarrior_bot"

  /**
   * `text.split(' ', 1)`: the command is the first piece with every mention of
   * the bot removed, the argument the stripped rest, or "" without a space.
   */
  function ExtractCommand(text: string): (r: (string, string))
    ensures ' ' !in r.0
    ensures Text.Trimmed(r.1)
    ensures ' ' !in text ==> r.1 == ""
  {
    var (head, rest) := Text.SplitOnce(text, ' ');
    assert ' ' !in head;
    var command := Text.RemoveAll(head, BotName);
    RemoveAllKeeps(head, BotName, ' ');
    match rest
    case None => (command, "")
    case Some(arg) => (command, Text.Strip(arg))
  }

  /** Removing a pattern never brings in a character the text did not have. */
  lemma {:induction false} RemoveAllKeeps(s: string, pat: string, c: char)
    requires |pat| > 0 && c !in s
    ensures c !in Text.RemoveAll(s, pat)
    decreases |s|
  {
    if |s| > 0 {
      if pat <= s {
        assert forall i | 0 <= i < |s[|pat|..]| :: s[|pat|..][i] in s;
        RemoveAllKeeps(s[|pat|..], pat, c);
      } else {
        assert forall i | 0 <= i < |s[1..]| :: s[1..][i] in s;
        RemoveAllKeeps(s[1..], pat, c);
      }
    }
  }

  /**
   * A command typed plainly, or addressed to the bot by name, followed by a
   * space and an argument comes back as the command and the stripped argument.
   */
  lemma ExtractCommandRoundTrip(command: string, arg: string, addressed: bool)
    requires ' ' !in command && '@' !in command
    ensures var typed := (if addressed then command + BotName else command) + " " + arg;
      ExtractCommand(typed) == (command, Text.Strip(arg))
  {
    var head := if addressed then command + BotName else command;
    assert ' ' !in head by {
      assert ' ' !in BotName;
    }
    Text.SplitOnceAt(head, ' ', arg);
    assert head + " " + arg == head + [' '] + arg;
    assert !Text.Contains(command, BotName) by {
      forall i | 0 <= i <= |command| ensures !(BotName <= command[i..]) {
        if i < |command| {
          assert command[i..][0] == command[i];
        }
      }
    }
    if addressed {
      Text.RemoveAllPrefix(command, BotName, BotName);
      assert Text.RemoveAll(BotName, BotName) == Text.RemoveAll(BotName[|BotName|..], BotName);
      assert BotName[|BotName|..] == "";
      assert command + "" == command;
    } else {
      Text.RemoveAllAbsent(command, BotName);
    }
  }

  /** The sender of a message: its Telegram user id and whether it is a bot. */
  datatype Sender = Sender(id: int, isBot: bool)

  /** `user = None` for bots: the commands see no user behind a bot's message. */
  function Caller(from: Sender): (r: Option<int>)
    ensures r.None? <==> from.isBot
    ensures r.Some? ==> r.value == from.id
  {
    if from.isBot then None else Some(from.id)
  }

  // ---------------------------------------------------------------------------
  // The /select query language: `tags=a,b|rating=lo-hi`
  // ---------------------------------------------------------------------------

  /** A parsed query: the tags every problem must carry and an optional inclusive rating range. */
  datatype Query = Query(tags: set<string>, rating: Option<(int, int)>)

  const InvalidQuery := "Your query is invalid"

  /** The non-blank pieces of `s` between the separators, stripped. */
  function Pieces(s: string, sep: char): (r: seq<string>)
    ensures forall i | 0 <= i < |r| :: Text.Trimmed(r[i]) && r[i] != [] && sep !in r[i]
  {
    var kept := Filter(Text.Split(s, sep), Text.NonBlank);
    var r := Text.StripEach(kept);
    assert forall i | 0 <= i < |r| :: Text.Trimmed(r[i]) && r[i] != [] && sep !in r[i] by {
      forall i | 0 <= i < |r| ensures Text.Trimmed(r[i]) && r[i] != [] && sep !in r[i] {
        StripKeepsSubstance(kept[i], sep);
      }
    }
    r
  }

  /** Stripping a non-blank string leaves a non-empty one and brings in no character. */
  lemma StripKeepsSubstance(s: string, c: char)
    requires Text.NonBlank(s)
    ensures Text.Strip(s) != [] && Text.Trimmed(Text.Strip(s))
    ensures c !in s ==> c !in Text.Strip(s)
  {
    var k :| 0 <= k < |s| && !Text.IsSpace(s[k]);
    var r := Text.Strip(s);
    assert Text.Leading(s) <= k < Text.Leading(s) + |r|;
    if c !in s {
      forall i | 0 <= i < |r| ensures r[i] != c {
        assert r[i] == s[Text.Leading(s) + i];
      }
    }
  }

  /** Pieces that are already trimmed, non-empty and free of the separator come back unchanged. */
  lemma PiecesOfJoin(parts: seq<string>, sep: char)
    requires |parts| >= 1
    requires forall i | 0 <= i < |parts| :: Text.Trimmed(parts[i]) && parts[i] != [] && sep !in parts[i]
    ensures Pieces(Text.Join([sep], parts), sep) == parts
  {
    Text.SplitJoin(parts, sep);
    KeepNonBlank(parts);
    StripEachTrimmed(parts);
  }

  /** Filtering trimmed non-empty strings for non-blank ones keeps them all. */
  lemma KeepNonBlank(parts: seq<string>)
    requires forall i | 0 <= i < |parts| :: Text.Trimmed(parts[i]) && parts[i] != []
    ensures Filter(parts, Text.NonBlank) == parts
  {
    forall i | 0 <= i < |parts| ensures Text.NonBlank(parts[i]) {
      Text.TrimmedNonBlank(parts[i]);
    }
    FilterAll(parts, Text.NonBlank);
  }

  /** Stripping trimmed strings changes none of them. */
  lemma StripEachTrimmed(parts: seq<string>)
    requires forall i | 0 <= i < |parts| :: Text.Trimmed(parts[i])
    ensures Text.StripEach(parts) == parts
  {
    forall i | 0 <= i < |parts| ensures Text.Strip(parts[i]) == parts[i] {
      Text.StripTrimmed(parts[i]);
    }
  }



  /** The tags of a `tags=` entry: its non-blank comma-separated values, stripped. */
  function TagSet(value: string): (r: set<string>)
    ensures forall t | t in r :: Text.Trimmed(t) && t != [] && ',' !in t
  {
    set t | t in Pieces(value, ',')
  }

  /** `[int(r) for r in value.split('-', maxsplit=1)]`, with one bound standing for both ends. */
  function ParseRating(value: string): (r: Option<(int, int)>)
    ensures '-' !in value ==> (r.Some? <==> Text.ParseInt(value).Some?)
    ensures '-' !in value && r.Some? ==> r.value == (Text.ParseInt(value).value, Text.ParseInt(value).value)
    ensures '-' in value ==>
      var (lo, hi) := Text.SplitOnce(value, '-');
      && (r.Some? <==> Text.ParseInt(lo).Some? && Text.ParseInt(hi.value).Some?)
      && (r.Some? ==> r.value == (Text.ParseInt(lo).value, Text.ParseInt(hi.value).value))
  {
    match Text.SplitOnce(value, '-')
    case (single, None) =>
      var n :- Text.ParseInt(single);
      Some((n, n))
    case (lo, Some(hi)) =>
      var a :- Text.ParseInt(lo);
      var b :- Text.ParseInt(hi);
      Some((a, b))
  }

  /** A single non-negative bound stands for the range from it to itself. */
  lemma ParseRatingSingle(n: int)
    requires n >= 0
    ensures ParseRating(Text.IntToString(n)) == Some((n, n))
  {
    var l := Text.IntToString(n);
    assert '-' !in l by {
      assert l == Text.NatToString(n);
    }
    assert Text.SplitOnce(l, '-') == (l, None);
    Text.IntToStringRoundTrip(n);
  }

  /** Two bounds joined by `-`, the lower one non-negative, are read back as written. */
  lemma ParseRatingPair(lo: int, hi: int)
    requires lo >= 0
    ensures ParseRating(RangeText(lo, hi)) == Some((lo, hi))
  {
    var l := Text.IntToString(lo);
    var h := Text.IntToString(hi);
    assert '-' !in l by {
      assert l == Text.NatToString(lo);
    }
    Text.SplitOnceAt(l, '-', h);
    assert l + "-" + h == l + ['-'] + h;
    Text.IntToStringRoundTrip(lo);
    Text.IntToStringRoundTrip(hi);
  }


  /** A range whose text starts with `-` is invalid: the lower bound before it is empty. */
  lemma NegativeLowerBoundInvalid(rest: string)
    ensures ParseRating("-" + rest) == None
  {
    Text.SplitOnceAt("", '-', rest);
    assert "" + ['-'] + rest == "-" + rest;
    assert Text.Strip("") == "";
  }

  /** An entry the parser accepts: `key=value` with key `tags`, or key `rating` and a valid range. */
  predicate ValidEntry(entry: string) {
    var (key, value) := Text.SplitOnce(entry, '=');
    value.Some? && (key == "tags" || (key == "rating" && ParseRating(value.value).Some?))
  }

  /** One entry: tags accumulate, a rating replaces the previous one, anything else is invalid. */
  function ParseEntry(entry: string, q: Query): (r: Option<Query>)
    ensures r.Some? <==> ValidEntry(entry)
    ensures r.Some? ==> q.tags <= r.value.tags
  {
    match Text.SplitOnce(entry, '=')
    case (_, None) => None
    case (key, Some(value)) =>
      if key == "tags" then Some(q.(tags := q.tags + TagSet(value)))
      else if key == "rating" then
        match ParseRating(value)
        case None => None
        case Some(range) => Some(q.(rating := Some(range)))
      else None
  }

  /**
   * The entries in turn, starting from `q`. A query is accepted exactly when
   * every entry is valid: one bad entry rejects it all. Tags only accumulate.
   */
  function ParseEntries(entries: seq<string>, q: Query): (r: Option<Query>)
    ensures r.Some? <==> AllValid(entries)
    ensures r.Some? ==> q.tags <= r.value.tags
    decreases |entries|
  {
    if |entries| == 0 then Some(q)
    else
      match ParseEntry(entries[0], q)
      case None => None
      case Some(q') => ParseEntries(entries[1..], q')
  }

  /** Every entry is valid, stated entry by entry from the front. */
  predicate AllValid(entries: seq<string>)
    decreases |entries|
  {
    |entries| == 0 || (ValidEntry(entries[0]) && AllValid(entries[1..]))
  }

  /** `AllValid` is the plain "every entry is valid". */
  lemma {:induction false} AllValidEvery(entries: seq<string>)
    ensures AllValid(entries) <==> forall i | 0 <= i < |entries| :: ValidEntry(entries[i])
    decreases |entries|
  {
    if |entries| > 0 {
      AllValidEvery(entries[1..]);
      assert forall i | 1 <= i < |entries| :: entries[i] == entries[1..][i - 1];
    }
  }

  /** The `/select` argument as a query, `None` for "Your query is invalid". */
  function ParseSelect(content: string): (r: Option<Query>)
    ensures r.Some? <==> forall i | 0 <= i < |Pieces(content, '|')| :: ValidEntry(Pieces(content, '|')[i])
  {
    AllValidEvery(Pieces(content, '|'));
    ParseEntries(Pieces(content, '|'), Query({}, None))
  }

  /** The query text `tags=t1,...,tn|rating=lo-hi`. */
  function QueryText(tags: seq<string>, lo: int, hi: int): string {
    TagsEntry(Text.Join(",", tags)) + "|" + RatingEntry(lo, hi)
  }

  function TagsEntry(joined: string): string {
    "tags=" + joined
  }

  function RangeText(lo: int, hi: int): string {
    Text.IntToString(lo) + "-" + Text.IntToString(hi)
  }

  function RatingEntry(lo: int, hi: int): string {
    "rating=" + RangeText(lo, hi)
  }

  /** The joined text ends with the last character of the last piece. */
  lemma JoinLastChar(sep: string, parts: seq<string>)
    requires |parts| >= 1 && parts[|parts| - 1] != []
    ensures var j := Text.Join(sep, parts); var last := parts[|parts| - 1];
      |j| > 0 && j[|j| - 1] == last[|last| - 1]
  {
    var j := Text.Join(sep, parts);
    var last := parts[|parts| - 1];
    Text.JoinEndsWithLast(sep, parts);
    assert j[|j| - |last|..][|last| - 1] == j[|j| - 1];
  }

  /** A tag as the query text can carry it: trimmed, non-empty, without `,` or `|`. */
  predicate WritableTag(t: string) {
    Text.Trimmed(t) && t != [] && ',' !in t && '|' !in t
  }

  /** Writable tags joined by commas give a text without `|` that does not end in whitespace. */
  lemma JoinedTagsShape(tags: seq<string>)
    requires forall i | 0 <= i < |tags| :: WritableTag(tags[i])
    ensures '|' !in Text.Join(",", tags)
    ensures Text.Join(",", tags) == [] || !Text.IsSpace(Text.Join(",", tags)[|Text.Join(",", tags)| - 1])
  {
    Text.JoinAvoids(",", tags, '|');
    if |tags| > 0 {
      assert WritableTag(tags[|tags| - 1]);
      JoinLastChar(",", tags);
    }
  }

  /** The `tags=...` entry is a piece of its own: trimmed, non-empty and free of `|`. */
  lemma TagsEntryShape(j: string)
    requires '|' !in j && (j == [] || !Text.IsSpace(j[|j| - 1]))
    ensures var e := TagsEntry(j);
      Text.Trimmed(e) && e != [] && '|' !in e
  {
  }

  /** The `rating=lo-hi` entry is a piece of its own. */
  lemma RatingEntryShape(lo: int, hi: int)
    ensures var e := RatingEntry(lo, hi);
      Text.Trimmed(e) && e != [] && '|' !in e
  {
    var h := Text.IntToString(hi);
    var e := RatingEntry(lo, hi);
    assert e == "rating=" + Text.IntToString(lo) + "-" + h;
    Text.IntToStringTrimmed(lo);
    Text.IntToStringTrimmed(hi);
    assert e[|e| - 1] == h[|h| - 1];
    assert '|' !in Text.IntToString(lo) && '|' !in h;
  }

  /** The tags entry yields exactly the tags written. */
  lemma TagSetOfJoin(tags: seq<string>)
    requires forall i | 0 <= i < |tags| :: WritableTag(tags[i])
    ensures TagSet(Text.Join(",", tags)) == set t | t in tags
  {
    if |tags| == 0 {
      assert Text.Split("", ',') == [""];
      assert !Text.NonBlank("");
    } else {
      PiecesOfJoin(tags, ',');
    }
  }

  /**
   * Parsing undoes writing a query out: tags without `,` or `|` and a
   * non-negative lower bound come back as the same tag set and range.
   */
  lemma ParseSelectRoundTrip(tags: seq<string>, lo: int, hi: int)
    requires forall i | 0 <= i < |tags| :: WritableTag(tags[i])
    requires lo >= 0
    ensures ParseSelect(QueryText(tags, lo, hi)) == Some(Query((set t | t in tags), Some((lo, hi))))
  {
    JoinedTagsShape(tags);
    ParseTwoEntries(Text.Join(",", tags), lo, hi);
    TagSetOfJoin(tags);
  }

  /** A tags entry with value `j` and a rating entry, separated by `|`. */
  lemma ParseTwoEntries(j: string, lo: int, hi: int)
    requires '|' !in j && (j == [] || !Text.IsSpace(j[|j| - 1]))
    requires lo >= 0
    ensures ParseSelect(TagsEntry(j) + "|" + RatingEntry(lo, hi)) == Some(Query(TagSet(j), Some((lo, hi))))
  {
    QueryPieces(j, lo, hi);
    EntriesParse(j, lo, hi);
  }

  /** The tags entry, then the rating entry, starting from the empty query. */
  lemma EntriesParse(j: string, lo: int, hi: int)
    requires lo >= 0
    ensures ParseEntries([TagsEntry(j), RatingEntry(lo, hi)], Query({}, None)) == Some(Query(TagSet(j), Some((lo, hi))))
  {
    var a := TagsEntry(j);
    var b := RatingEntry(lo, hi);
    var q0 := Query({}, None);
    var q1 := Query(TagSet(j), None);
    var q2 := q1.(rating := Some((lo, hi)));
    TagsEntryParses(j, q0);
    assert q0.(tags := q0.tags + TagSet(j)) == q1;
    RatingEntryParses(lo, hi, q1);
    assert ParseEntries([b], q1) == Some(q2) by {
      assert [b][1..] == [];
    }
    assert ParseEntries([a, b], q0) == ParseEntries([b], q1) by {
      assert [a, b][1..] == [b];
    }
  }

  /** A written query falls into its two entries. */
  lemma QueryPieces(j: string, lo: int, hi: int)
    requires '|' !in j && (j == [] || !Text.IsSpace(j[|j| - 1]))
    ensures Pieces(TagsEntry(j) + "|" + RatingEntry(lo, hi), '|') == [TagsEntry(j), RatingEntry(lo, hi)]
  {
    var a := TagsEntry(j);
    var b := RatingEntry(lo, hi);
    TagsEntryShape(j);
    RatingEntryShape(lo, hi);
    assert a + "|" + b == Text.Join(['|'], [a, b]);
    PiecesOfJoin([a, b], '|');
  }

  /** A tags entry adds the tags of its value. */
  lemma TagsEntryParses(j: string, q: Query)
    ensures ParseEntry(TagsEntry(j), q) == Some(q.(tags := q.tags + TagSet(j)))
  {
    Text.SplitOnceAt("tags", '=', j);
    assert TagsEntry(j) == "tags" + ['='] + j;
  }

  /** A written rating entry sets exactly its range. */
  lemma RatingEntryParses(lo: int, hi: int, q: Query)
    requires lo >= 0
    ensures ParseEntry(RatingEntry(lo, hi), q) == Some(q.(rating := Some((lo, hi))))
  {
    Text.SplitOnceAt("rating", '=', RangeText(lo, hi));
    assert RatingEntry(lo, hi) == "rating" + ['='] + RangeText(lo, hi);
    ParseRatingPair(lo, hi);
  }


  /** An empty argument is the empty query: any tags, any rating. */
  lemma EmptyQuery()
    ensures ParseSelect("") == Some(Query({}, None))
  {
    assert Text.Split("", '|') == [""];
    assert !Text.NonBlank("");
  }

  // ---------------------------------------------------------------------------
  // Problem selection
  // ---------------------------------------------------------------------------

  const Special := "*special"

  predicate NotSpecial(p: Problem) {
    Special !in p.tags
  }

  /** `tags <= set(p.tags)`. */
  predicate HasTags(p: Problem, tags: set<string>) {
    forall t | t in tags :: t in p.tags
  }

  /** `p.rating and lo <= p.rating <= hi`. */
  predicate InRange(p: Problem, range: (int, int)) {
    Truthy(p.rating) && range.0 <= p.rating.value <= range.1
  }

  /** What a problem must satisfy to be chosen for the tags and the optional range. */
  predicate Eligible(p: Problem, tags: set<string>, rating: Option<(int, int)>) {
    && (Special in tags || NotSpecial(p))
    && HasTags(p, tags)
    && (rating.None? || InRange(p, rating.value))
  }

  /** The three successive filters of `select`, each applied only when its condition asks for it. */
  function Candidates(ps: seq<Problem>, tags: set<string>, rating: Option<(int, int)>): seq<Problem> {
    RatingStage(TagStage(PlainStage(ps, tags), tags), rating)
  }

  /** The `"*special"` filter as a condition that holds whenever it is switched off. */
  function SpecialOk(tags: set<string>): Problem -> bool {
    p => Special in tags || NotSpecial(p)
  }

  function HasAll(tags: set<string>): Problem -> bool {
    p => HasTags(p, tags)
  }

  function Within(range: (int, int)): Problem -> bool {
    p => InRange(p, range)
  }

  /** The rating filter as a condition that holds whenever it is switched off. */
  function RatingOk(rating: Option<(int, int)>): Problem -> bool {
    p => rating.None? || InRange(p, rating.value)
  }

  function SpecialAndTags(tags: set<string>): Problem -> bool {
    p => SpecialOk(tags)(p) && HasAll(tags)(p)
  }

  function EligibleFor(tags: set<string>, rating: Option<(int, int)>): Problem -> bool {
    p => Eligible(p, tags, rating)
  }

  function PlainStage(ps: seq<Problem>, tags: set<string>): (r: seq<Problem>)
    ensures r == Filter(ps, SpecialOk(tags))
  {
    if Special !in tags then
      FilterCongruent(ps, NotSpecial, SpecialOk(tags));
      Filter(ps, NotSpecial)
    else
      FilterAll(ps, SpecialOk(tags));
      ps
  }

  function TagStage(ps: seq<Problem>, tags: set<string>): (r: seq<Problem>)
    ensures r == Filter(ps, HasAll(tags))
  {
    if |tags| > 0 then Filter(ps, HasAll(tags))
    else
      FilterAll(ps, HasAll(tags));
      ps
  }

  function RatingStage(ps: seq<Problem>, rating: Option<(int, int)>): (r: seq<Problem>)
    ensures r == Filter(ps, RatingOk(rating))
  {
    if rating.Some? then
      FilterCongruent(ps, Within(rating.value), RatingOk(rating));
      Filter(ps, Within(rating.value))
    else
      FilterAll(ps, RatingOk(rating));
      ps
  }

  /** The filter chain keeps, in order, exactly the eligible problems. */
  lemma CandidatesAreEligible(ps: seq<Problem>, tags: set<string>, rating: Option<(int, int)>)
    ensures Candidates(ps, tags, rating) == Filter(ps, EligibleFor(tags, rating))
  {
    FilterFilter(ps, SpecialOk(tags), HasAll(tags), SpecialAndTags(tags));
    FilterFilter(ps, SpecialAndTags(tags), RatingOk(rating), EligibleFor(tags, rating));
  }

  /** `random.choice` over a non-empty list: `choice` stands for the random draw. */
  function Choose(c: seq<Problem>, choice: seq<Problem> -> nat): (p: Problem)
    requires |c| > 0
    ensures p in c
  {
    c[choice(c) % |c|]
  }

  /** `select(tags, rating)`: a random eligible problem, or `None` when there is none. */
  function Select(ps: seq<Problem>, tags: set<string>, rating: Option<(int, int)>, choice: seq<Problem> -> nat)
    : (r: Option<Problem>)
    ensures r.None? <==> forall i | 0 <= i < |ps| :: !Eligible(ps[i], tags, rating)
    ensures r.Some? ==> r.value in ps && Eligible(r.value, tags, rating)
  {
    var c := Candidates(ps, tags, rating);
    CandidatesSound(ps, tags, rating);
    if |c| > 0 then Some(Choose(c, choice)) else None
  }

  /** Every candidate is an eligible problem of the list, and there are none only when no problem is eligible. */
  lemma CandidatesSound(ps: seq<Problem>, tags: set<string>, rating: Option<(int, int)>)
    ensures var c := Candidates(ps, tags, rating);
      && (forall i | 0 <= i < |c| :: c[i] in ps && Eligible(c[i], tags, rating))
      && (|c| == 0 <==> forall i | 0 <= i < |ps| :: !Eligible(ps[i], tags, rating))
  {
    var c := Candidates(ps, tags, rating);
    var e := EligibleFor(tags, rating);
    CandidatesAreEligible(ps, tags, rating);
    forall i | 0 <= i < |c| ensures c[i] in ps && Eligible(c[i], tags, rating) {
      assert e(c[i]);
    }
    forall i | 0 <= i < |ps| && Eligible(ps[i], tags, rating) ensures |c| > 0 {
      assert e(ps[i]);
      assert ps[i] in c;
    }
    if forall i | 0 <= i < |ps| :: !Eligible(ps[i], tags, rating) {
      forall i | 0 <= i < |ps| ensures !e(ps[i]) {
      }
      FilterNone(ps, e);
    }
  }

  // ---------------------------------------------------------------------------
  // The /select command
  // ---------------------------------------------------------------------------

  /** `get_handle(user_id)`: the handle bound to the user, if any. */
  function GetHandle(bindings: map<string, string>, userId: int): (r: Option<string>)
    ensures r.Some? <==> Text.IntToString(userId) in bindings
  {
    var key := Text.IntToString(userId);
    if key in bindings then Some(bindings[key]) else None
  }

  /** A user whose stored handle is present and non-empty, the truth test of `get_handle`. */
  predicate Registered(bindings: map<string, string>, userId: int) {
    GetHandle(bindings, userId).Some? && GetHandle(bindings, userId).value != ""
  }

  /**
   * The lower end of the suggested range: the user's rating rounded up to a
   * hundred, at least 800, or 800 for an unrated user.
   */
  function SuggestedMin(rating: Option<int>): (r: int)
    ensures r % 100 == 0
    ensures var floor := if Truthy(rating) && rating.value > 800 then rating.value else 800;
      floor <= r < floor + 100
  {
    if Truthy(rating) then
      var up := ((rating.value + 99) / 100) * 100;
      if up > 800 then up else 800
    else 800
  }

  /** The range suggested to a user: two hundred points up from the suggested minimum. */
  function SuggestedRange(rating: Option<int>): (r: (int, int))
    ensures r.0 == SuggestedMin(rating)
    ensures r.1 == r.0 + 200
    ensures Truthy(rating) ==> r.0 >= rating.value && r.0 >= 800
  {
    var lo := SuggestedMin(rating);
    (lo, lo + 200)
  }

  /** What `/select` answers: an invalid query, a problem, or no match for the criteria finally used. */
  datatype SelectReply = InvalidReply | Found(problem: Problem) | NoMatch(tags: set<string>, rating: Option<(int, int)>)

  /** The services `/select` and `/sign_on` call: the problem list, user lookup and the random draw. */
  datatype Services = Services(
    problems: Result<seq<Problem>, Exception>,
    getUser: string -> Result<User, Exception>,
    choice: seq<Problem> -> nat)

  /** One `select` call over the fetched problem list, as the reply it leads to. */
  function Search(s: Services, tags: set<string>, rating: Option<(int, int)>): (r: Result<SelectReply, Exception>)
    ensures r.Failure? <==> s.problems.Failure?
    ensures r.Success? ==> r.value.Found? || r.value == NoMatch(tags, rating)
    ensures r.Success? && r.value.Found? ==> r.value.problem in s.problems.value && Eligible(r.value.problem, tags, rating)
    ensures r.Success? && r.value.NoMatch? ==>
      forall i | 0 <= i < |s.problems.value| :: !Eligible(s.problems.value[i], tags, rating)
  {
    var ps :- s.problems;
    match Select(ps, tags, rating, s.choice)
    case Some(p) => Success(Found(p))
    case None => Success(NoMatch(tags, rating))
  }

  /**
   * A parsed query: without a rating, a registered user's query first tries
   * the range suggested by the user's rating and falls back to no rating.
   * The user is only consulted when no rating was given; a bot sender then
   * raises, as subscripting `None` does.
   */
  function Answer(q: Query, user: Option<int>, bindings: map<string, string>, s: Services)
    : (r: Result<SelectReply, Exception>)
    ensures r.Success? ==> !r.value.InvalidReply?
    ensures r.Success? && r.value.Found? ==>
      && s.problems.Success? && r.value.problem in s.problems.value
      && Eligible(r.value.problem, q.tags, None)
      && (q.rating.Some? ==> Eligible(r.value.problem, q.tags, q.rating))
    ensures r.Success? && r.value.NoMatch? ==>
      && s.problems.Success? && r.value.tags == q.tags
      && forall i | 0 <= i < |s.problems.value| :: !Eligible(s.problems.value[i], q.tags, r.value.rating)
    ensures q.rating.None? && user.None? ==> r == Failure(TypeError)
    ensures r.Failure? <==>
      || (q.rating.None? && user.None?)
      || (q.rating.None? && user.Some? && Registered(bindings, user.value)
          && s.getUser(GetHandle(bindings, user.value).value).Failure?)
      || s.problems.Failure?
    ensures r.Failure? ==>
      r.error == if q.rating.None? && user.None? then TypeError
                 else if q.rating.None? && Registered(bindings, user.value)
                         && s.getUser(GetHandle(bindings, user.value).value).Failure?
                 then s.getUser(GetHandle(bindings, user.value).value).error
                 else s.problems.error
    ensures r.Success? && r.value.NoMatch? ==> r.value == NoMatch(q.tags, q.rating)
    ensures r.Success? ==>
      (r.value.NoMatch? <==> forall i | 0 <= i < |s.problems.value| :: !Eligible(s.problems.value[i], q.tags, q.rating))
    ensures q.rating.Some? ==> r == Search(s, q.tags, q.rating)
    ensures q.rating.None? && user.Some? && !Registered(bindings, user.value) ==> r == Search(s, q.tags, None)
    ensures (q.rating.None? && user.Some? && Registered(bindings, user.value)
             && s.getUser(GetHandle(bindings, user.value).value).Success? && s.problems.Success?) ==>
      var range := SuggestedRange(s.getUser(GetHandle(bindings, user.value).value).value.rating);
      r == if exists i | 0 <= i < |s.problems.value| :: Eligible(s.problems.value[i], q.tags, Some(range))
           then Search(s, q.tags, Some(range))
           else Search(s, q.tags, None)
  {
    if q.rating.Some? then Search(s, q.tags, q.rating)
    else if user.None? then Failure(TypeError)
    else if !Registered(bindings, user.value) then Search(s, q.tags, None)
    else
      var u :- s.getUser(GetHandle(bindings, user.value).value);
      var suggested :- Search(s, q.tags, Some(SuggestedRange(u.rating)));
      if suggested.Found? then Success(suggested)
      else Search(s, q.tags, None)
  }

  /** `/select`: an unparsable argument is answered "Your query is invalid", and only then. */
  function SelectCommand(content: string, user: Option<int>, bindings: map<string, string>, s: Services)
    : (r: Result<SelectReply, Exception>)
    ensures ParseSelect(content).None? <==> r == Success(InvalidReply)
    ensures ParseSelect(content).Some? ==> r == Answer(ParseSelect(content).value, user, bindings, s)
    ensures r.Success? && r.value.Found? ==>
      Eligible(r.value.problem, ParseSelect(content).value.tags, ParseSelect(content).value.rating)
    ensures r.Success? && r.value.NoMatch? ==>
      r.value == NoMatch(ParseSelect(content).value.tags, ParseSelect(content).value.rating)
  {
    match ParseSelect(content)
    case None => Success(InvalidReply)
    case Some(q) => Answer(q, user, bindings, s)
  }

  /**
   * A registered user's query without a rating is answered from the suggested
   * range whenever that range holds an eligible problem.
   */
  lemma SuggestionPreferred(q: Query, userId: int, bindings: map<string, string>, s: Services)
    requires q.rating.None?
    requires Registered(bindings, userId)
    requires s.getUser(GetHandle(bindings, userId).value).Success?
    requires s.problems.Success?
    requires exists i | 0 <= i < |s.problems.value| ::
      Eligible(s.problems.value[i], q.tags, Some(SuggestedRange(s.getUser(GetHandle(bindings, userId).value).value.rating)))
    ensures var r := Answer(q, Some(userId), bindings, s);
      && r.Success? && r.value.Found?
      && InRange(r.value.problem, SuggestedRange(s.getUser(GetHandle(bindings, userId).value).value.rating))
  {
  }


  const NoMatchPrefix := "no problem match search criteria"

  /** The reply `/select` sends: the invalid-query notice, the problem, or the no-match notice. */
  function SelectText(reply: SelectReply): (r: string)
    ensures reply.InvalidReply? <==> r == InvalidQuery
    ensures reply.Found? ==> ProblemLinkedName(reply.problem) <= r
    ensures reply.NoMatch? ==> NoMatchPrefix <= r
  {
    match reply
    case InvalidReply => InvalidQuery
    case Found(p) => ProblemText(p)
    case NoMatch(_, _) => NoMatchPrefix
  }

  /** `str(problem)`: linked name, tags and rating on three lines. */
  function ProblemText(p: Problem): (r: string)
    ensures ProblemLinkedName(p) <= r
  {
    ProblemLinkedName(p) + "\nTags: " + Text.Join(", ", p.tags) + "\nRating: " + ShowOptional(p.rating)
  }

  // ---------------------------------------------------------------------------
  // The /sign_on command
  // ---------------------------------------------------------------------------

  const SignOnCommands := ["/sign_on", "/signon", "/sign_in", "/signin"]

  const RegisterInstructions :=
    "請申請帳號: https://codeforces.com/register\n並在此輸入 <code>/sign_on your_codeforces_username</code>"

  const TouristReply := "咪扮"
  const UserNotFoundText := "This codeforces user cannot be found"
  const AlreadyYoursText := "你已登記此 handle"
  const TakenText := "已有成員已登記此 handle\n如果你確實持有這 codeforces 帳號，請聯絡 @jowonowo"

  /** The rating range of the problem a new user must submit to. */
  const ChallengeRange := (3000, 3500)

  /** Seconds from a sign-on to its first check. */
  const FirstCheckDelay := 30

  /** What a sign-on answers. */
  datatype SignOnReply =
    | NoReply
    | Instructions
    | Joke
    | UserNotFound
    | AlreadyYours
    | TakenByOther
    | Started(problem: Problem)

  /** Work handed to the task queue: a verification check, or declining a join request. */
  datatype Task = CheckAt(payload: Verification.Payload, at: int) | DeclineAt(userId: int, at: int)

  datatype SignOnOutcome = SignOnOutcome(db: Verification.Db, reply: SignOnReply, tasks: seq<Task>)

  function HoldsHandle(bindings: map<string, string>, handle: string): string -> bool {
    k => k in bindings && bindings[k] == handle
  }

  /**
   * `order` is how the store streams the collection: every stored document
   * appears in it.
   */
  predicate Lists(order: seq<string>, bindings: map<string, string>) {
    forall k | k in bindings :: k in order
  }

  /** The keys of the bindings holding `handle`, in the order the store streams them. */
  function Owners(bindings: map<string, string>, order: seq<string>, handle: string): (r: seq<string>)
    requires Lists(order, bindings)
    ensures forall i | 0 <= i < |r| :: r[i] in bindings && bindings[r[i]] == handle
    ensures forall k | k in bindings :: bindings[k] == handle <==> k in r
    ensures r == [] <==> forall k | k in bindings :: bindings[k] != handle
  {
    var r := Filter(order, HoldsHandle(bindings, handle));
    assert r != [] ==> r[0] in bindings && bindings[r[0]] == handle;
    r
  }

  /**
   * `/sign_on handle` in the Cloud Functions bot. A handle already bound
   * (to the first document the query streams, in the store's `order`) is
   * refused; otherwise a verification record with count 0 and a problem
   * rated 3000 to 3500 is written under the user's id and the first check is
   * scheduled 30 seconds later. Nothing else in the store changes.
   */
  function SignOn(user: Option<int>, content: string, chatId: int, messageId: int,
                  db: Verification.Db, order: seq<string>, s: Services, now: int)
    : (r: Result<SignOnOutcome, Exception>)
    requires Lists(order, db.bindings)
    ensures user.None? ==> r == Success(SignOnOutcome(db, NoReply, []))
    ensures r.Success? ==> r.value.db.bindings == db.bindings
    ensures r.Success? && !r.value.reply.Started? ==> r.value.db == db && r.value.tasks == []
    ensures r.Success? && r.value.reply.Started? ==>
      && user.Some? && content != "" && content != "tourist"
      && s.getUser(content).Success?
      && var key := Text.IntToString(user.value);
      && r.value.db.pending == db.pending[key := Verification.Pending(
           s.getUser(content).value.handle, ProblemId(r.value.reply.problem), chatId, messageId, 0)]
      && InRange(r.value.reply.problem, ChallengeRange)
      && r.value.tasks == [CheckAt(Verification.UserId(user.value), now + FirstCheckDelay)]
    ensures r.Success? && (r.value.reply.AlreadyYours? || r.value.reply.TakenByOther?) ==>
      && user.Some? && s.getUser(content).Success?
      && |Owners(db.bindings, order, s.getUser(content).value.handle)| > 0
      && (r.value.reply.AlreadyYours? <==>
            Owners(db.bindings, order, s.getUser(content).value.handle)[0] == Text.IntToString(user.value))
    ensures r.Success? && r.value.reply == UserNotFound <==>
      user.Some? && content != "" && content != "tourist"
      && s.getUser(content) == Failure(CodeforcesError(CfClient.NotFoundMessage))
    ensures r.Success? && r.value.reply.Started? ==>
      forall k | k in db.bindings :: db.bindings[k] != s.getUser(content).value.handle
    ensures (user.Some? && content != "" && content != "tourist" && s.getUser(content).Success?
             && |Owners(db.bindings, order, s.getUser(content).value.handle)| > 0) ==>
      r.Success? && (r.value.reply.AlreadyYours? || r.value.reply.TakenByOther?)
    ensures r.Failure? <==>
      && user.Some? && content != "" && content != "tourist"
      && (if s.getUser(content).Failure? then s.getUser(content).error != CodeforcesError(CfClient.NotFoundMessage)
          else |Owners(db.bindings, order, s.getUser(content).value.handle)| == 0
               && (s.problems.Failure? || Select(s.problems.value, {}, Some(ChallengeRange), s.choice).None?))
    ensures r.Failure? ==>
      r.error == if s.getUser(content).Failure? then s.getUser(content).error
                 else if s.problems.Failure? then s.problems.error
                 else AttributeError
  {
    if user.None? then Success(SignOnOutcome(db, NoReply, []))
    else if content == "" then Success(SignOnOutcome(db, Instructions, []))
    else if content == "tourist" then Success(SignOnOutcome(db, Joke, []))
    else
      match s.getUser(content)
      case Failure(e) =>
        if e == CodeforcesError(CfClient.NotFoundMessage) then Success(SignOnOutcome(db, UserNotFound, []))
        else Failure(e)
      case Success(u) =>
        var owners := Owners(db.bindings, order, u.handle);
        var key := Text.IntToString(user.value);
        if |owners| > 0 then
          Success(SignOnOutcome(db, if owners[0] == key then AlreadyYours else TakenByOther, []))
        else
          var ps :- s.problems;
          match Select(ps, {}, Some(ChallengeRange), s.choice)
          case None => Failure(AttributeError)
          case Some(p) =>
            var record := Verification.Pending(u.handle, ProblemId(p), chatId, messageId, 0);
            Success(SignOnOutcome(
              db.(pending := db.pending[key := record]),
              Started(p),
              [CheckAt(Verification.UserId(user.value), now + FirstCheckDelay)]))
  }

  /**
   * A handle nobody holds starts a verification whenever a problem rated 3000
   * to 3500 exists: with the ensures of `SignOn`, a sign-on starts exactly
   * when the handle is free.
   */
  lemma FreeHandleStarts(userId: int, content: string, chatId: int, messageId: int,
                         db: Verification.Db, order: seq<string>, s: Services, now: int)
    requires Lists(order, db.bindings)
    requires content != "" && content != "tourist" && s.getUser(content).Success?
    requires forall k | k in db.bindings :: db.bindings[k] != s.getUser(content).value.handle
    requires s.problems.Success?
    requires exists i | 0 <= i < |s.problems.value| :: Eligible(s.problems.value[i], {}, Some(ChallengeRange))
    ensures var r := SignOn(Some(userId), content, chatId, messageId, db, order, s, now);
      r.Success? && r.value.reply.Started?
  {
  }

  /**
   * A sign-on's check finds the record it was scheduled for, and the store
   * keeps every record under a user id.
   */
  lemma SignOnOpensCheck(user: Option<int>, content: string, chatId: int, messageId: int,
                         db: Verification.Db, order: seq<string>, s: Services, now: int)
    requires Lists(order, db.bindings)
    requires Verification.UserKeyed(db)
    requires SignOn(user, content, chatId, messageId, db, order, s, now).Success?
    requires SignOn(user, content, chatId, messageId, db, order, s, now).value.reply.Started?
    ensures var o := SignOn(user, content, chatId, messageId, db, order, s, now).value;
      && Verification.UserKeyed(o.db)
      && Verification.DocKey(o.tasks[0].payload) in o.db.pending
      && o.db.pending[Verification.DocKey(o.tasks[0].payload)].count == 0
  {
    var key := Text.IntToString(user.value);
    assert key[0] != '{' by {
      assert key[0] == '-' || Text.IsDigit(key[0]);
    }
  }

  /**
   * A user who never submits to the problem after signing on gets twenty
   * checks: nineteen "pending" answers and a failure that deletes the record.
   */
  lemma UnansweredSignOnExpires(user: Option<int>, content: string, chatId: int, messageId: int,
                                db: Verification.Db, order: seq<string>, s: Services, now: int,
                                d: Verification.Deployment, status: Verification.StatusFetch)
    requires Lists(order, db.bindings)
    requires SignOn(user, content, chatId, messageId, db, order, s, now).Success?
    requires SignOn(user, content, chatId, messageId, db, order, s, now).value.reply.Started?
    requires var o := SignOn(user, content, chatId, messageId, db, order, s, now).value;
      Verification.NeverSubmits(status, s.getUser(content).value.handle, ProblemId(o.reply.problem))
    ensures var o := SignOn(user, content, chatId, messageId, db, order, s, now).value;
      var answers := Verification.Follow(d, false, o.db, o.tasks[0].payload, 20, status, o.tasks[0].at);
      && |answers.0| == 20 && answers.0[19] == Verification.Failed
      && Text.IntToString(user.value) !in answers.1.pending
  {
    var o := SignOn(user, content, chatId, messageId, db, order, s, now).value;
    Verification.TwentyChecksAtMost(d, o.db, user.value, 20, status, o.tasks[0].at);
  }

  /** `str(problem.linked_name)` in the sign-on reply: where to submit, and that any submission will do. */
  function StartedText(p: Problem): (r: string)
    ensures Text.Contains(r, ProblemLinkedName(p))
  {
    Text.ContainsMiddle(StartedHead, ProblemLinkedName(p), StartedTail);
    StartedHead + ProblemLinkedName(p) + StartedTail
  }

  const StartedHead := "請在十分鐘內到 "
  const StartedTail := " 提交任何程式作身份驗證\n你可以忽略題目要求並提交錯誤的程式\n我在提交後半分鐘內會確認你的身份"


  /** The text a sign-on sends back, if any. */
  function SignOnText(reply: SignOnReply): (r: Option<string>)
    ensures r.None? <==> reply == NoReply
  {
    match reply
    case NoReply => None
    case Instructions => Some(RegisterInstructions)
    case Joke => Some(TouristReply)
    case UserNotFound => Some(UserNotFoundText)
    case AlreadyYours => Some(AlreadyYoursText)
    case TakenByOther => Some(TakenText)
    case Started(p) => Some(StartedText(p))
  }

  // ---------------------------------------------------------------------------
  // Join requests and the webhook response
  // ---------------------------------------------------------------------------

  const JoinInstructions := "妳好，進入本群需持有 codeforces 帳號\n" + RegisterInstructions

  /** Seconds a join request of an unregistered user stays open. */
  const DeclineDelay := 30 * 60

  /** The structured responses the bot hands back to Telegram. */
  datatype Response =
    | SendMessage(chatId: int, text: string, disablePreview: bool)
    | ApproveJoinRequest(chatId: int, userId: int)
    | DirectMessage(userId: int, text: string)

  /**
   * `chat_join_request`: a registered user is let into the group; anyone else
   * is told how to register and the request is declined 30 minutes later.
   */
  function JoinRequest(group: int, userId: int, bindings: map<string, string>, now: int)
    : (r: (Response, seq<Task>))
    ensures r.0.ApproveJoinRequest? <==> Registered(bindings, userId)
    ensures r.0.ApproveJoinRequest? ==> r.0 == ApproveJoinRequest(group, userId) && r.1 == []
    ensures !r.0.ApproveJoinRequest? ==>
      r.0 == DirectMessage(userId, JoinInstructions) && r.1 == [DeclineAt(userId, now + DeclineDelay)]
  {
    if Registered(bindings, userId) then (ApproveJoinRequest(group, userId), [])
    else (DirectMessage(userId, JoinInstructions), [DeclineAt(userId, now + DeclineDelay)])
  }

  /** A successful verification lets its user's later join request through. */
  lemma VerifiedUserJoins(group: int, userId: int, c: Verification.Checked, db: Verification.Db, now: int)
    requires Text.IntToString(userId) in db.pending
    requires db.pending[Text.IntToString(userId)].handle != ""
    requires c == Verification.Decide(Verification.GcpMain, db, Text.IntToString(userId),
                                      Verification.UserId(userId), true, now, Verification.UserId(userId))
    ensures JoinRequest(group, userId, c.db.bindings, now).0 == ApproveJoinRequest(group, userId)
  {
  }

  /** What the digester collected: a text reply, a structured response, and the preview switch. */
  datatype Digest = Digest(text: Option<string>, response: Option<Response>, disablePreview: bool)

  const NoDigest := Digest(None, None, false)

  /**
   * `response_output`: a non-empty text reply to a message goes back to the
   * message's chat; otherwise the structured response, if any.
   */
  function ResponseOutput(chatId: Option<int>, d: Digest): (r: Option<Response>)
    ensures (chatId.Some? && d.text.Some? && d.text.value != "") ==>
      r == Some(SendMessage(chatId.value, d.text.value, d.disablePreview))
    ensures !(chatId.Some? && d.text.Some? && d.text.value != "") ==> r == d.response
  {
    if chatId.Some? && d.text.Some? && d.text.value != "" then Some(SendMessage(chatId.value, d.text.value, d.disablePreview))
    else d.response
  }

  /** An unavailable Codeforces becomes a reply saying so; every other exception escapes. */
  function Guard(r: Result<Digest, Exception>): (g: Result<Digest, Exception>)
    ensures g.Failure? <==> r.Failure? && r.error != CodeforcesError(CfClient.UnavailableMessage)
    ensures r.Success? ==> g == r
    ensures r.Failure? && g.Success? ==> g.value.text == Some(CfClient.UnavailableMessage)
  {
    match r
    case Success(_) => r
    case Failure(e) =>
      if e == CodeforcesError(CfClient.UnavailableMessage) then Success(Digest(Some(CfClient.UnavailableMessage), None, false))
      else r
  }

  /** The webhook's answer: the digest's response, or nothing when an exception escaped. */
  function Hello(chatId: Option<int>, r: Result<Digest, Exception>): (out: Option<Response>)
    ensures Guard(r).Failure? ==> out.None?
    ensures r == Failure(CodeforcesError(CfClient.UnavailableMessage)) && chatId.Some? ==>
      out == Some(SendMessage(chatId.value, CfClient.UnavailableMessage, false))
    ensures r.Success? ==> out == ResponseOutput(chatId, r.value)
  {
    match Guard(r)
    case Failure(_) => None
    case Success(d) => ResponseOutput(chatId, d)
  }

  // ---------------------------------------------------------------------------
  // Dispatch
  // ---------------------------------------------------------------------------

  /** The updates the webhook receives, reduced to the fields the bot reads. */
  datatype Update =
    | TextMessage(chatId: int, messageId: int, from: Sender, text: string)
    | MemberJoined(chatId: int, member: Sender)
    | OtherMessage(chatId: int)
    | JoinRequestUpdate(userId: int)
    | OtherUpdate

  function MessageChat(u: Update): (r: Option<int>)
    ensures r.Some? <==> !(u.JoinRequestUpdate? || u.OtherUpdate?)
  {
    match u
    case TextMessage(c, _, _, _) => Some(c)
    case MemberJoined(c, _) => Some(c)
    case OtherMessage(c) => Some(c)
    case _ => None
  }

  /** What handling one update did: its digest, the store after it, and the tasks it queued. */
  datatype Handled =
    | Handled(digest: Digest, db: Verification.Db, tasks: seq<Task>)
      /** A command whose behaviour this model leaves out (help, tags, stalk, contests, delta, stickers). */
    | Unmodelled(command: string)

  const UnmodelledCommands := ["/help", "/group_admin", "/group_girlgod", "/tags", "/stalk", "/contests", "/delta"]

  const Greeting := "妳好"

  function Command(command: string, content: string, user: Option<int>, chatId: int, messageId: int,
                   db: Verification.Db, order: seq<string>, s: Services, now: int)
    : (r: Result<Handled, Exception>)
    requires Lists(order, db.bindings)
    ensures command !in SignOnCommands ==> r.Success? ==> r.value.Handled? ==> r.value.db == db
    ensures command in UnmodelledCommands ==> r == Success(Unmodelled(command))
    ensures command == "/select" ==>
      var a := SelectCommand(content, user, db.bindings, s);
      && (a.Failure? ==> r == Failure(a.error))
      && (a.Success? ==> r == Success(Handled(Digest(Some(SelectText(a.value)), None, false), db, [])))
    ensures command in SignOnCommands ==>
      var o := SignOn(user, content, chatId, messageId, db, order, s, now);
      && (o.Failure? ==> r == Failure(o.error))
      && (o.Success? ==> r == Success(Handled(Digest(SignOnText(o.value.reply), None, false), o.value.db, o.value.tasks)))
    ensures command !in UnmodelledCommands && command != "/select" && command !in SignOnCommands ==>
      r == Success(Handled(NoDigest, db, []))
  {
    if command in UnmodelledCommands then Success(Unmodelled(command))
    else if command == "/select" then SelectRoute(content, user, db, s)
    else if command in SignOnCommands then SignOnRoute(content, user, chatId, messageId, db, order, s, now)
    else Success(Handled(NoDigest, db, []))
  }

  /** `/select`: its reply, or the exception it raises. */
  function SelectRoute(content: string, user: Option<int>, db: Verification.Db, s: Services)
    : (r: Result<Handled, Exception>)
    ensures var a := SelectCommand(content, user, db.bindings, s);
      && (a.Failure? ==> r == Failure(a.error))
      && (a.Success? ==> r == Success(Handled(Digest(Some(SelectText(a.value)), None, false), db, [])))
  {
    var reply :- SelectCommand(content, user, db.bindings, s);
    Success(Handled(Digest(Some(SelectText(reply)), None, false), db, []))
  }

  /** The sign-on commands: the reply and the store and jobs they leave, or the exception raised. */
  function SignOnRoute(content: string, user: Option<int>, chatId: int, messageId: int,
                       db: Verification.Db, order: seq<string>, s: Services, now: int)
    : (r: Result<Handled, Exception>)
    requires Lists(order, db.bindings)
    ensures var o := SignOn(user, content, chatId, messageId, db, order, s, now);
      && (o.Failure? ==> r == Failure(o.error))
      && (o.Success? ==> r == Success(Handled(Digest(SignOnText(o.value.reply), None, false), o.value.db, o.value.tasks)))
  {
    var o :- SignOn(user, content, chatId, messageId, db, order, s, now);
    Success(Handled(Digest(SignOnText(o.reply), None, false), o.db, o.tasks))
  }

  /** `TGMessageDigester(data)`: route the update, turning an unavailable Codeforces into a reply. */
  function Digester(u: Update, group: int, db: Verification.Db, order: seq<string>, s: Services, now: int)
    : (r: Result<Handled, Exception>)
    requires Lists(order, db.bindings)
    ensures u.JoinRequestUpdate? ==>
      r == Success(Handled(Digest(None, Some(JoinRequest(group, u.userId, db.bindings, now).0), false),
                           db, JoinRequest(group, u.userId, db.bindings, now).1))
    ensures u.OtherMessage? || u.OtherUpdate? ==> r == Success(Handled(NoDigest, db, []))
    ensures r.Failure? ==> r.error != CodeforcesError(CfClient.UnavailableMessage)
    ensures u.TextMessage? ==>
      var c := Command(ExtractCommand(u.text).0, ExtractCommand(u.text).1, Caller(u.from),
                       u.chatId, u.messageId, db, order, s, now);
      r == if c.Failure? && c.error == CodeforcesError(CfClient.UnavailableMessage)
           then Success(Handled(Digest(Some(CfClient.UnavailableMessage), None, false), db, []))
           else c
    ensures u.MemberJoined? ==>
      r == Success(Handled(if u.member.isBot then NoDigest else Digest(Some(Greeting), None, false), db, []))
  {
    match u
    case TextMessage(chatId, messageId, from, text) =>
      var (command, content) := ExtractCommand(text);
      (match Command(command, content, Caller(from), chatId, messageId, db, order, s, now)
       case Success(h) => Success(h)
       case Failure(e) =>
         if e == CodeforcesError(CfClient.UnavailableMessage) then
           Success(Handled(Guard(Failure(e)).value, db, []))
         else Failure(e))
    case MemberJoined(_, member) =>
      Success(Handled(if member.isBot then NoDigest else Digest(Some(Greeting), None, false), db, []))
    case OtherMessage(_) => Success(Handled(NoDigest, db, []))
    case JoinRequestUpdate(userId) =>
      var (response, tasks) := JoinRequest(group, userId, db.bindings, now);
      Success(Handled(Digest(None, Some(response), false), db, tasks))
    case OtherUpdate => Success(Handled(NoDigest, db, []))
  }

  /** A bot cannot sign on: its `/sign_on` gets no reply and changes nothing. */
  lemma BotSignOnIgnored(chatId: int, messageId: int, botId: int, arg: string, alias: nat,
                         group: int, db: Verification.Db, order: seq<string>, s: Services, now: int)
    requires Lists(order, db.bindings)
    requires alias < |SignOnCommands|
    ensures var u := TextMessage(chatId, messageId, Sender(botId, true), SignOnCommands[alias] + " " + arg);
      && Digester(u, group, db, order, s, now) == Success(Handled(NoDigest, db, []))
      && ResponseOutput(MessageChat(u), NoDigest) == None
  {
    var command := SignOnCommands[alias];
    SignOnAliasShape(alias);
    ExtractCommandRoundTrip(command, arg, false);
    assert ExtractCommand(command + " " + arg) == (command, Text.Strip(arg));
    UnknownCallerSignOn(command, Text.Strip(arg), chatId, messageId, db, order, s, now);
  }

  /** Every sign-on alias is a plain word, and none of them is routed elsewhere first. */
  lemma SignOnAliasShape(alias: nat)
    requires alias < |SignOnCommands|
    ensures ' ' !in SignOnCommands[alias] && '@' !in SignOnCommands[alias]
    ensures SignOnCommands[alias] !in UnmodelledCommands && SignOnCommands[alias] != "/select"
  {
    var c := SignOnCommands[alias];
    assert c[2] == 'i';
    forall k | 0 <= k < |UnmodelledCommands| ensures UnmodelledCommands[k] != c {
      assert |UnmodelledCommands[k]| > 2 && UnmodelledCommands[k][2] != 'i';
    }
  }

  /** A sign-on command with no user behind it answers nothing and changes nothing. */
  lemma UnknownCallerSignOn(command: string, content: string, chatId: int, messageId: int,
                            db: Verification.Db, order: seq<string>, s: Services, now: int)
    requires Lists(order, db.bindings)
    requires command in SignOnCommands && command !in UnmodelledCommands && command != "/select"
    ensures Command(command, content, None, chatId, messageId, db, order, s, now) == Success(Handled(NoDigest, db, []))
  {
    assert SignOn(None, content, chatId, messageId, db, order, s, now) == Success(SignOnOutcome(db, NoReply, []));
  }

  /** A join request is answered with its structured response, never with a text reply. */
  lemma JoinRequestAnswered(userId: int, group: int, db: Verification.Db, order: seq<string>, s: Services, now: int)
    requires Lists(order, db.bindings)
    ensures var u := JoinRequestUpdate(userId);
      Hello(MessageChat(u), Success(Digester(u, group, db, order, s, now).value.digest))
        == Some(JoinRequest(group, userId, db.bindings, now).0)
  {
  }
}

=== FILE: bot_commands_legacy.dfy ===
/**
 * The older single-process bot: the same command extraction, query language
 * and problem selection as the Cloud Functions bot, but `/sign_on` binds the
 * handle at once (no verification), `/select` never suggests a range, and a
 * join request is approved for any user with a stored document.
 */
module BotCommandsLegacy {
  import opened Wrappers
  import opened Errors
  import Text
  import opened CfModels
  import CfClient
  import opened BotCommands

  /** The group whose join requests the bot answers. */
  const GroupChat := -1001669733846

  const LegacyTakenText := "已有成員已登記此 handle。\n如果你確實持有這 codeforces 帳號，請聯絡 @jonowowo。"

  function SignedInText(handle: string): string {
    "Successfully signed in as codeforces user " + handle
  }

  // ---------------------------------------------------------------------------
  // /select
  // ---------------------------------------------------------------------------

  /** `/select` without suggestions: the parsed query is searched as it stands, whoever asks. */
  function LegacySelectCommand(content: string, s: Services): (r: Result<SelectReply, Exception>)
    ensures ParseSelect(content).None? <==> r == Success(InvalidReply)
    ensures r.Failure? <==> ParseSelect(content).Some? && s.problems.Failure?
    ensures r.Success? && r.value.Found? ==>
      && s.problems.Success? && r.value.problem in s.problems.value
      && Eligible(r.value.problem, ParseSelect(content).value.tags, ParseSelect(content).value.rating)
    ensures r.Success? && r.value.NoMatch? ==>
      && r.value == NoMatch(ParseSelect(content).value.tags, ParseSelect(content).value.rating)
      && forall i | 0 <= i < |s.problems.value| :: !Eligible(s.problems.value[i], r.value.tags, r.value.rating)
  {
    match ParseSelect(content)
    case None => Success(InvalidReply)
    case Some(q) => Search(s, q.tags, q.rating)
  }

  /** With an explicit rating the two bots answer a query alike, for any sender. */
  lemma ExplicitRatingAgrees(content: string, user: Option<int>, bindings: map<string, string>, s: Services)
    requires ParseSelect(content).Some? && ParseSelect(content).value.rating.Some?
    ensures LegacySelectCommand(content, s) == SelectCommand(content, user, bindings, s)
  {
  }

  /**
   * A bot's `/select` without a rating is answered by the older bot, while
   * the Cloud Functions bot raises on the missing sender.
   */
  lemma BotSelectOnlyLegacy(content: string, bindings: map<string, string>, s: Services)
    requires ParseSelect(content).Some? && ParseSelect(content).value.rating.None?
    requires s.problems.Success?
    ensures LegacySelectCommand(content, s).Success?
    ensures SelectCommand(content, None, bindings, s) == Failure(TypeError)
  {
  }

  // ---------------------------------------------------------------------------
  // /sign_on
  // ---------------------------------------------------------------------------

  /** What the older `/sign_on` answers. */
  datatype LegacyReply = NoReply | Instructions | Joke | UserNotFound | Taken | SignedIn(handle: string)

  /**
   * The bindings after a sign-on, its reply, the confirmation sent through a
   * separate API call, and the structured response.
   */
  datatype LegacyOutcome = LegacyOutcome(
    bindings: map<string, string>, reply: LegacyReply, notice: Option<Response>, response: Option<Response>)

  /** Some document streamed for the handle belongs to someone other than `key`. */
  predicate ForeignOwner(owners: seq<string>, key: string) {
    exists i | 0 <= i < |owners| :: owners[i] != key
  }

  /**
   * `/sign_on handle` in the older bot: refused only when the handle is bound
   * to another user; otherwise the binding is written at once, a confirmation
   * is sent to the chat and the user's pending join request is approved.
   */
  function LegacySignOn(user: Option<int>, content: string, chatId: int,
                        bindings: map<string, string>, order: seq<string>, s: Services)
    : (r: Result<LegacyOutcome, Exception>)
    requires Lists(order, bindings)
    ensures user.None? ==> r == Success(LegacyOutcome(bindings, LegacyReply.NoReply, None, None))
    ensures r.Success? && !r.value.reply.SignedIn? ==>
      r.value.bindings == bindings && r.value.notice.None? && r.value.response.None?
    ensures r.Success? && r.value.reply.SignedIn? ==>
      && user.Some? && content != "" && content != "tourist"
      && s.getUser(content).Success?
      && var handle := s.getUser(content).value.handle;
      && var key := Text.IntToString(user.value);
      && r.value.reply.handle == handle
      && (forall i | 0 <= i < |Owners(bindings, order, handle)| :: Owners(bindings, order, handle)[i] == key)
      && r.value.bindings == bindings[key := handle]
      && r.value.notice == Some(SendMessage(chatId, SignedInText(handle), false))
      && r.value.response == Some(ApproveJoinRequest(GroupChat, user.value))
    ensures r.Success? && r.value.reply == Taken <==>
      && user.Some? && content != "" && content != "tourist"
      && s.getUser(content).Success?
      && ForeignOwner(Owners(bindings, order, s.getUser(content).value.handle), Text.IntToString(user.value))
    ensures r.Failure? <==>
      && user.Some? && content != "" && content != "tourist"
      && s.getUser(content).Failure?
      && s.getUser(content).error != CodeforcesError(CfClient.NotFoundMessage)
    ensures (user.Some? && content != "" && content != "tourist" && s.getUser(content).Success?
             && !ForeignOwner(Owners(bindings, order, s.getUser(content).value.handle), Text.IntToString(user.value))) ==>
      r.Success? && r.value.reply == SignedIn(s.getUser(content).value.handle)
  {
    if user.None? then Success(LegacyOutcome(bindings, LegacyReply.NoReply, None, None))
    else if content == "" then Success(LegacyOutcome(bindings, LegacyReply.Instructions, None, None))
    else if content == "tourist" then Success(LegacyOutcome(bindings, LegacyReply.Joke, None, None))
    else
      match s.getUser(content)
      case Failure(e) =>
        if e == CodeforcesError(CfClient.NotFoundMessage) then Success(LegacyOutcome(bindings, LegacyReply.UserNotFound, None, None))
        else Failure(e)
      case Success(u) =>
        var key := Text.IntToString(user.value);
        if ForeignOwner(Owners(bindings, order, u.handle), key) then Success(LegacyOutcome(bindings, Taken, None, None))
        else
          Success(LegacyOutcome(
            bindings[key := u.handle],
            SignedIn(u.handle),
            Some(SendMessage(chatId, SignedInText(u.handle), false)),
            Some(ApproveJoinRequest(GroupChat, user.value))))
  }

  /**
   * The older bot refuses less: whatever it refuses the Cloud Functions bot
   * refuses too, and a handle the newer bot reports taken by someone else the
   * older bot refuses as well.
   */
  lemma LegacyRefusesLess(user: Option<int>, content: string, chatId: int, messageId: int,
                          db: Verification.Db, order: seq<string>, s: Services, now: int)
    requires Lists(order, db.bindings)
    ensures var l := LegacySignOn(user, content, chatId, db.bindings, order, s);
      var g := SignOn(user, content, chatId, messageId, db, order, s, now);
      && (l.Success? && l.value.reply == Taken && g.Success? ==> g.value.reply.AlreadyYours? || g.value.reply.TakenByOther?)
      && (g.Success? && g.value.reply.TakenByOther? ==> l.Success? && l.value.reply == Taken)
      && (g.Success? && g.value.reply.Started? ==> l.Success? && l.value.reply.SignedIn?)
  {
    var l := LegacySignOn(user, content, chatId, db.bindings, order, s);
    var g := SignOn(user, content, chatId, messageId, db, order, s, now);
    if g.Success? && g.value.reply.TakenByOther? {
      var owners := Owners(db.bindings, order, s.getUser(content).value.handle);
      assert owners[0] != Text.IntToString(user.value);
      assert ForeignOwner(owners, Text.IntToString(user.value));
    }
  }

  /** Signing on again as the same user with the same handle changes nothing more. */
  lemma {:induction false} LegacySignOnIdempotent(user: Option<int>, content: string, chatId: int,
                                                  bindings: map<string, string>, order: seq<string>, s: Services)
    requires Lists(order, bindings)
    requires LegacySignOn(user, content, chatId, bindings, order, s).Success?
    requires LegacySignOn(user, content, chatId, bindings, order, s).value.reply.SignedIn?
    requires Text.IntToString(user.value) in order
    ensures var b := LegacySignOn(user, content, chatId, bindings, order, s).value.bindings;
      && LegacySignOn(user, content, chatId, b, order, s).Success?
      && LegacySignOn(user, content, chatId, b, order, s).value.reply.SignedIn?
      && LegacySignOn(user, content, chatId, b, order, s).value.bindings == b
  {
    var handle := s.getUser(content).value.handle;
    var key := Text.IntToString(user.value);
    var b := bindings[key := handle];
    OwnersAfterBind(bindings, order, handle, key);
    assert b[key := handle] == b;
  }

  /** Binding `key` to a handle only `key` held among the streamed documents leaves `key` its only holder. */
  lemma OwnersAfterBind(bindings: map<string, string>, order: seq<string>, handle: string, key: string)
    requires Lists(order, bindings) && key in order
    requires forall i | 0 <= i < |Owners(bindings, order, handle)| :: Owners(bindings, order, handle)[i] == key
    ensures !ForeignOwner(Owners(bindings[key := handle], order, handle), key)
  {
    var b := bindings[key := handle];
    var after := Owners(b, order, handle);
    forall i | 0 <= i < |after| ensures after[i] == key {
      var k := after[i];
      FilterMembers(order, HoldsHandle(b, handle));
      assert k in order;
      assert k != key ==> k in Owners(bindings, order, handle);
    }
  }

  /** Over a full listing, a foreign owner is a stored binding of the handle under another key. */
  lemma ForeignOwnerHolds(bindings: map<string, string>, order: seq<string>, handle: string, key: string)
    requires Lists(order, bindings)
    ensures ForeignOwner(Owners(bindings, order, handle), key) <==>
      exists k | k in bindings :: bindings[k] == handle && k != key
  {
    var owners := Owners(bindings, order, handle);
    if k :| k in bindings && bindings[k] == handle && k != key {
      var i :| 0 <= i < |owners| && owners[i] == k;
      assert owners[i] != key;
    }
  }

  /** What the filter keeps comes from the sequence it filters. */
  lemma FilterMembers(s: seq<string>, p: string -> bool)
    ensures forall x | x in Collections.Filter(s, p) :: x in s
  {
  }

  /** The reply text of the older `/sign_on`, if any. */
  function LegacySignOnText(reply: LegacyReply): (r: Option<string>)
    ensures r.None? <==> reply == LegacyReply.NoReply || reply.SignedIn?
  {
    match reply
    case NoReply => None
    case Instructions => Some(RegisterInstructions)
    case Joke => Some(TouristReply)
    case UserNotFound => Some(UserNotFoundText)
    case Taken => Some(LegacyTakenText)
    case SignedIn(_) => None
  }

  // ---------------------------------------------------------------------------
  // Join requests and dispatch
  // ---------------------------------------------------------------------------

  /**
   * `chat_join_request` in the older bot: any stored document lets the user
   * in; anyone else is only told how to register, and nothing is scheduled.
   */
  function LegacyJoinRequest(userId: int, bindings: map<string, string>): (r: Response)
    ensures r.ApproveJoinRequest? <==> Text.IntToString(userId) in bindings
    ensures r.ApproveJoinRequest? ==> r == ApproveJoinRequest(GroupChat, userId)
    ensures !r.ApproveJoinRequest? ==> r == DirectMessage(userId, JoinInstructions)
  {
    if Text.IntToString(userId) in bindings then ApproveJoinRequest(GroupChat, userId)
    else DirectMessage(userId, JoinInstructions)
  }

  /**
   * Whom the Cloud Functions bot lets in, the older bot lets in too; the two
   * differ only for a stored empty handle, which only the older bot accepts.
   */
  lemma JoinApprovalsCompared(userId: int, bindings: map<string, string>, now: int)
    ensures JoinRequest(GroupChat, userId, bindings, now).0.ApproveJoinRequest? ==>
      LegacyJoinRequest(userId, bindings) == JoinRequest(GroupChat, userId, bindings, now).0
    ensures LegacyJoinRequest(userId, bindings).ApproveJoinRequest? && !JoinRequest(GroupChat, userId, bindings, now).0.ApproveJoinRequest? <==>
      GetHandle(bindings, userId) == Some("")
    ensures !LegacyJoinRequest(userId, bindings).ApproveJoinRequest? ==>
      LegacyJoinRequest(userId, bindings) == JoinRequest(GroupChat, userId, bindings, now).0
  {
  }

  /** A user the older bot has just signed on is let into the group. */
  lemma SignedInUserJoins(user: Option<int>, content: string, chatId: int,
                          bindings: map<string, string>, order: seq<string>, s: Services)
    requires Lists(order, bindings)
    requires LegacySignOn(user, content, chatId, bindings, order, s).Success?
    requires LegacySignOn(user, content, chatId, bindings, order, s).value.reply.SignedIn?
    ensures LegacyJoinRequest(user.value, LegacySignOn(user, content, chatId, bindings, order, s).value.bindings)
      == ApproveJoinRequest(GroupChat, user.value)
  {
  }

  /** What handling one update did in the older bot: its digest, the bindings after it, and messages sent on the side. */
  datatype LegacyHandled =
    | LegacyHandled(digest: Digest, bindings: map<string, string>, notices: seq<Response>)
      /** A command whose behaviour this model leaves out (help, stickers, tags, stalk, contests). */
    | LegacyUnmodelled(command: string)

  const LegacyUnmodelledCommands := ["/help", "/group_admin", "/group_girlgod", "/tags", "/stalk", "/contests"]

  const LegacySignOnCommand := "/sign_on"

  function LegacyCommand(command: string, content: string, user: Option<int>, chatId: int,
                         bindings: map<string, string>, order: seq<string>, s: Services)
    : (r: Result<LegacyHandled, Exception>)
    requires Lists(order, bindings)
    ensures command != LegacySignOnCommand && r.Success? && r.value.LegacyHandled? ==>
      r.value.bindings == bindings && r.value.notices == []
    ensures command in LegacyUnmodelledCommands ==> r == Success(LegacyUnmodelled(command))
    ensures command == "/select" && LegacySelectCommand(content, s).Success? ==>
      r == Success(LegacyHandled(Digest(Some(SelectText(LegacySelectCommand(content, s).value)), None, false), bindings, []))
    ensures command == "/select" && LegacySelectCommand(content, s).Failure? ==> r == Failure(LegacySelectCommand(content, s).error)
    ensures command == LegacySignOnCommand ==>
      var o := LegacySignOn(user, content, chatId, bindings, order, s);
      && (o.Failure? ==> r == Failure(o.error))
      && (o.Success? ==> r == Success(LegacyHandled(Digest(LegacySignOnText(o.value.reply), o.value.response, false),
                                                    o.value.bindings, if o.value.notice.Some? then [o.value.notice.value] else [])))
  {
    if command in LegacyUnmodelledCommands then Success(LegacyUnmodelled(command))
    else if command == "/select" then
      var reply :- LegacySelectCommand(content, s);
      Success(LegacyHandled(Digest(Some(SelectText(reply)), None, false), bindings, []))
    else if command == LegacySignOnCommand then
      var o :- LegacySignOn(user, content, chatId, bindings, order, s);
      var notices := if o.notice.Some? then [o.notice.value] else [];
      Success(LegacyHandled(Digest(LegacySignOnText(o.reply), o.response, false), o.bindings, notices))
    else Success(LegacyHandled(NoDigest, bindings, []))
  }

  /** `tgmsg_digester(data)` of the older bot. */
  function LegacyDigester(u: Update, bindings: map<string, string>, order: seq<string>, s: Services)
    : (r: Result<LegacyHandled, Exception>)
    requires Lists(order, bindings)
    ensures u.JoinRequestUpdate? ==>
      r == Success(LegacyHandled(Digest(None, Some(LegacyJoinRequest(u.userId, bindings)), false), bindings, []))
    ensures u.OtherMessage? || u.OtherUpdate? ==> r == Success(LegacyHandled(NoDigest, bindings, []))
    ensures u.MemberJoined? ==> r.Success? && r.value.LegacyHandled? && r.value.bindings == bindings
    ensures r.Failure? ==> r.error != CodeforcesError(CfClient.UnavailableMessage)
    ensures u.TextMessage? ==>
      var c := LegacyCommand(ExtractCommand(u.text).0, ExtractCommand(u.text).1, Caller(u.from),
                             u.chatId, bindings, order, s);
      r == if c.Failure? && c.error == CodeforcesError(CfClient.UnavailableMessage)
           then Success(LegacyHandled(Digest(Some(CfClient.UnavailableMessage), None, false), bindings, []))
           else c
    ensures u.MemberJoined? ==>
      r == Success(LegacyHandled(if u.member.isBot then NoDigest else Digest(Some(Greeting), None, false), bindings, []))
  {
    match u
    case TextMessage(chatId, _, from, text) =>
      var (command, content) := ExtractCommand(text);
      (match LegacyCommand(command, content, Caller(from), chatId, bindings, order, s)
       case Success(h) => Success(h)
       case Failure(e) =>
         if e == CodeforcesError(CfClient.UnavailableMessage) then
           Success(LegacyHandled(Guard(Failure(e)).value, bindings, []))
         else Failure(e))
    case MemberJoined(_, member) =>
      Success(LegacyHandled(if member.isBot then NoDigest else Digest(Some(Greeting), None, false), bindings, []))
    case OtherMessage(_) => Success(LegacyHandled(NoDigest, bindings, []))
    case JoinRequestUpdate(userId) =>
      Success(LegacyHandled(Digest(None, Some(LegacyJoinRequest(userId, bindings)), false), bindings, []))
    case OtherUpdate => Success(LegacyHandled(NoDigest, bindings, []))
  }

  /**
   * Only `/sign_on` signs a user on in the older bot: the aliases the newer
   * bot accepts get no reply and bind nothing.
   */
  lemma {:induction false} AliasesIgnored(chatId: int, messageId: int, from: Sender, arg: string, alias: nat,
                                          bindings: map<string, string>, order: seq<string>, s: Services)
    requires Lists(order, bindings)
    requires 1 <= alias < |SignOnCommands|
    ensures var u := TextMessage(chatId, messageId, from, SignOnCommands[alias] + " " + arg);
      LegacyDigester(u, bindings, order, s) == Success(LegacyHandled(NoDigest, bindings, []))
  {
    var command := SignOnCommands[alias];
    SignOnAliasShape(alias);
    assert command != LegacySignOnCommand by {
      assert |command| == 7 || command[6] == 'i';
    }
    assert command !in LegacyUnmodelledCommands by {
      assert forall k | 0 <= k < |LegacyUnmodelledCommands| :: LegacyUnmodelledCommands[k] in UnmodelledCommands;
    }
    ExtractCommandRoundTrip(command, arg, false);
  }
}

=== FILE: cf_client.dfy ===
/**
 * The Codeforces API clients: classification of the JSON envelope into a
 * result or a `CodeforcesError`, and the list post-processing of each call.
 * Three variants exist: the synchronous client (`client.py`), its older form
 * (`__init__.py`) and the asynchronous client. The older one checks only the
 * outage text; the asynchronous one also lets aiohttp refuse a non-JSON media type.
 */
module CfClient {
  import opened Wrappers
  import opened Errors
  import Text
  import Collections
  import Sorting
  import opened CfModels

  /** The decoded JSON body: `status` OK with a `result`, `status` FAILED with a `comment`, or not JSON at all. */
  datatype Envelope<T> = Ok(result: T) | Failed(comment: string) | Undecodable

  /**
   * An HTTP response: its text, its raw `Content-Type` header (absent when
   * the server sent none), the bare media type aiohttp derives from that
   * header, and what decoding the text gives.
   */
  datatype Response<T> = Response(text: string, contentType: Option<string>, mediaType: string, body: Envelope<T>)

  /** The media type aiohttp's `resp.json()` expects by default; `JsonAccepted` gives every type it lets through. */
  const JsonMediaType := "application/json"

  const ApplicationPrefix := "application/"

  /** A character of the class `[\w.+-]`, with `\w` read over ASCII. */
  predicate SubtypeChar(c: char) {
    'a' <= c <= 'z' || 'A' <= c <= 'Z' || '0' <= c <= '9' || c == '_' || c == '.' || c == '+' || c == '-'
  }

  predicate StartsJson(s: string) {
    |s| >= 4 && s[..4] == "json"
  }

  /** A run of `[\w.+-]` whose last character is `+`, followed by `json`. */
  predicate RunToPlusJson(s: string)
    decreases |s|
  {
    |s| > 0 && SubtypeChar(s[0]) && ((s[0] == '+' && StartsJson(s[1..])) || RunToPlusJson(s[1..]))
  }

  /** The subtype part of the pattern: `json` directly, or `[\w.+-]+?\+json` with a non-empty run. */
  predicate JsonSubtype(s: string) {
    StartsJson(s) || (|s| > 0 && SubtypeChar(s[0]) && RunToPlusJson(s[1..]))
  }

  /**
   * The media types aiohttp's `resp.json()` decodes by default: those the
   * pattern `^application/(?:[\w.+-]+?\+)?json` matches from the start,
   * so `application/json`, the `+json` types and anything they prefix.
   */
  predicate JsonAccepted(m: string) {
    |m| >= |ApplicationPrefix| && m[..|ApplicationPrefix|] == ApplicationPrefix && JsonSubtype(m[|ApplicationPrefix|..])
  }

  /** `RunToPlusJson` is the pattern's run: some cut `k` ends a run of the class with `+`, and `json` follows. */
  lemma {:induction false} RunToPlusJsonIff(s: string)
    ensures RunToPlusJson(s) <==>
      exists k | 1 <= k <= |s| :: s[k - 1] == '+' && (forall i | 0 <= i < k :: SubtypeChar(s[i])) && StartsJson(s[k..])
    decreases |s|
  {
    if |s| > 0 {
      var t := s[1..];
      RunToPlusJsonIff(t);
      if RunToPlusJson(s) {
        if s[0] == '+' && StartsJson(t) {
          assert s[1 - 1] == '+' && (forall i | 0 <= i < 1 :: SubtypeChar(s[i])) && StartsJson(s[1..]);
        } else {
          var k :| 1 <= k <= |t| && t[k - 1] == '+' && (forall i | 0 <= i < k :: SubtypeChar(t[i])) && StartsJson(t[k..]);
          assert t[k..] == s[k + 1..];
          assert forall i | 0 <= i < k + 1 :: SubtypeChar(s[i]) by {
            forall i | 0 <= i < k + 1 ensures SubtypeChar(s[i]) {
              if i > 0 { assert s[i] == t[i - 1]; }
            }
          }
          assert s[k + 1 - 1] == '+' && StartsJson(s[k + 1..]);
        }
      }
      if exists k | 1 <= k <= |s| :: s[k - 1] == '+' && (forall i | 0 <= i < k :: SubtypeChar(s[i])) && StartsJson(s[k..]) {
        var k :| 1 <= k <= |s| && s[k - 1] == '+' && (forall i | 0 <= i < k :: SubtypeChar(s[i])) && StartsJson(s[k..]);
        assert SubtypeChar(s[0]);
        if k > 1 {
          assert t[k - 1..] == s[k..];
          assert t[k - 1 - 1] == '+';
          assert forall i | 0 <= i < k - 1 :: SubtypeChar(t[i]) by {
            forall i | 0 <= i < k - 1 ensures SubtypeChar(t[i]) {
              assert t[i] == s[i + 1];
            }
          }
          assert RunToPlusJson(t);
        }
      }
    }
  }

  lemma JsonMediaTypeAccepted()
    ensures JsonAccepted(JsonMediaType)
  {
    assert JsonMediaType[|ApplicationPrefix|..] == "json";
  }

  /** Every `application/<run>+json` type is accepted, whatever parameters or suffix follow. */
  lemma PlusJsonAccepted(run: string, rest: string)
    requires |run| > 0 && forall i | 0 <= i < |run| :: SubtypeChar(run[i])
    ensures JsonAccepted(ApplicationPrefix + run + "+json" + rest)
  {
    var m := ApplicationPrefix + run + "+json" + rest;
    var sub := run + "+json" + rest;
    assert m[..|ApplicationPrefix|] == ApplicationPrefix && m[|ApplicationPrefix|..] == sub;
    var t := sub[1..];
    var k := |run|;
    assert t[k - 1] == '+';
    assert forall i | 0 <= i < k :: SubtypeChar(t[i]) by {
      forall i | 0 <= i < k ensures SubtypeChar(t[i]) {
        if i < k - 1 { assert t[i] == run[i + 1]; }
      }
    }
    assert t == run[1..] + "+" + ("json" + rest);
    assert t[k..] == "json" + rest;
    assert t[k..][..4] == "json";
    RunToPlusJsonIff(t);
    assert SubtypeChar(sub[0]) by { assert sub[0] == run[0]; }
  }

  /** The match is anchored only at the start: `application/json` followed by anything, `application/jsonp` say, is decoded. */
  lemma JsonPrefixAccepted(rest: string)
    ensures JsonAccepted(JsonMediaType + rest)
  {
    assert (JsonMediaType + rest)[..|ApplicationPrefix|] == ApplicationPrefix;
    assert (JsonMediaType + rest)[|ApplicationPrefix|..][..4] == "json";
  }

  /** The run before `+` cannot be empty: `application/+json` is refused. */
  lemma EmptyRunRefused()
    ensures !JsonAccepted("application/+json")
  {
    var sub := "application/+json"[|ApplicationPrefix|..];
    assert sub == "+json" && sub[1..] == "json";
    RunToPlusJsonIff("json");
  }

  /** `application/problem+json`, for one, is decoded. */
  lemma ProblemJsonAccepted()
    ensures JsonAccepted("application/problem+json")
  {
    PlusJsonAccepted("problem", "");
    assert ApplicationPrefix + "problem" + "+json" + "" == "application/problem+json";
  }

  /** A media type outside `application/` is never decoded. */
  lemma OtherTypesRefused(m: string)
    requires |m| >= |ApplicationPrefix| && m[..|ApplicationPrefix|] != ApplicationPrefix
    ensures !JsonAccepted(m)
  {
  }

  const ContentTypeHeader := "Content-Type"

  const UnavailableMessage := "Codeforces is temporarily unavailable."
  const GatewayText := "504 Gateway Time-out"
  const GatewayMessage := "504 Gateway Timeout"
  /** The braces are sent literally; the message is not formatted. */
  const NonJsonMessage := "Codeforces sent non-JSON response:\n{text}"
  const NotFoundMessage := "Not found"

  predicate SaysUnavailable<T>(resp: Response<T>) {
    Text.Contains(resp.text, UnavailableMessage)
  }

  predicate GatewayPage<T>(resp: Response<T>) {
    Text.Contains(resp.text, GatewayText) && resp.contentType.Some? && Text.Contains(resp.contentType.value, "text/html")
  }

  predicate JsonContent<T>(resp: Response<T>) {
    resp.contentType.Some? && Text.Contains(resp.contentType.value, "application/json")
  }

  /**
   * The envelope check shared by every client: `result` when the status is
   * not FAILED; otherwise "Not found" when the comment mentions "not found"
   * in any letter case, else the comment itself.
   */
  function Unwrap<T>(body: Envelope<T>): (r: Result<T, Exception>)
    ensures r.Success? <==> body.Ok?
    ensures body.Ok? ==> r.value == body.result
    ensures body.Failed? ==> r.Failure? && r.error.CodeforcesError?
    ensures body.Undecodable? ==> r == Failure(JsonDecodeError)
  {
    match body
    case Ok(result) => Success(result)
    case Failed(comment) =>
      if Text.Contains(Text.Lower(comment), "not found") then Failure(CodeforcesError(NotFoundMessage))
      else Failure(CodeforcesError(comment))
    case Undecodable => Failure(JsonDecodeError)
  }

  /** A FAILED envelope becomes "Not found" exactly when its comment says "not found" in some letter case. */
  lemma NotFoundClassification<T>(comment: string)
    ensures Unwrap<T>(Failed(comment)) == Failure(CodeforcesError(NotFoundMessage))
        <==> Text.Contains(Text.Lower(comment), "not found")
  {
    NotFoundLowered();
    Text.ContainsPrefix(Text.Lower(NotFoundMessage), "not found");
  }

  lemma NotFoundLowered()
    ensures "not found" <= Text.Lower(NotFoundMessage)
  {
    Text.LowerPrefix(NotFoundMessage, "not found");
  }

  /**
   * `CodeforcesAPI._request` of the synchronous client: the header is read
   * first (`KeyError` when it is missing); then the outage text, a 504 HTML
   * page and a non-JSON content type are rejected, in that order, before the
   * envelope is looked at.
   */
  function SyncRequest<T>(resp: Response<T>): (r: Result<T, Exception>)
    ensures resp.contentType.None? ==> r == Failure(KeyError(ContentTypeHeader))
    ensures resp.contentType.Some? && SaysUnavailable(resp) ==> r == Failure(CodeforcesError(UnavailableMessage))
    ensures !SaysUnavailable(resp) && GatewayPage(resp) ==> r == Failure(CodeforcesError(GatewayMessage))
    ensures resp.contentType.Some? && !SaysUnavailable(resp) && !GatewayPage(resp) && !JsonContent(resp)
        ==> r == Failure(CodeforcesError(NonJsonMessage))
    ensures r.Success? <==> !SaysUnavailable(resp) && !GatewayPage(resp) && JsonContent(resp) && resp.body.Ok?
    ensures r.Success? ==> r.value == resp.body.result
  {
    if resp.contentType.None? then Failure(KeyError(ContentTypeHeader))
    else if SaysUnavailable(resp) then Failure(CodeforcesError(UnavailableMessage))
    else if GatewayPage(resp) then Failure(CodeforcesError(GatewayMessage))
    else if !JsonContent(resp) then Failure(CodeforcesError(NonJsonMessage))
    else Unwrap(resp.body)
  }

  /**
   * `_request` of the older client: only the outage text is checked before
   * `requests` decodes the body, whatever its content type.
   */
  function LegacyRequest<T>(resp: Response<T>): (r: Result<T, Exception>)
    ensures SaysUnavailable(resp) ==> r == Failure(CodeforcesError(UnavailableMessage))
    ensures r.Success? <==> !SaysUnavailable(resp) && resp.body.Ok?
    ensures r.Success? ==> r.value == resp.body.result
  {
    if SaysUnavailable(resp) then Failure(CodeforcesError(UnavailableMessage)) else Unwrap(resp.body)
  }

  /**
   * `_request` of the asynchronous client: after the outage text, aiohttp's
   * `resp.json()` raises `ContentTypeError` for a media type `JsonAccepted`
   * refuses, before the body is decoded at all.
   */
  function AsyncRequest<T>(resp: Response<T>): (r: Result<T, Exception>)
    ensures SaysUnavailable(resp) ==> r == Failure(CodeforcesError(UnavailableMessage))
    ensures !SaysUnavailable(resp) && !JsonAccepted(resp.mediaType) ==> r == Failure(ContentTypeError)
    ensures !SaysUnavailable(resp) && JsonAccepted(resp.mediaType) && resp.body.Undecodable? ==> r == Failure(JsonDecodeError)
    ensures r.Success? <==> !SaysUnavailable(resp) && JsonAccepted(resp.mediaType) && resp.body.Ok?
    ensures r.Success? ==> r.value == resp.body.result
  {
    if SaysUnavailable(resp) then Failure(CodeforcesError(UnavailableMessage))
    else if !JsonAccepted(resp.mediaType) then Failure(ContentTypeError)
    else Unwrap(resp.body)
  }

  /** aiohttp decodes an `application/problem+json` answer as any other: the outcome is the envelope's. */
  lemma AsyncDecodesPlusJson<T>(resp: Response<T>)
    requires !SaysUnavailable(resp) && resp.mediaType == "application/problem+json"
    ensures AsyncRequest(resp) == Unwrap(resp.body)
  {
    ProblemJsonAccepted();
  }

  /** On a JSON response that is not a 504 page the synchronous and the older client classify alike. */
  lemma RequestsAgree<T>(resp: Response<T>)
    requires JsonContent(resp) && !GatewayPage(resp)
    ensures SyncRequest(resp) == LegacyRequest(resp)
  {
  }

  /** The synchronous client never accepts what the older one rejects. */
  lemma SyncStricter<T>(resp: Response<T>)
    requires SyncRequest(resp).Success?
    ensures LegacyRequest(resp) == SyncRequest(resp)
  {
  }

  /** The asynchronous client differs from the older one only by refusing a media type aiohttp does not decode. */
  lemma AsyncRefinesLegacy<T>(resp: Response<T>)
    ensures JsonAccepted(resp.mediaType) ==> AsyncRequest(resp) == LegacyRequest(resp)
    ensures !JsonAccepted(resp.mediaType) && !SaysUnavailable(resp) ==> AsyncRequest(resp) == Failure(ContentTypeError)
    ensures AsyncRequest(resp).Success? ==> LegacyRequest(resp) == AsyncRequest(resp)
  {
  }

  /** Where the header names JSON, is no 504 page, and aiohttp accepts the media type, all three clients agree. */
  lemma AsyncAgrees<T>(resp: Response<T>)
    requires JsonContent(resp) && !GatewayPage(resp) && JsonAccepted(resp.mediaType)
    ensures SyncRequest(resp) == AsyncRequest(resp) == LegacyRequest(resp)
  {
  }

  /** `get_user(handle)`: the first user `get_users` returns; an empty answer raises `IndexError`. */
  function GetUser(users: Result<seq<User>, Exception>): (r: Result<User, Exception>)
    ensures r.Success? <==> users.Success? && |users.value| > 0
    ensures r.Success? ==> r.value == users.value[0]
    ensures users.Failure? ==> r == Failure(users.error)
  {
    var us :- users;
    if |us| == 0 then Failure(IndexError) else Success(us[0])
  }

  /** The query parameters of `get_status`: `count` is sent only when one is given. */
  function StatusParams(handle: string, count: Option<int>): (r: map<string, string>)
    ensures "handle" in r && r["handle"] == handle
    ensures "count" in r <==> count.Some?
    ensures count.Some? ==> r["count"] == Text.IntToString(count.value)
    ensures r.Keys <= {"handle", "count"}
  {
    var params := map["handle" := handle];
    if count.Some? then params["count" := Text.IntToString(count.value)] else params
  }

  /** Submissions the synchronous client keeps: individual ones to problems outside any problemset. */
  predicate OwnArchiveSubmission(s: Submission, problemsetName: Problem -> Option<string>) {
    NotTeam(s.author) && problemsetName(s.problem).None?
  }

  /** `get_status` of the synchronous client. */
  function GetStatus(resp: Response<seq<Submission>>, problemsetName: Problem -> Option<string>)
    : (r: Result<seq<Submission>, Exception>)
    ensures r.Success? <==> SyncRequest(resp).Success?
    ensures r.Success? ==> forall i | 0 <= i < |r.value| ::
      r.value[i] in resp.body.result && OwnArchiveSubmission(r.value[i], problemsetName)
    ensures r.Success? ==> forall i | 0 <= i < |resp.body.result| ::
      OwnArchiveSubmission(resp.body.result[i], problemsetName) ==> resp.body.result[i] in r.value
  {
    var subs :- SyncRequest(resp);
    Success(Collections.Filter(subs, (s: Submission) => OwnArchiveSubmission(s, problemsetName)))
  }

  /** `get_status` of the asynchronous client: every submission, unfiltered. */
  function AsyncGetStatus(resp: Response<seq<Submission>>): (r: Result<seq<Submission>, Exception>)
    ensures r.Success? ==> JsonAccepted(resp.mediaType) && resp.body.Ok? && r.value == resp.body.result
    ensures !SaysUnavailable(resp) && !JsonAccepted(resp.mediaType) ==> r == Failure(ContentTypeError)
    ensures r.Failure? ==> r == AsyncRequest(resp)
  {
    AsyncRequest(resp)
  }

  /**
   * Where the synchronous client answers and aiohttp accepts the media type,
   * the synchronous list is the asynchronous one, filtered and in the same order.
   */
  lemma StatusVariants(resp: Response<seq<Submission>>, problemsetName: Problem -> Option<string>)
    requires GetStatus(resp, problemsetName).Success? && JsonAccepted(resp.mediaType)
    ensures AsyncGetStatus(resp).Success?
    ensures GetStatus(resp, problemsetName).value
         == Collections.Filter(AsyncGetStatus(resp).value, (s: Submission) => OwnArchiveSubmission(s, problemsetName))
  {
  }

  /** `get_problems` of the synchronous client: Codeforces' own problems only. */
  function ArchiveProblems(problems: seq<Problem>, problemsetName: Problem -> Option<string>): (r: seq<Problem>)
    ensures forall i | 0 <= i < |r| :: r[i] in problems && problemsetName(r[i]).None?
    ensures forall i | 0 <= i < |problems| :: problemsetName(problems[i]).None? ==> problems[i] in r
  {
    Collections.Filter(problems, (p: Problem) => problemsetName(p).None?)
  }

  /** `get_available_tags`: the union, folded from the left, of the problems' tag sets. */
  function AvailableTags(problems: seq<Problem>): (r: set<string>)
    ensures forall t :: t in r <==> exists i | 0 <= i < |problems| :: t in problems[i].tags
  {
    if |problems| == 0 then {}
    else
      var last := problems[|problems| - 1];
      var before := AvailableTags(problems[..|problems| - 1]);
      assert forall t :: t in before <==> exists i | 0 <= i < |problems| - 1 :: t in problems[i].tags;
      before + (set t | t in last.tags)
  }

  /** Sort key of `get_contests`: the start time alone. */
  function StartKey(c: Contest): seq<int> {
    [c.startTimeSeconds]
  }

  const DefaultPhases: seq<ContestPhase> := [Before, Coding]

  /**
   * The list part of `get_contests(phases)` of the synchronous client: keep
   * the contests in one of `phases` (all of them when `phases` is empty),
   * then sort stably by start time.
   */
  function SelectContests(cs: seq<Contest>, phases: seq<ContestPhase>): (r: seq<Contest>)
    ensures Sorting.Sorted(r, StartKey)
    ensures forall i, j | 0 <= i < j < |r| :: r[i].startTimeSeconds <= r[j].startTimeSeconds
    ensures forall c :: c in r <==> c in cs && (|phases| == 0 || c.phase in phases)
    ensures multiset(r) == multiset(PhaseFilter(cs, phases))
  {
    var kept := PhaseFilter(cs, phases);
    var r := Sorting.SortBy(kept, StartKey);
    Sorting.SortByMembers(kept, StartKey);
    forall i, j | 0 <= i < j < |r|
      ensures r[i].startTimeSeconds <= r[j].startTimeSeconds
    {
      Sorting.LexLeSingle(r[i].startTimeSeconds, r[j].startTimeSeconds);
    }
    r
  }

  function PhaseFilter(cs: seq<Contest>, phases: seq<ContestPhase>): (r: seq<Contest>)
    ensures forall c :: c in r <==> c in cs && (|phases| == 0 || c.phase in phases)
  {
    if |phases| == 0 then cs else Collections.Filter(cs, (c: Contest) => c.phase in phases)
  }

  /** `get_contests` of the synchronous client. */
  function GetContests(resp: Response<seq<Contest>>, phases: seq<ContestPhase>): (r: Result<seq<Contest>, Exception>)
    ensures r.Success? <==> SyncRequest(resp).Success?
    ensures r.Success? ==> r.value == SelectContests(resp.body.result, phases)
  {
    var cs :- SyncRequest(resp);
    Success(SelectContests(cs, phases))
  }

  /** The list part of `get_contests` of the older and of the asynchronous client: the phases are fixed. */
  function LegacySelectContests(cs: seq<Contest>): (r: seq<Contest>)
    ensures Sorting.Sorted(r, StartKey)
    ensures forall c :: c in r <==> c in cs && (c.phase == Before || c.phase == Coding)
  {
    var r := Sorting.SortBy(Collections.Filter(cs, (c: Contest) => c.phase == Before || c.phase == Coding), StartKey);
    assert forall c :: c in r <==> c in multiset(r);
    r
  }

  /** The fixed phases are the synchronous client's default. */
  lemma LegacyContestsAreDefault(cs: seq<Contest>)
    ensures LegacySelectContests(cs) == SelectContests(cs, DefaultPhases)
  {
    Collections.FilterCongruent(cs,
      (c: Contest) => c.phase == Before || c.phase == Coding,
      (c: Contest) => c.phase in DefaultPhases);
  }
}

=== FILE: cf_models.dfy ===
/** The Codeforces API records and the fields derived from them. */
module CfModels {
  import opened Wrappers
  import opened Errors
  import Text
  import Utils

  datatype User = User(
    handle: string,
    rating: Option<int>,
    rank: Option<string>,
    maxRating: Option<int>,
    maxRank: Option<string>)

  datatype Problem = Problem(contestId: int, index: string, name: string, rating: Option<int>, tags: seq<string>)

  datatype ParticipantType = Contestant | Practice | Virtual | Manager | OutOfCompetition

  datatype Party = Party(contestId: int, members: seq<User>, participantType: ParticipantType, teamId: Option<int>)

  datatype Submission = Submission(
    id: int,
    contestId: int,
    creationTimeSeconds: int,
    problem: Problem,
    author: Party,
    programmingLanguage: string,
    verdict: Option<string>,
    testset: string,
    passedTestCount: int)

  datatype ContestScoring = CF | IOI | ICPC

  datatype ContestPhase = Before | Coding | PendingSystemTest | SystemTest | Finished

  /** Times are whole seconds since the epoch. */
  datatype Contest = Contest(
    id: int,
    name: string,
    scoring: ContestScoring,
    phase: ContestPhase,
    durationSeconds: int,
    startTimeSeconds: int)

  /** Python truthiness of an optional integer: present and non-zero. */
  predicate Truthy(n: Option<int>) {
    n.Some? && n.value != 0
  }

  /** `str(n)` for an optional integer, `None` included. */
  function ShowOptional(n: Option<int>): string {
    match n
    case Some(v) => Text.IntToString(v)
    case None => "None"
  }

  function UserUrl(u: User): string {
    "https://codeforces.com/profile/" + u.handle
  }

  /** The first line of `str(user)`: the handle linked to the profile. */
  function UserHeader(u: User): string {
    "Handle: <a href='" + UserUrl(u) + "'>" + u.handle + "</a>\n"
  }

  /**
   * `str(user)`. A truthy rating adds the current and the peak rating with
   * their ranks passed through `capwords`; `capwords(None)` raises. Any other
   * user is shown as unrated.
   */
  function UserText(u: User, capwords: string -> string): (r: Result<string, Exception>)
    ensures r.Failure? <==> Truthy(u.rating) && (u.rank.None? || u.maxRank.None?)
    ensures r.Success? ==> UserHeader(u) <= r.value
  {
    var header := UserHeader(u);
    if Truthy(u.rating) then
      if u.rank.None? || u.maxRank.None? then Failure(AttributeError)
      else
        Success(header
          + "Rating: " + Text.IntToString(u.rating.value) + ", " + capwords(u.rank.value) + "\n"
          + "Peak rating: " + ShowOptional(u.maxRating) + ", " + capwords(u.maxRank.value))
    else
      Success(header + "Unrated")
  }

  /** The text says "Unrated" after the handle line exactly when the rating is missing or zero. */
  lemma UserTextUnrated(u: User, capwords: string -> string)
    requires UserText(u, capwords).Success?
    ensures UserText(u, capwords).value == UserHeader(u) + "Unrated" <==> !Truthy(u.rating)
  {
    var header := UserHeader(u);
    var t := UserText(u, capwords).value;
    if Truthy(u.rating) {
      assert t[|header|] == 'R';
      assert (header + "Unrated")[|header|] == 'U';
    }
  }

  /** `problem.id`: the contest id in decimal followed by the index, such as `1772A`. */
  function ProblemId(p: Problem): string {
    Text.IntToString(p.contestId) + p.index
  }

  function ProblemUrl(p: Problem): string {
    "https://codeforces.com/problemset/problem/" + Text.IntToString(p.contestId) + "/" + p.index
  }

  function ProblemLinkedName(p: Problem): (r: string)
    ensures Text.Contains(r, ProblemId(p)) && Text.Contains(r, ProblemUrl(p))
  {
    var prefix := "<a href='";
    var r := prefix + ProblemUrl(p) + "'>" + ProblemId(p) + " - " + p.name + "</a>";
    assert ProblemUrl(p) <= r[|prefix|..];
    var k := |prefix| + |ProblemUrl(p)| + 2;
    assert ProblemId(p) <= r[k..];
    r
  }

  /** An index that starts with a letter, as Codeforces problem indexes do. */
  predicate LetterIndex(p: Problem) {
    |p.index| > 0 && !Text.IsDigit(p.index[0])
  }

  /**
   * Ids of problems whose index starts with a non-digit determine the contest
   * and the index. Without that condition they do not: contest 1 index `23`
   * and contest 12 index `3` share the id `123`.
   */
  lemma ProblemIdInjective(a: Problem, b: Problem)
    requires LetterIndex(a) && LetterIndex(b)
    requires ProblemId(a) == ProblemId(b)
    ensures a.contestId == b.contestId && a.index == b.index
  {
    var s := ProblemId(a);
    var ca := Text.IntToString(a.contestId);
    var cb := Text.IntToString(b.contestId);
    assert s[|ca|] == a.index[0] && s[|cb|] == b.index[0];
    assert |ca| == |cb|;
    assert ca == s[..|ca|] && cb == s[..|cb|];
    Text.IntToStringInjective(a.contestId, b.contestId);
    assert a.index == s[|ca|..] && b.index == s[|cb|..];
  }

  /** `party.not_team()`. */
  predicate NotTeam(p: Party) {
    p.teamId.None?
  }

  /**
   * `submission.get_author()`: the first member of a party that is not a
   * team, `None` for a team; an individual party with no members raises.
   */
  function GetAuthor(s: Submission): (r: Result<Option<User>, Exception>)
    ensures r.Success? && r.value.None? <==> !NotTeam(s.author)
    ensures r.Failure? <==> NotTeam(s.author) && |s.author.members| == 0
    ensures r.Success? && r.value.Some? ==> r.value.value in s.author.members
    ensures r.Success? && r.value.Some? ==> r.value.value == s.author.members[0]
  {
    if NotTeam(s.author) then
      if |s.author.members| == 0 then Failure(IndexError) else Success(Some(s.author.members[0]))
    else
      Success(None)
  }

  /** `contest.end_time`, in seconds since the epoch. */
  function EndTime(c: Contest): int {
    c.startTimeSeconds + c.durationSeconds
  }

  function ContestUrl(c: Contest): string {
    "https://codeforces.com/contests/" + Text.IntToString(c.id)
  }

  /**
   * The countdown line of `str(contest)`: time to the start while it has not
   * started, time to the end from the start on.
   */
  function ContestCountdown(c: Contest, now: int): (r: Utils.Countdown)
    ensures r.StartsIn? <==> now < c.startTimeSeconds
    ensures r.StartsIn? ==> now + r.seconds == c.startTimeSeconds
    ensures r.EndsIn? ==> now + r.seconds == c.startTimeSeconds + c.durationSeconds
  {
    Utils.CountdownAt(now, c.startTimeSeconds, EndTime(c))
  }
}

=== FILE: cf_update.dfy ===
/**
 * The update service: keeping the stored handles in line with the bound
 * handles, announcing new or changed submissions, reporting rating changes
 * of the latest contest, and reminding of contests about to start.
 */
module CfUpdate {
  import opened Wrappers
  import opened Errors
  import Text
  import Collections
  import Sorting
  import opened CfModels
  import Clist
  import PredictedDeltas

  /** The stored snapshot: each tracked handle with its last fetched submissions. */
  type Store = map<string, seq<Submission>>

  /** A submission list fetch per handle, as `get_status(handle, count=100)` answers it. */
  type Fetch = string -> Result<seq<Submission>, Exception>

  /**
   * After `init`: the new store, the handles whose initial fetch succeeded
   * and those whose fetch raised.
   */
  datatype Reconciled = Reconciled(store: Store, initialised: set<string>, failed: set<string>)

  /**
   * `init`: stored handles that are no longer wanted are removed, stored ones
   * that are wanted are left as they are, and every wanted handle not yet
   * stored is fetched and stored. The fetches run together, so one that
   * raises does not stop the others from being stored.
   */
  function Reconcile(store: Store, desired: set<string>, fetch: Fetch): (r: Reconciled)
    ensures r.store.Keys == (store.Keys * desired) + r.initialised
    ensures r.initialised !! r.failed && r.initialised + r.failed == desired - store.Keys
    ensures forall h | h in store && h in desired :: r.store[h] == store[h]
    ensures forall h | h in r.initialised :: fetch(h).Success? && r.store[h] == fetch(h).value
    ensures forall h | h in r.failed :: fetch(h).Failure?
  {
    var added := set h | h in desired && h !in store && fetch(h).Success?;
    var failed := set h | h in desired && h !in store && fetch(h).Failure?;
    var kept := set h | h in store && h in desired;
    var s := map h | h in kept + added :: if h in store then store[h] else fetch(h).value;
    Reconciled(s, added, failed)
  }

  /** `init` answers success exactly when no initial fetch raised. */
  predicate ReconcileSucceeded(r: Reconciled) {
    r.failed == {}
  }

  /** Every endpoint first checks that the `X-Auth-Token` header carries the shared secret. */
  predicate Authenticated(token: Option<string>, secret: string) {
    token == Some(secret)
  }

  /** The answer of the `init` endpoint. */
  datatype InitReply = AuthenticationFailed | InitDone | InitRaised

  /**
   * The `init` endpoint: an unauthenticated call changes nothing; otherwise
   * the store is reconciled, and the call raises if some initial fetch did.
   */
  function Init(token: Option<string>, secret: string, store: Store, desired: set<string>, fetch: Fetch)
    : (r: (Store, InitReply))
    ensures !Authenticated(token, secret) ==> r == (store, AuthenticationFailed)
    ensures Authenticated(token, secret) ==> r.0 == Reconcile(store, desired, fetch).store
    ensures r.1 == InitDone <==> Authenticated(token, secret) && ReconcileSucceeded(Reconcile(store, desired, fetch))
  {
    if !Authenticated(token, secret) then (store, AuthenticationFailed)
    else
      var rec := Reconcile(store, desired, fetch);
      (rec.store, if ReconcileSucceeded(rec) then InitDone else InitRaised)
  }

  /** When every fetch succeeds, the stored handles are exactly the wanted ones. */
  lemma ReconcileKeys(store: Store, desired: set<string>, fetch: Fetch)
    requires ReconcileSucceeded(Reconcile(store, desired, fetch))
    ensures Reconcile(store, desired, fetch).store.Keys == desired
  {
  }

  /**
   * A second `init` with the same handles removes nothing, fetches nothing
   * and leaves the store as it is, whatever the fetches would answer.
   */
  lemma ReconcileIdempotent(store: Store, desired: set<string>, fetch: Fetch, again: Fetch)
    requires ReconcileSucceeded(Reconcile(store, desired, fetch))
    ensures var first := Reconcile(store, desired, fetch).store;
      Reconcile(first, desired, again) == Reconciled(first, {}, {})
  {
    var first := Reconcile(store, desired, fetch).store;
    var second := Reconcile(first, desired, again);
    assert second.initialised == {} && second.failed == {};
    assert second.store == first;
  }

  /** `{s.id: s for s in status}`: each id with the last submission that has it. */
  function IdIndex(ss: seq<Submission>): (r: map<int, Submission>)
    ensures forall id :: id in r <==> exists i | 0 <= i < |ss| :: ss[i].id == id
    ensures forall id | id in r :: r[id] in ss && r[id].id == id
  {
    if |ss| == 0 then map[]
    else
      var last := ss[|ss| - 1];
      var before := IdIndex(ss[..|ss| - 1]);
      assert forall id :: id in before <==> exists i | 0 <= i < |ss| - 1 :: ss[i].id == id;
      before[last.id := last]
  }

  /** No two submissions share an id, as for a list the API returns. */
  predicate UniqueIds(ss: seq<Submission>) {
    forall i, j | 0 <= i < j < |ss| :: ss[i].id != ss[j].id
  }

  lemma {:induction false} IdIndexUnique(ss: seq<Submission>, k: nat)
    requires UniqueIds(ss) && k < |ss|
    ensures ss[k].id in IdIndex(ss) && IdIndex(ss)[ss[k].id] == ss[k]
  {
    if k < |ss| - 1 {
      IdIndexUnique(ss[..|ss| - 1], k);
    }
  }

  /** The fetched submission is new, or differs in some field from the stored one with its id. */
  predicate Changed(index: map<int, Submission>, s: Submission) {
    s.id !in index || index[s.id] != s
  }

  /** `updated_status`: the fetched submissions that are new or changed, in fetched order. */
  function UpdatedStatus(stored: seq<Submission>, fetched: seq<Submission>): (r: seq<Submission>)
    ensures forall i | 0 <= i < |r| :: r[i] in fetched && Changed(IdIndex(stored), r[i])
    ensures forall i | 0 <= i < |fetched| :: Changed(IdIndex(stored), fetched[i]) ==> fetched[i] in r
  {
    var index := IdIndex(stored);
    Collections.Filter(fetched, (s: Submission) => Changed(index, s))
  }

  /**
   * `updated_status` keeps the fetched order: the report on a list fetched in
   * two parts is the report on the first part followed by that on the second.
   */
  lemma UpdatedStatusInOrder(stored: seq<Submission>, a: seq<Submission>, b: seq<Submission>)
    ensures UpdatedStatus(stored, a + b) == UpdatedStatus(stored, a) + UpdatedStatus(stored, b)
  {
    var index := IdIndex(stored);
    Collections.FilterAppend(a, b, (s: Submission) => Changed(index, s));
  }

  /** A fetched submission is reported as often as it was fetched if it is new or changed, and never otherwise. */
  lemma UpdatedStatusCount(stored: seq<Submission>, fetched: seq<Submission>, s: Submission)
    ensures multiset(UpdatedStatus(stored, fetched))[s] == if Changed(IdIndex(stored), s) then multiset(fetched)[s] else 0
  {
    var index := IdIndex(stored);
    Collections.FilterCount(fetched, (s: Submission) => Changed(index, s), s);
  }

  /** With unique stored ids, a submission is reported exactly when no stored record equals it. */
  lemma UpdatedUnique(stored: seq<Submission>, fetched: seq<Submission>)
    requires UniqueIds(stored)
    ensures UpdatedStatus(stored, fetched) == Collections.Filter(fetched, (s: Submission) => s !in stored)
  {
    var index := IdIndex(stored);
    forall i | 0 <= i < |fetched|
      ensures Changed(index, fetched[i]) == (fetched[i] !in stored)
    {
      var s := fetched[i];
      if s in stored {
        var k :| 0 <= k < |stored| && stored[k] == s;
        IdIndexUnique(stored, k);
      }
    }
    Collections.FilterCongruent(fetched, (s: Submission) => Changed(index, s), (s: Submission) => s !in stored);
  }

  /** Comparing a list with itself reports nothing. */
  lemma UpdatedOfSelf(ss: seq<Submission>)
    requires UniqueIds(ss)
    ensures UpdatedStatus(ss, ss) == []
  {
    UpdatedUnique(ss, ss);
    Collections.FilterNone(ss, (s: Submission) => s !in ss);
  }

  /** The contest of a submission, looked up by `get_contest(author.contestId)`. */
  type ContestLookup = int -> Result<Contest, Exception>

  /** The submission's contest lookup succeeds. */
  predicate Resolves(getContest: ContestLookup, s: Submission) {
    getContest(s.author.contestId).Success?
  }

  /** The first failing contest lookup among `ss`, if any. */
  function FirstLookupError(ss: seq<Submission>, getContest: ContestLookup): (r: Option<Exception>)
    ensures r.None? <==> forall i | 0 <= i < |ss| :: Resolves(getContest, ss[i])
  {
    if |ss| == 0 then None
    else if !Resolves(getContest, ss[0]) then Some(getContest(ss[0].author.contestId).error)
    else FirstLookupError(ss[1..], getContest)
  }

  /** The submission's contest resolves, and `should_notify` accepts the submission for that contest. */
  predicate Notified(getContest: ContestLookup, shouldNotify: (Submission, Contest) -> bool, s: Submission) {
    Resolves(getContest, s) && shouldNotify(s, getContest(s.author.contestId).value)
  }

  /** The submissions `should_notify` selects, in order. */
  function Announced(ss: seq<Submission>, getContest: ContestLookup, shouldNotify: (Submission, Contest) -> bool)
    : (r: seq<Submission>)
    ensures forall i | 0 <= i < |r| :: r[i] in ss && Notified(getContest, shouldNotify, r[i])
    ensures forall i | 0 <= i < |ss| :: Notified(getContest, shouldNotify, ss[i]) ==> ss[i] in r
  {
    Collections.Filter(ss, (s: Submission) => Notified(getContest, shouldNotify, s))
  }

  /** Announcements follow the order of the submissions: announcing two lists in turn is announcing their concatenation. */
  lemma AnnouncedInOrder(a: seq<Submission>, b: seq<Submission>,
                         getContest: ContestLookup, shouldNotify: (Submission, Contest) -> bool)
    ensures Announced(a + b, getContest, shouldNotify)
         == Announced(a, getContest, shouldNotify) + Announced(b, getContest, shouldNotify)
  {
    Collections.FilterAppend(a, b, (s: Submission) => Notified(getContest, shouldNotify, s));
  }

  /** Each accepted submission is announced once per occurrence, and a rejected one never. */
  lemma AnnouncedCount(ss: seq<Submission>, getContest: ContestLookup, shouldNotify: (Submission, Contest) -> bool,
                       s: Submission)
    ensures multiset(Announced(ss, getContest, shouldNotify))[s]
         == if Notified(getContest, shouldNotify, s) then multiset(ss)[s] else 0
  {
    Collections.FilterCount(ss, (s: Submission) => Notified(getContest, shouldNotify, s), s);
  }

  /** A successful poll: the new store and the submissions announced, in order. */
  datatype Polled = Polled(store: Store, announced: seq<Submission>)

  /**
   * The shared part of `update_status(handle)`: read the snapshot and fetch
   * the list, look up the contests of the new or changed submissions, ask
   * `should_notify` about each, then replace the snapshot by the whole
   * fetched list. Any exception leaves the store as it was.
   */
  function Poll(store: Store, handle: string, fetched: Result<seq<Submission>, Exception>,
                getContest: ContestLookup, shouldNotify: (Submission, Contest) -> bool): (r: Result<Polled, Exception>)
    ensures handle !in store ==> r == Failure(IndexError)
    ensures handle in store && fetched.Failure? ==> r == Failure(fetched.error)
    ensures r.Success? ==> handle in store && fetched.Success?
    ensures r.Success? ==> r.value.store == store[handle := fetched.value]
    ensures r.Success? ==> r.value.announced == Announced(UpdatedStatus(store[handle], fetched.value), getContest, shouldNotify)
    ensures handle in store && fetched.Success? ==>
      (r.Success? <==> FirstLookupError(UpdatedStatus(store[handle], fetched.value), getContest).None?)
  {
    if handle !in store then Failure(IndexError)
    else
      var latest :- fetched;
      var updated := UpdatedStatus(store[handle], latest);
      match FirstLookupError(updated, getContest)
      case Some(e) => Failure(e)
      case None => Success(Polled(store[handle := latest], Announced(updated, getContest, shouldNotify)))
  }

  /** Polling again with the same answer announces nothing and changes nothing. */
  lemma PollTwice(store: Store, handle: string, fetched: seq<Submission>,
                  getContest: ContestLookup, shouldNotify: (Submission, Contest) -> bool)
    requires UniqueIds(fetched)
    requires Poll(store, handle, Success(fetched), getContest, shouldNotify).Success?
    ensures var first := Poll(store, handle, Success(fetched), getContest, shouldNotify).value.store;
      Poll(first, handle, Success(fetched), getContest, shouldNotify) == Success(Polled(first, []))
  {
    var first := Poll(store, handle, Success(fetched), getContest, shouldNotify).value.store;
    UpdatedOfSelf(fetched);
    assert first[handle] == fetched;
    assert first[handle := fetched] == first;
  }

  /** An announcement with its sticker: one from the accepted set exactly for an `OK` verdict. */
  datatype Announcement = Announcement(submission: Submission, acceptedSticker: bool)

  function WithStickers(ss: seq<Submission>): (r: seq<Announcement>)
    ensures |r| == |ss|
    ensures forall i | 0 <= i < |ss| :: r[i].submission == ss[i] && (r[i].acceptedSticker <==> ss[i].verdict == Some("OK"))
  {
    if |ss| == 0 then [] else [Announcement(ss[0], ss[0].verdict == Some("OK"))] + WithStickers(ss[1..])
  }

  /** The effect of one `update_status` call: the store, the messages sent, and the exception that escapes. */
  datatype PollEffect = PollEffect(store: Store, announcements: seq<Announcement>, raised: Option<Exception>)

  /**
   * `update_status` of the current service: a `CodeforcesError` is logged
   * and swallowed, any other exception escapes; either way the store and
   * the chat are untouched.
   */
  function UpdateStatus(store: Store, handle: string, fetched: Result<seq<Submission>, Exception>,
                        getContest: ContestLookup, shouldNotify: (Submission, Contest) -> bool): (r: PollEffect)
    ensures r.raised.Some? ==> !r.raised.value.CodeforcesError?
    ensures var p := Poll(store, handle, fetched, getContest, shouldNotify);
      p.Success? ==> r == PollEffect(p.value.store, WithStickers(p.value.announced), None)
    ensures var p := Poll(store, handle, fetched, getContest, shouldNotify);
      p.Failure? ==> r == PollEffect(store, [], if p.error.CodeforcesError? then None else Some(p.error))
    ensures fetched.Failure? && fetched.error.CodeforcesError? && handle in store ==> r == PollEffect(store, [], None)
  {
    match Poll(store, handle, fetched, getContest, shouldNotify)
    case Success(p) => PollEffect(p.store, WithStickers(p.announced), None)
    case Failure(e) => PollEffect(store, [], if e.CodeforcesError? then None else Some(e))
  }

  /**
   * When every contest lookup succeeds, a poll stores the whole fetched list
   * and announces, in fetched order, exactly the new or changed submissions
   * `should_notify` accepts, each with its sticker.
   */
  lemma PollAnnouncesAccepted(store: Store, handle: string, fetched: seq<Submission>,
                              getContest: ContestLookup, shouldNotify: (Submission, Contest) -> bool)
    requires handle in store
    requires forall i | 0 <= i < |fetched| :: Resolves(getContest, fetched[i])
    ensures var r := UpdateStatus(store, handle, Success(fetched), getContest, shouldNotify);
      var updated := UpdatedStatus(store[handle], fetched);
      && r.raised.None?
      && r.store == store[handle := fetched]
      && r.announcements == WithStickers(Announced(updated, getContest, shouldNotify))
  {
    var updated := UpdatedStatus(store[handle], fetched);
    assert FirstLookupError(updated, getContest).None?;
  }

  /** Only new or changed submissions are ever announced. */
  lemma OnlyUpdatedAnnounced(store: Store, handle: string, fetched: seq<Submission>,
                             getContest: ContestLookup, shouldNotify: (Submission, Contest) -> bool)
    ensures var r := UpdateStatus(store, handle, Success(fetched), getContest, shouldNotify);
      forall i | 0 <= i < |r.announcements| ::
        && handle in store
        && r.announcements[i].submission in fetched
        && Changed(IdIndex(store[handle]), r.announcements[i].submission)
  {
  }

  // ----- Rating-change report -----

  /** The key `contests.sort` uses: start time, then id. */
  function StartIdKey(c: Contest): seq<int> {
    [c.startTimeSeconds, c.id]
  }

  /** The contests that have started, sorted by start time and id; the last one starts latest. */
  function StartedSorted(cs: seq<Contest>): (r: seq<Contest>)
    ensures forall c :: c in r <==> c in cs && c.phase != Before
  {
    var started := Collections.Filter(cs, (c: Contest) => c.phase != Before);
    var r := Sorting.SortBy(started, StartIdKey);
    assert forall c :: c in r <==> c in multiset(started);
    r
  }

  /** The started contests are in start-time-then-id order. */
  lemma StartedSortedIsSorted(cs: seq<Contest>)
    ensures Sorting.Sorted(StartedSorted(cs), StartIdKey)
  {
  }

  /** The last of the sorted started contests starts latest. */
  lemma StartedLastIsLatest(cs: seq<Contest>, c: Contest)
    requires c in StartedSorted(cs)
    ensures c.startTimeSeconds <= StartedSorted(cs)[|StartedSorted(cs)| - 1].startTimeSeconds
  {
    StartedSortedIsSorted(cs);
    LastStartsLatest(StartedSorted(cs));
  }

  /**
   * The contests `send_delta` reports on: drop those not yet started, sort
   * by start time and id, keep those that started last. With no started
   * contest the selection is empty.
   */
  function SelectLatest(cs: seq<Contest>): (r: seq<Contest>)
    ensures forall i | 0 <= i < |r| :: r[i] in cs && r[i].phase != Before
  {
    var sorted := StartedSorted(cs);
    if |sorted| == 0 then []
    else
      WithStart(sorted, sorted[|sorted| - 1].startTimeSeconds)
  }

  /** `[c for c in s if c.startTimeSeconds == start]`. */
  function WithStart(s: seq<Contest>, start: int): (r: seq<Contest>)
    ensures forall c :: c in r <==> c in s && c.startTimeSeconds == start
  {
    if |s| == 0 then []
    else
      assert forall c :: c in s <==> c == s[0] || c in s[1..] by {
        assert s == [s[0]] + s[1..];
      }
      (if s[0].startTimeSeconds == start then [s[0]] else []) + WithStart(s[1..], start)
  }

  /** The contests are listed in increasing id order. */
  predicate IdOrdered(cs: seq<Contest>) {
    forall i, j | 0 <= i < j < |cs| :: cs[i].id <= cs[j].id
  }

  /** A contest that comes later in a list sorted by start time and id, with the same start, has no smaller id. */
  lemma LaterSameStart(s: seq<Contest>, k: nat)
    requires Sorting.Sorted(s, StartIdKey) && 0 < k < |s|
    requires s[k].startTimeSeconds == s[0].startTimeSeconds
    ensures s[0].id <= s[k].id
  {
    assert Sorting.LexLe(StartIdKey(s[0]), StartIdKey(s[k]));
    Sorting.LexLePairs(s[0].startTimeSeconds, s[0].id, s[k].startTimeSeconds, s[k].id);
  }

  /** Contests of one start time keep the id order of a list sorted by start time and id. */
  lemma {:induction false} WithStartOrdered(s: seq<Contest>, start: int)
    requires Sorting.Sorted(s, StartIdKey)
    ensures IdOrdered(WithStart(s, start))
  {
    if |s| > 0 {
      var tail := s[1..];
      assert Sorting.Sorted(tail, StartIdKey);
      WithStartOrdered(tail, start);
      var rest := WithStart(tail, start);
      if s[0].startTimeSeconds == start {
        forall x | x in rest
          ensures s[0].id <= x.id
        {
          var k :| 0 <= k < |tail| && tail[k] == x;
          LaterSameStart(s, k + 1);
        }
        var r := [s[0]] + rest;
        forall i, j | 0 <= i < j < |r|
          ensures r[i].id <= r[j].id
        {
          assert r[j] == rest[j - 1];
          if i > 0 {
            assert r[i] == rest[i - 1];
          }
        }
        assert IdOrdered(r);
      }
    }
  }

  /** In the sorted list the last contest has the latest start. */
  lemma LastStartsLatest(sorted: seq<Contest>)
    requires Sorting.Sorted(sorted, StartIdKey) && |sorted| > 0
    ensures forall c | c in sorted :: c.startTimeSeconds <= sorted[|sorted| - 1].startTimeSeconds
  {
    var last := sorted[|sorted| - 1];
    forall i | 0 <= i < |sorted| - 1
      ensures sorted[i].startTimeSeconds <= last.startTimeSeconds
    {
      Sorting.LexLePairs(sorted[i].startTimeSeconds, sorted[i].id, last.startTimeSeconds, last.id);
    }
  }

  /** Only started contests are selected, all with the same start. */
  lemma SelectLatestMembers(cs: seq<Contest>)
    ensures var r := SelectLatest(cs);
      forall i | 0 <= i < |r| :: r[i] in cs && r[i].phase != Before && r[i].startTimeSeconds == r[0].startTimeSeconds
  {
    var r := SelectLatest(cs);
    forall i | 0 <= i < |r|
      ensures r[i] in cs && r[i].phase != Before && r[i].startTimeSeconds == r[0].startTimeSeconds
    {
      assert r[i] in r && r[0] in r;
    }
  }

  /** Nothing is selected exactly when no contest has started. */
  lemma SelectLatestEmpty(cs: seq<Contest>)
    ensures |SelectLatest(cs)| == 0 <==> forall c | c in cs :: c.phase == Before
  {
    var sorted := StartedSorted(cs);
    if |sorted| > 0 {
      assert sorted[|sorted| - 1] in SelectLatest(cs);
    }
  }

  /** The selection is `WithStart` of the sorted started contests at the latest start. */
  lemma SelectLatestUnfold(cs: seq<Contest>, c: Contest)
    requires c in cs && c.phase != Before
    ensures |StartedSorted(cs)| > 0
    ensures SelectLatest(cs) == WithStart(StartedSorted(cs), StartedSorted(cs)[|StartedSorted(cs)| - 1].startTimeSeconds)
  {
    assert c in StartedSorted(cs);
  }

  /** Every started contest starts no later than the selected ones, and those that start with them are selected. */
  lemma SelectLatestMaximal(cs: seq<Contest>, c: Contest)
    requires c in cs && c.phase != Before
    ensures |SelectLatest(cs)| > 0
    ensures c.startTimeSeconds <= SelectLatest(cs)[0].startTimeSeconds
    ensures c.startTimeSeconds == SelectLatest(cs)[0].startTimeSeconds ==> c in SelectLatest(cs)
  {
    SelectLatestUnfold(cs, c);
    var sorted := StartedSorted(cs);
    var start := sorted[|sorted| - 1].startTimeSeconds;
    var r := WithStart(sorted, start);
    assert |r| > 0 by {
      assert sorted[|sorted| - 1] in r;
    }
    assert r[0].startTimeSeconds == start by {
      assert r[0] in r;
    }
    assert c.startTimeSeconds <= start by {
      StartedLastIsLatest(cs, c);
    }
    assert c.startTimeSeconds == start ==> c in r by {
      assert c in sorted;
    }
  }

  /** The selected contests are listed in increasing id order. */
  lemma SelectLatestOrdered(cs: seq<Contest>)
    ensures IdOrdered(SelectLatest(cs))
  {
    var sorted := StartedSorted(cs);
    StartedSortedIsSorted(cs);
    if |sorted| > 0 {
      WithStartOrdered(sorted, sorted[|sorted| - 1].startTimeSeconds);
    }
  }

  /** Where the rating changes in a report come from. */
  datatype Source<V> = Predicted | Official(changes: map<string, V>)

  const UnavailablePhrase := "Rating changes are unavailable"

  /**
   * The official-or-predicted choice of `get_delta_table`. Official changes
   * are only asked for once the contest has ended; they are used when the
   * answer is non-empty; an empty answer or an error saying they are
   * unavailable falls back to the prediction; any other error escapes.
   */
  function DeltaSource<V>(now: int, end: int, official: Result<map<string, V>, Exception>): (r: Result<Source<V>, Exception>)
    ensures now <= end ==> r == Success(Predicted)
    ensures r.Success? && r.value.Official? <==> now > end && official.Success? && |official.value| > 0
    ensures r.Success? && r.value.Official? ==> r.value.changes == official.value
    ensures r.Failure? <==> (now > end && official.Failure?
      && !(official.error.CodeforcesError? && Text.Contains(official.error.message, UnavailablePhrase)))
    ensures r.Failure? ==> r.error == official.error
  {
    if now <= end then Success(Predicted)
    else
      match official
      case Success(changes) => if |changes| > 0 then Success(Official(changes)) else Success(Predicted)
      case Failure(e) =>
        if e.CodeforcesError? && Text.Contains(e.message, UnavailablePhrase) then Success(Predicted)
        else Failure(e)
  }

  /** Before the end of the contest the official answer plays no part: it is never requested. */
  lemma OfficialNotConsultedEarly<V>(now: int, end: int, a: Result<map<string, V>, Exception>, b: Result<map<string, V>, Exception>)
    requires now <= end
    ensures DeltaSource(now, end, a) == DeltaSource(now, end, b)
  {
  }

  /** `[table[h] for h in handles if h in table]`: the tracked handles' rows, in tracked order. */
  function DeltaRows<V>(handles: seq<string>, table: map<string, V>): (r: seq<V>)
    ensures |r| <= |handles|
    ensures |r| == 0 <==> forall i | 0 <= i < |handles| :: handles[i] !in table
    ensures forall i | 0 <= i < |r| :: exists k | 0 <= k < |handles| :: handles[k] in table && r[i] == table[handles[k]]
  {
    if |handles| == 0 then []
    else
      var rest := DeltaRows(handles[1..], table);
      assert forall i | 0 <= i < |rest| :: exists k | 1 <= k < |handles| :: handles[k] in table && rest[i] == table[handles[k]] by {
        forall i | 0 <= i < |rest|
          ensures exists k | 1 <= k < |handles| :: handles[k] in table && rest[i] == table[handles[k]]
        {
          var k :| 0 <= k < |handles| - 1 && handles[1..][k] in table && rest[i] == table[handles[1..][k]];
          assert handles[k + 1] == handles[1..][k];
        }
      }
      if handles[0] in table then [table[handles[0]]] + rest else rest
  }

  /** Rows in order follow the tracked handles: the row of an earlier handle comes first. */
  lemma {:induction false} DeltaRowsOrder<V>(handles: seq<string>, table: map<string, V>, k: nat)
    requires k < |handles| && handles[k] in table
    ensures var before := DeltaRows(handles[..k], table);
      |before| < |DeltaRows(handles, table)| && DeltaRows(handles, table)[|before|] == table[handles[k]]
  {
    if k > 0 {
      DeltaRowsOrder(handles[1..], table, k - 1);
      assert handles[1..][..k - 1] == handles[..k][1..];
    }
  }

  /** The table text of one contest, as `get_delta_table` returns it. */
  datatype DeltaTable = NoMembers(contestName: string) | Table(source: string, contestName: string, rows: seq<PredictedDeltas.DeltaRow>)

  /**
   * `get_delta_table`: choose the source, pick the tracked handles' rows
   * from it and lay them out; no rows gives the "No members" line.
   * `predicted` stands for the scraper, `row` for `get_table_row`.
   */
  function GetDeltaTable<V>(c: Contest, name: string, handles: seq<string>, now: int,
                            official: Result<map<string, V>, Exception>,
                            predicted: Result<map<string, PredictedDeltas.DeltaRow>, Exception>,
                            row: V -> PredictedDeltas.DeltaRow): (r: Result<DeltaTable, Exception>)
    ensures DeltaSource(now, EndTime(c), official).Failure? ==> r == Failure(DeltaSource(now, EndTime(c), official).error)
    ensures DeltaSource(now, EndTime(c), official) == Success(Predicted) && predicted.Failure? ==>
      r == Failure(predicted.error)
    ensures DeltaSource(now, EndTime(c), official) == Success(Predicted) && predicted.Success? ==>
      && r.Success?
      && (r.value.NoMembers? <==> forall i | 0 <= i < |handles| :: handles[i] !in predicted.value)
      && (r.value.Table? ==> r.value.source == "Predicted" && r.value.rows == DeltaRows(handles, predicted.value))
    ensures DeltaSource(now, EndTime(c), official).Success? && DeltaSource(now, EndTime(c), official).value.Official? ==>
      var changes := official.value;
      && r.Success?
      && (r.value.NoMembers? <==> forall i | 0 <= i < |handles| :: handles[i] !in changes)
      && (r.value.Table? ==> r.value.source == "Official" && r.value.rows == RowsOf(DeltaRows(handles, changes), row))
    ensures r.Success? ==> r.value.contestName == name
  {
    var source :- DeltaSource(now, EndTime(c), official);
    match source
    case Predicted =>
      var table :- predicted;
      var rows := DeltaRows(handles, table);
      Success(if |rows| == 0 then NoMembers(name) else Table("Predicted", name, rows))
    case Official(changes) =>
      var rows := RowsOf(DeltaRows(handles, changes), row);
      Success(if |rows| == 0 then NoMembers(name) else Table("Official", name, rows))
  }

  function RowsOf<V>(vs: seq<V>, row: V -> PredictedDeltas.DeltaRow): (r: seq<PredictedDeltas.DeltaRow>)
    ensures |r| == |vs|
    ensures forall i | 0 <= i < |vs| :: r[i] == row(vs[i])
  {
    if |vs| == 0 then [] else [row(vs[0])] + RowsOf(vs[1..], row)
  }

  const NoMembersText := "No members are competing in "

  /** The text of a table; the box drawing of the rows is left to `render`. */
  function DeltaTableText(t: DeltaTable, render: seq<PredictedDeltas.DeltaRow> -> string): (r: string)
    ensures t.NoMembers? ==> NoMembersText <= r && r[|NoMembersText|..] == t.contestName
    ensures t.Table? ==> t.source + " rating changes for " + t.contestName <= r
    ensures t.Table? ==> Text.Contains(r, "<pre>" + render(t.rows) + "</pre>")
  {
    match t
    case NoMembers(name) => NoMembersText + name
    case Table(source, name, rows) =>
      var head := source + " rating changes for " + name;
      var body := "<pre>" + render(rows) + "</pre>";
      Text.ContainsMiddle(head + "\n", body, "");
      assert head + "\n" + body + "" == head + "\n" + body;
      head + "\n" + body
  }

  const SystemTestCaveat := "\n\nSystem testing is ongoing. The deltas are not yet finalized."

  /** The rating-change message: one table per selected contest, and whether the system-test note follows. */
  datatype DeltaReport = DeltaReport(tables: seq<DeltaTable>, caveat: bool)

  /** The tables of `cs`, in order; the first exception escapes. */
  function Tables<V>(cs: seq<Contest>, name: Contest -> string, handles: seq<string>, now: int,
                     official: int -> Result<map<string, V>, Exception>,
                     predicted: int -> Result<map<string, PredictedDeltas.DeltaRow>, Exception>,
                     row: V -> PredictedDeltas.DeltaRow): (r: Result<seq<DeltaTable>, Exception>)
    ensures r.Success? <==> forall i | 0 <= i < |cs| ::
      GetDeltaTable(cs[i], name(cs[i]), handles, now, official(cs[i].id), predicted(cs[i].id), row).Success?
    ensures r.Success? ==> |r.value| == |cs|
    ensures r.Success? ==> forall i | 0 <= i < |cs| ::
      GetDeltaTable(cs[i], name(cs[i]), handles, now, official(cs[i].id), predicted(cs[i].id), row) == Success(r.value[i])
  {
    if |cs| == 0 then Success([])
    else
      var first :- GetDeltaTable(cs[0], name(cs[0]), handles, now, official(cs[0].id), predicted(cs[0].id), row);
      var rest :- Tables(cs[1..], name, handles, now, official, predicted, row);
      Success([first] + rest)
  }

  /**
   * `send_delta`: a table for each contest that started last, with the
   * system-test note exactly when one of them is still in system testing.
   */
  function SendDelta<V>(cs: seq<Contest>, name: Contest -> string, handles: seq<string>, now: int,
                        official: int -> Result<map<string, V>, Exception>,
                        predicted: int -> Result<map<string, PredictedDeltas.DeltaRow>, Exception>,
                        row: V -> PredictedDeltas.DeltaRow): (r: Result<DeltaReport, Exception>)
    ensures var t := Tables(SelectLatest(cs), name, handles, now, official, predicted, row);
      && (r.Success? <==> t.Success?)
      && (r.Success? ==> r.value.tables == t.value)
      && (r.Failure? ==> r.error == t.error)
    ensures r.Success? ==> (r.value.caveat <==> exists i | 0 <= i < |SelectLatest(cs)| :: SelectLatest(cs)[i].phase == SystemTest)
    ensures (forall c | c in cs :: c.phase == Before) ==> r == Success(DeltaReport([], false))
  {
    var selected := SelectLatest(cs);
    SelectLatestEmpty(cs);
    var tables :- Tables(selected, name, handles, now, official, predicted, row);
    Success(DeltaReport(tables, exists i | 0 <= i < |selected| :: selected[i].phase == SystemTest))
  }

  /** The message text: the tables' texts separated by blank lines, then the system-test note when it applies. */
  function ReportText(r: DeltaReport, render: seq<PredictedDeltas.DeltaRow> -> string): (t: string)
    ensures r.tables == [] ==> t == (if r.caveat then SystemTestCaveat else "")
    ensures forall i | 0 <= i < |r.tables| :: Text.Contains(t, DeltaTableText(r.tables[i], render))
    ensures r.caveat ==> |t| >= |SystemTestCaveat| && t[|t| - |SystemTestCaveat|..] == SystemTestCaveat
  {
    var texts := TablesText(r.tables, render);
    var joined := Text.Join("\n\n", texts);
    var t := joined + (if r.caveat then SystemTestCaveat else "");
    forall i | 0 <= i < |r.tables| ensures Text.Contains(t, DeltaTableText(r.tables[i], render)) {
      Text.JoinContains("\n\n", texts, i);
      Text.ContainsExtend(joined, (if r.caveat then SystemTestCaveat else ""), texts[i]);
    }
    t
  }

  /** The text of each table, in order. */
  function TablesText(ts: seq<DeltaTable>, render: seq<PredictedDeltas.DeltaRow> -> string): (r: seq<string>)
    ensures |r| == |ts|
    ensures forall i | 0 <= i < |ts| :: r[i] == DeltaTableText(ts[i], render)
  {
    if |ts| == 0 then [] else [DeltaTableText(ts[0], render)] + TablesText(ts[1..], render)
  }

  // ----- Upcoming-contest reminders -----

  /** The current time with seconds dropped, as `replace(second=0, microsecond=0)` gives. */
  function MinuteFloor(now: int): (r: int)
    ensures r <= now < r + 60 && r % 60 == 0
  {
    now - now % 60
  }

  /** A reminder that `contest` starts in `minutes` minutes. */
  datatype Reminder = Reminder(contest: Clist.ContestInfo, minutes: int)

  /** The offsets checked, in order. */
  function ReminderMinutes(c: Clist.ContestInfo, now: int, offsets: seq<int>): (r: Option<int>)
    ensures r.Some? ==> r.value in offsets && c.start == MinuteFloor(now) + 60 * r.value
    ensures r.None? <==> forall i | 0 <= i < |offsets| :: c.start != MinuteFloor(now) + 60 * offsets[i]
  {
    if |offsets| == 0 then None
    else if c.start == MinuteFloor(now) + 60 * offsets[0] then Some(offsets[0])
    else ReminderMinutes(c, now, offsets[1..])
  }

  /** The reminders for `cs` at `now`, in listing order; contests at no checked offset are skipped. */
  function Reminders(cs: seq<Clist.ContestInfo>, now: int, offsets: seq<int>): (r: seq<Reminder>)
    ensures |r| <= |cs|
    ensures forall i | 0 <= i < |r| ::
      r[i].contest in cs && r[i].minutes in offsets && r[i].contest.start == MinuteFloor(now) + 60 * r[i].minutes
    ensures forall c | c in cs && ReminderMinutes(c, now, offsets).Some? ::
      Reminder(c, ReminderMinutes(c, now, offsets).value) in r
  {
    if |cs| == 0 then []
    else
      var rest := Reminders(cs[1..], now, offsets);
      assert forall c | c in cs :: c == cs[0] || c in cs[1..] by {
        assert cs == [cs[0]] + cs[1..];
      }
      match ReminderMinutes(cs[0], now, offsets)
      case Some(m) => [Reminder(cs[0], m)] + rest
      case None => rest
  }

  const CurrentOffsets: seq<int> := [5, 15, 60]

  /** `notify_upcoming_contest`: reminders 5, 15 and 60 minutes ahead; the 5-minute one comes with a sticker. */
  function UpcomingReminders(cs: seq<Clist.ContestInfo>, now: int): (r: seq<Reminder>)
    ensures forall i | 0 <= i < |r| :: r[i].minutes in {5, 15, 60}
    ensures forall i | 0 <= i < |r| :: r[i].contest.start - MinuteFloor(now) == 60 * r[i].minutes
  {
    Reminders(cs, now, CurrentOffsets)
  }

  predicate HasSticker(r: Reminder) {
    r.minutes == 5
  }

  /** The reminder text; an unknown judge raises `KeyError` while building it. */
  function ReminderText(r: Reminder): (t: Result<string, Exception>)
    ensures t.Success? <==> Clist.LinkedName(r.contest).Success?
    ensures t.Success? ==> Clist.LinkedName(r.contest).value <= t.value
  {
    var name :- Clist.LinkedName(r.contest);
    if r.minutes == 60 then Success(name + " begins in 1 hour")
    else Success(name + " begins in " + Text.IntToString(r.minutes) + " minutes")
  }

  /** The messages sent before the first reminder whose text raises, and that exception. */
  function SendReminders(rs: seq<Reminder>, text: Reminder -> Result<string, Exception>): (r: (seq<string>, Option<Exception>))
    ensures |r.0| <= |rs|
    ensures forall i | 0 <= i < |r.0| :: text(rs[i]) == Success(r.0[i])
    ensures r.1.None? <==> |r.0| == |rs|
    ensures r.1.Some? ==> text(rs[|r.0|]) == Failure(r.1.value)
  {
    if |rs| == 0 then ([], None)
    else
      match text(rs[0])
      case Failure(e) => ([], Some(e))
      case Success(t) =>
        var rest := SendReminders(rs[1..], text);
        ([t] + rest.0, rest.1)
  }
}

=== FILE: cf_update_legacy.dfy ===
/**
 * The earlier update service: the same snapshot keeping and announcements,
 * without stickers and without swallowing API errors, a rating-change report
 * on a single contest, and reminders only 5 and 15 minutes ahead.
 */
module CfUpdateLegacy {
  import opened Wrappers
  import opened Errors
  import Text
  import Collections
  import Sorting
  import opened CfModels
  import Clist
  import PredictedDeltas
  import CfUpdate

  // ----- Snapshot polling -----

  /** The effect of one legacy `update_status`: every exception escapes. */
  datatype LegacyPollEffect = LegacyPollEffect(store: CfUpdate.Store, announced: seq<Submission>, raised: Option<Exception>)

  function LegacyUpdateStatus(store: CfUpdate.Store, handle: string, fetched: Result<seq<Submission>, Exception>,
                              getContest: CfUpdate.ContestLookup, shouldNotify: (Submission, Contest) -> bool)
    : (r: LegacyPollEffect)
    ensures var p := CfUpdate.Poll(store, handle, fetched, getContest, shouldNotify);
      p.Success? ==> r == LegacyPollEffect(p.value.store, p.value.announced, None)
    ensures var p := CfUpdate.Poll(store, handle, fetched, getContest, shouldNotify);
      p.Failure? ==> r == LegacyPollEffect(store, [], Some(p.error))
    ensures handle !in store ==> r.raised == Some(IndexError)
  {
    match CfUpdate.Poll(store, handle, fetched, getContest, shouldNotify)
    case Success(p) => LegacyPollEffect(p.store, p.announced, None)
    case Failure(e) => LegacyPollEffect(store, [], Some(e))
  }

  function Submissions(ns: seq<CfUpdate.Announcement>): (r: seq<Submission>)
    ensures |r| == |ns|
    ensures forall i | 0 <= i < |ns| :: r[i] == ns[i].submission
  {
    if |ns| == 0 then [] else [ns[0].submission] + Submissions(ns[1..])
  }

  /**
   * Both services keep the same snapshots and announce the same submissions;
   * the current one only adds stickers and swallows `CodeforcesError`.
   */
  lemma PollVariantsAgree(store: CfUpdate.Store, handle: string, fetched: Result<seq<Submission>, Exception>,
                          getContest: CfUpdate.ContestLookup, shouldNotify: (Submission, Contest) -> bool)
    ensures var legacy := LegacyUpdateStatus(store, handle, fetched, getContest, shouldNotify);
      var current := CfUpdate.UpdateStatus(store, handle, fetched, getContest, shouldNotify);
      && legacy.store == current.store
      && legacy.announced == Submissions(current.announcements)
      && current.raised == (if legacy.raised.Some? && legacy.raised.value.CodeforcesError? then None else legacy.raised)
  {
    var current := CfUpdate.UpdateStatus(store, handle, fetched, getContest, shouldNotify);
    match CfUpdate.Poll(store, handle, fetched, getContest, shouldNotify)
    case Success(p) =>
      assert Submissions(current.announcements) == p.announced;
    case Failure(e) =>
  }

  // ----- Rating-change report -----

  predicate HasStarted(c: Contest) {
    c.phase != Before
  }

  /** `reverse=True` on the start time keeps ties in listing order, as an ascending sort on the negated start does. */
  function NegatedStartKey(c: Contest): seq<int> {
    [-c.startTimeSeconds]
  }

  /** The started contests, latest start first, ties in listing order. */
  function LatestFirst(cs: seq<Contest>): (r: seq<Contest>)
    ensures forall c :: c in r <==> c in cs && HasStarted(c)
    ensures multiset(r) == multiset(Collections.Filter(cs, HasStarted))
    ensures forall i, j | 0 <= i < j < |r| :: r[j].startTimeSeconds <= r[i].startTimeSeconds
  {
    var started := Collections.Filter(cs, HasStarted);
    var sorted := Sorting.SortBy(started, NegatedStartKey);
    Sorting.SortByMembers(started, NegatedStartKey);
    forall i, j | 0 <= i < j < |sorted| ensures sorted[j].startTimeSeconds <= sorted[i].startTimeSeconds {
      Sorting.LexLeSingle(-sorted[i].startTimeSeconds, -sorted[j].startTimeSeconds);
    }
    sorted
  }

  /**
   * `contests[0]` after dropping contests not yet started and sorting by
   * start time, latest first; with no started contest, `IndexError`.
   */
  function PickLatest(cs: seq<Contest>): (r: Result<Contest, Exception>)
    ensures r.Failure? <==> forall c | c in cs :: !HasStarted(c)
    ensures r.Failure? ==> r.error == IndexError
    ensures r.Success? ==> r.value in cs && HasStarted(r.value)
  {
    var sorted := LatestFirst(cs);
    if |sorted| == 0 then Failure(IndexError)
    else
      assert sorted[0] in sorted;
      Success(sorted[0])
  }

  /**
   * The picked contest has the latest start among the started ones, and it
   * is the first started contest in listing order with that start.
   */
  lemma PickLatestIsFirstLatest(cs: seq<Contest>)
    requires PickLatest(cs).Success?
    ensures var r := PickLatest(cs).value;
      var started := Collections.Filter(cs, HasStarted);
      && (forall c | c in started :: c.startTimeSeconds <= r.startTimeSeconds)
      && |Sorting.KeyFilter(started, NegatedStartKey, NegatedStartKey(r))| > 0
      && Sorting.KeyFilter(started, NegatedStartKey, NegatedStartKey(r))[0] == r
  {
    var started := Collections.Filter(cs, HasStarted);
    Sorting.SortedHeadIsFirstMinimum(started, NegatedStartKey);
    var r := PickLatest(cs).value;
    forall c | c in started
      ensures c.startTimeSeconds <= r.startTimeSeconds
    {
      assert Sorting.LexLe(NegatedStartKey(r), NegatedStartKey(c));
      assert [-r.startTimeSeconds][1..] == [];
    }
  }

  /** The legacy pick is always one of the contests the current service reports on. */
  lemma PickIsSelected(cs: seq<Contest>)
    requires PickLatest(cs).Success?
    ensures PickLatest(cs).value in CfUpdate.SelectLatest(cs)
  {
    var r := PickLatest(cs).value;
    PickLatestIsFirstLatest(cs);
    CfUpdate.SelectLatestMaximal(cs, r);
    var sel := CfUpdate.SelectLatest(cs);
    CfUpdate.SelectLatestMembers(cs);
    assert sel[0] in Collections.Filter(cs, HasStarted);
  }

  /**
   * The legacy official-or-predicted choice: like the current one, except
   * that an empty official answer is used as it is.
   */
  function LegacyDeltaSource<V>(now: int, end: int, official: Result<map<string, V>, Exception>)
    : (r: Result<CfUpdate.Source<V>, Exception>)
    ensures now <= end ==> r == Success(CfUpdate.Predicted)
    ensures now > end && official.Success? ==> r == Success(CfUpdate.Official(official.value))
    ensures r.Failure? ==> r.error == official.error
  {
    if now <= end then Success(CfUpdate.Predicted)
    else
      match official
      case Success(changes) => Success(CfUpdate.Official(changes))
      case Failure(e) =>
        if e.CodeforcesError? && Text.Contains(e.message, CfUpdate.UnavailablePhrase) then Success(CfUpdate.Predicted)
        else Failure(e)
  }

  /** The two choices differ only when the contest has ended and the official answer is empty. */
  lemma DeltaSourcesAgree<V>(now: int, end: int, official: Result<map<string, V>, Exception>)
    ensures LegacyDeltaSource(now, end, official) != CfUpdate.DeltaSource(now, end, official)
        <==> now > end && official == Success(map[])
  {
    if now > end && official.Success? && |official.value| == 0 {
      assert official.value == map[];
    }
  }

  /** The official rows by handle, as the legacy report builds them: `(rank, handle, delta)` of each change. */
  function OfficialTable<V>(changes: map<string, V>, row: (string, V) -> PredictedDeltas.DeltaRow)
    : (m: map<string, PredictedDeltas.DeltaRow>)
    ensures m.Keys == changes.Keys
    ensures forall h | h in changes :: m[h] == row(h, changes[h])
  {
    map h | h in changes :: row(h, changes[h])
  }

  /** The legacy `/delta` answer: refused, or the table sent. */
  datatype DeltaReply = DeltaRefused | Sent(table: CfUpdate.DeltaTable)

  /**
   * The legacy `/delta` endpoint: one table for the picked contest, in the
   * table layout even when no tracked handle took part. The official rows
   * are built from the handle and its rating change.
   */
  function LegacySendDelta<V>(token: Option<string>, secret: string, cs: seq<Contest>, name: Contest -> string,
                              handles: seq<string>, now: int,
                              official: int -> Result<map<string, V>, Exception>,
                              predicted: int -> Result<map<string, PredictedDeltas.DeltaRow>, Exception>,
                              row: (string, V) -> PredictedDeltas.DeltaRow): (r: Result<DeltaReply, Exception>)
    ensures !CfUpdate.Authenticated(token, secret) ==> r == Success(DeltaRefused)
    ensures CfUpdate.Authenticated(token, secret) && PickLatest(cs).Failure? ==> r == Failure(IndexError)
    ensures r.Success? && r.value.Sent? ==>
      r.value.table.Table? && PickLatest(cs).Success? && r.value.table.contestName == name(PickLatest(cs).value)
    ensures CfUpdate.Authenticated(token, secret) && PickLatest(cs).Success? ==>
      var c := PickLatest(cs).value;
      var source := LegacyDeltaSource(now, EndTime(c), official(c.id));
      && (source.Failure? ==> r == Failure(source.error))
      && (source == Success(CfUpdate.Predicted) && predicted(c.id).Failure? ==> r == Failure(predicted(c.id).error))
      && (source == Success(CfUpdate.Predicted) && predicted(c.id).Success? ==>
            r.Success? && r.value.Sent? && r.value.table.source == "Predicted"
            && r.value.table.rows == CfUpdate.DeltaRows(handles, predicted(c.id).value))
      && (source.Success? && source.value.Official? ==>
            r.Success? && r.value.Sent? && r.value.table.source == "Official"
            && r.value.table.rows == CfUpdate.DeltaRows(handles, OfficialTable(source.value.changes, row)))
  {
    if !CfUpdate.Authenticated(token, secret) then Success(DeltaRefused)
    else
      var contest :- PickLatest(cs);
      var source :- LegacyDeltaSource(now, EndTime(contest), official(contest.id));
      match source
      case Predicted =>
        var table :- predicted(contest.id);
        Success(Sent(CfUpdate.Table("Predicted", name(contest), CfUpdate.DeltaRows(handles, table))))
      case Official(changes) =>
        Success(Sent(CfUpdate.Table("Official", name(contest), CfUpdate.DeltaRows(handles, OfficialTable(changes, row)))))
  }

  /** With no tracked handle in the predicted table the legacy report is an empty table, not the "No members" line. */
  lemma LegacyEmptyTable<V>(token: Option<string>, secret: string, cs: seq<Contest>, name: Contest -> string,
                            handles: seq<string>, now: int,
                            official: int -> Result<map<string, V>, Exception>,
                            predicted: int -> Result<map<string, PredictedDeltas.DeltaRow>, Exception>,
                            row: (string, V) -> PredictedDeltas.DeltaRow)
    requires CfUpdate.Authenticated(token, secret) && PickLatest(cs).Success?
    requires now <= EndTime(PickLatest(cs).value)
    requires predicted(PickLatest(cs).value.id).Success?
    requires forall i | 0 <= i < |handles| :: handles[i] !in predicted(PickLatest(cs).value.id).value
    ensures LegacySendDelta(token, secret, cs, name, handles, now, official, predicted, row)
         == Success(Sent(CfUpdate.Table("Predicted", name(PickLatest(cs).value), [])))
  {
    var c := PickLatest(cs).value;
    assert CfUpdate.DeltaRows(handles, predicted(c.id).value) == [];
  }

  // ----- Upcoming-contest reminders -----

  const LegacyOffsets: seq<int> := [5, 15]

  /** Legacy `notify_upcoming_contest`: reminders 5 and 15 minutes ahead only. */
  function LegacyReminders(cs: seq<Clist.ContestInfo>, now: int): (r: seq<CfUpdate.Reminder>)
    ensures forall i | 0 <= i < |r| :: r[i].minutes in {5, 15}
    ensures forall i | 0 <= i < |r| :: r[i].contest.start - CfUpdate.MinuteFloor(now) == 60 * r[i].minutes
  {
    CfUpdate.Reminders(cs, now, LegacyOffsets)
  }

  function LegacyReminderText(r: CfUpdate.Reminder): (t: Result<string, Exception>)
    ensures t.Success? <==> Clist.LinkedName(r.contest).Success?
    ensures r.minutes != 60 ==> t == CfUpdate.ReminderText(r)
  {
    var name :- Clist.LinkedName(r.contest);
    Success(name + " begins in " + Text.IntToString(r.minutes) + " minutes")
  }

  predicate NotHourly(r: CfUpdate.Reminder) {
    r.minutes != 60
  }

  /** The offsets are tried in order, and a start matches at most one of them. */
  lemma OffsetsUnfold(c: Clist.ContestInfo, now: int)
    ensures var floor := CfUpdate.MinuteFloor(now);
      && CfUpdate.ReminderMinutes(c, now, CfUpdate.CurrentOffsets)
         == (if c.start == floor + 300 then Some(5) else if c.start == floor + 900 then Some(15)
             else if c.start == floor + 3600 then Some(60) else None)
      && CfUpdate.ReminderMinutes(c, now, LegacyOffsets)
         == (if c.start == floor + 300 then Some(5) else if c.start == floor + 900 then Some(15) else None)
  {
    var floor := CfUpdate.MinuteFloor(now);
    assert CfUpdate.ReminderMinutes(c, now, []) == None;
    assert [60][1..] == [] && [15][1..] == [];
    assert CfUpdate.ReminderMinutes(c, now, [60]) == (if c.start == floor + 3600 then Some(60) else None);
    assert CfUpdate.ReminderMinutes(c, now, [15]) == (if c.start == floor + 900 then Some(15) else None);
    assert [15, 60][1..] == [60];
    assert CfUpdate.ReminderMinutes(c, now, [15, 60])
        == (if c.start == floor + 900 then Some(15) else CfUpdate.ReminderMinutes(c, now, [60]));
    assert CfUpdate.CurrentOffsets[1..] == [15, 60] && LegacyOffsets[1..] == [15];
  }

  /** The legacy reminders are exactly the current ones other than the hour-ahead ones. */
  lemma {:induction false} LegacyRemindersAreCurrentOnes(cs: seq<Clist.ContestInfo>, now: int)
    ensures LegacyReminders(cs, now) == Collections.Filter(CfUpdate.UpcomingReminders(cs, now), NotHourly)
  {
    if |cs| > 0 {
      LegacyRemindersAreCurrentOnes(cs[1..], now);
      var c := cs[0];
      var floor := CfUpdate.MinuteFloor(now);
      var cur := CfUpdate.ReminderMinutes(c, now, CfUpdate.CurrentOffsets);
      var leg := CfUpdate.ReminderMinutes(c, now, LegacyOffsets);
      assert leg == (if cur == Some(60) then None else cur) by {
        OffsetsUnfold(c, now);
      }
      var rest := CfUpdate.UpcomingReminders(cs[1..], now);
      match cur
      case None =>
      case Some(m) =>
        var all := [CfUpdate.Reminder(c, m)] + rest;
        assert all[1..] == rest;
    }
  }
}

=== FILE: clist.dfy ===
/**
 * clist.by contest listings: the `ContestInfo` record, its rendering
 * decisions, the contest-merging relation and the upcoming-contest request.
 */
module Clist {
  import opened Wrappers
  import opened Errors
  import Text
  import Collections
  import Sorting
  import Utils

  /** A listed contest; `start` and `end` are the parsed UTC times in seconds since the epoch. */
  datatype ContestInfo = ContestInfo(event: string, href: string, resource: string, start: int, end: int)

  /** The judges the bot follows and the name each is shown under. */
  const Resources: map<string, string> := map[
    "codeforces.com" := "Codeforces",
    "leetcode.com" := "LeetCode",
    "codingcompetitions.withgoogle.com" := "Google",
    "facebook.com/hackercup" := "Meta",
    "stats.ioinformatics.org" := "IOI",
    "icpc.global" := "ICPC"]

  const Day := 24 * 60 * 60

  /**
   * `linked_name`: the judge's display name, then the event linked to its
   * page. A resource missing from the table raises `KeyError`.
   */
  function LinkedName(c: ContestInfo): (r: Result<string, Exception>)
    ensures r.Failure? <==> c.resource !in Resources
    ensures r.Failure? ==> r.error == KeyError(c.resource)
    ensures r.Success? ==> Resources[c.resource] + ": " <= r.value
    ensures r.Success? ==> Text.Contains(r.value, c.event)
  {
    if c.resource !in Resources then Failure(KeyError(c.resource))
    else
      var head := Resources[c.resource] + ": <a href='" + c.href + "'>";
      var r := head + c.event + "</a>";
      assert c.event <= r[|head|..];
      Success(r)
  }

  /** How the end of the contest is written: the full date, or only the time of day. */
  datatype EndFormat = FullDate | TimeOnly

  /** The full date is written exactly when the contest lasts at least one day. */
  function EndPart(c: ContestInfo): (f: EndFormat)
    ensures f == FullDate <==> c.end - c.start >= Day
  {
    if c.end - c.start >= Day then FullDate else TimeOnly
  }

  /**
   * What `str(contest)` and `join_str` lay out: the start, the end in the
   * chosen format, the linked names, and the countdown. The formatted dates
   * themselves are left to the date library.
   */
  datatype Layout = Layout(start: int, end: int, endFormat: EndFormat, names: seq<string>, countdown: Utils.Countdown)

  /** `str(contest)` at time `now`. */
  function Describe(c: ContestInfo, now: int): (r: Result<Layout, Exception>)
    ensures r.Failure? <==> LinkedName(c).Failure?
    ensures r.Success? ==> r.value.names == [LinkedName(c).value]
    ensures r.Success? ==> r.value.endFormat == EndPart(c)
    ensures r.Success? ==> (r.value.countdown.StartsIn? <==> now < c.start)
    ensures r.Success? && r.value.countdown.StartsIn? ==> now + r.value.countdown.seconds == c.start
    ensures r.Success? && r.value.countdown.EndsIn? ==> now + r.value.countdown.seconds == c.end
  {
    var name :- LinkedName(c);
    Success(Layout(c.start, c.end, EndPart(c), [name], Utils.CountdownAt(now, c.start, c.end)))
  }

  /** `can_join`: same judge, same start, same end. */
  function CanJoin(a: ContestInfo, b: ContestInfo): (r: bool)
    ensures r <==> JoinKey(a) == JoinKey(b)
  {
    a.resource == b.resource && a.start == b.start && a.end == b.end
  }

  function JoinKey(c: ContestInfo): (string, int, int) {
    (c.resource, c.start, c.end)
  }

  /** Contests that can be joined into one message form classes: the relation is an equivalence. */
  lemma CanJoinEquivalence(a: ContestInfo, b: ContestInfo, c: ContestInfo)
    ensures CanJoin(a, a)
    ensures CanJoin(a, b) ==> CanJoin(b, a)
    ensures CanJoin(a, b) && CanJoin(b, c) ==> CanJoin(a, c)
  {
  }

  /**
   * `a.join_str(b)`: the times and the countdown of `a`, then both linked
   * names with `a`'s first. Either unknown resource raises.
   */
  function JoinStr(a: ContestInfo, b: ContestInfo, now: int): (r: Result<Layout, Exception>)
    ensures r.Success? <==> LinkedName(a).Success? && LinkedName(b).Success?
    ensures r.Success? ==> r.value.names == [LinkedName(a).value, LinkedName(b).value]
    ensures r.Success? ==> r.value.start == a.start && r.value.end == a.end && r.value.endFormat == EndPart(a)
  {
    var first :- LinkedName(a);
    var second :- LinkedName(b);
    Success(Layout(a.start, a.end, EndPart(a), [first, second], Utils.CountdownAt(now, a.start, a.end)))
  }

  /** For joinable contests the merged text does not depend on the order except for the order of the names. */
  lemma JoinStrSymmetric(a: ContestInfo, b: ContestInfo, now: int)
    requires CanJoin(a, b)
    requires JoinStr(a, b, now).Success?
    ensures JoinStr(b, a, now).Success?
    ensures var ab := JoinStr(a, b, now).value; var ba := JoinStr(b, a, now).value;
      ab == ba.(names := [ba.names[1], ba.names[0]])
  {
  }

  /** The merged text is the single-contest text of `a` with `b`'s name added after `a`'s. */
  lemma JoinStrExtendsDescribe(a: ContestInfo, b: ContestInfo, now: int)
    requires JoinStr(a, b, now).Success?
    ensures Describe(a, now).Success?
    ensures JoinStr(a, b, now).value == Describe(a, now).value.(names := Describe(a, now).value.names + [LinkedName(b).value])
  {
  }

  /** The decoded body of a clist answer: the `objects` list, a body without one, or no JSON. */
  datatype Body<T> = Objects(objects: T) | NoObjects | Undecodable

  /**
   * A clist response: the raw `Content-Type` header (absent when the server
   * sent none), the bare media type the HTTP library derives from it, and
   * the decoded body.
   */
  datatype Response<T> = Response(contentType: Option<string>, mediaType: string, body: Body<T>)

  const ContentTypeHeader := "Content-Type"

  /** The header is present and mentions `application/json`. */
  predicate JsonHeader<T>(resp: Response<T>) {
    resp.contentType.Some? && Text.Contains(resp.contentType.value, "application/json")
  }

  /** The braces are sent literally; the message is not formatted. */
  const NonJsonMessage := "Clist sent non-JSON response:\n{text}"

  /** `data["objects"]` of a decoded body. */
  function Objects<T>(body: Body<T>): (r: Result<T, Exception>)
    ensures r.Success? <==> body.Objects?
    ensures r.Success? ==> r.value == body.objects
  {
    match body
    case Objects(objects) => Success(objects)
    case NoObjects => Failure(KeyError("objects"))
    case Undecodable => Failure(JsonDecodeError)
  }

  /**
   * `ClistAPI._request`: the header must mention `application/json`; reading
   * a missing header raises `KeyError`.
   */
  function SyncRequest<T>(resp: Response<T>): (r: Result<T, Exception>)
    ensures resp.contentType.None? ==> r == Failure(KeyError(ContentTypeHeader))
    ensures resp.contentType.Some? && !JsonHeader(resp) ==> r == Failure(ClistError(NonJsonMessage))
    ensures r.Success? <==> JsonHeader(resp) && resp.body.Objects?
    ensures r.Success? ==> r.value == resp.body.objects
  {
    if resp.contentType.None? then Failure(KeyError(ContentTypeHeader))
    else if !Text.Contains(resp.contentType.value, "application/json") then Failure(ClistError(NonJsonMessage))
    else Objects(resp.body)
  }

  /** `AsyncClistAPI._request`: the media type must be exactly `application/json`. */
  function AsyncRequest<T>(resp: Response<T>): (r: Result<T, Exception>)
    ensures resp.mediaType != "application/json" ==> r == Failure(ClistError(NonJsonMessage))
    ensures r.Success? <==> resp.mediaType == "application/json" && resp.body.Objects?
    ensures r.Success? ==> r.value == resp.body.objects
  {
    if resp.mediaType != "application/json" then Failure(ClistError(NonJsonMessage))
    else Objects(resp.body)
  }

  /** Both clients read the same body alike once the content type passes both checks. */
  lemma RequestsAgree<T>(resp: Response<T>)
    requires JsonHeader(resp) && resp.mediaType == "application/json"
    ensures SyncRequest(resp) == AsyncRequest(resp)
  {
  }

  /** The upcoming window: contests starting at most 14 days from now. */
  predicate WithinTwoWeeks(c: ContestInfo, now: int) {
    c.start <= now + 14 * Day
  }

  /** The code points of a string, so that string order is the order of their sequences. */
  function CodePoints(s: string): (r: seq<int>)
    ensures |r| == |s|
    ensures forall i | 0 <= i < |s| :: r[i] == s[i] as int
  {
    seq(|s|, i requires 0 <= i < |s| => s[i] as int)
  }

  /** Sort key of the synchronous client: `(start_time, end_time, event)`. */
  function EventKey(c: ContestInfo): seq<int> {
    [c.start, c.end] + CodePoints(c.event)
  }

  /** Sort key of the asynchronous client: `(start_time, end_time)`. */
  function TimesKey(c: ContestInfo): seq<int> {
    [c.start, c.end]
  }

  /** The contests kept by both clients, still in fetched order. */
  function Upcoming(cs: seq<ContestInfo>, now: int): (r: seq<ContestInfo>)
    ensures forall c :: c in r <==> c in cs && WithinTwoWeeks(c, now)
  {
    Collections.Filter(cs, (c: ContestInfo) => WithinTwoWeeks(c, now))
  }

  /**
   * `ClistAPI.get_upcoming_contests` after the request: the contests within
   * two weeks, sorted by start, end and name, ties in fetched order.
   */
  function SyncUpcoming(cs: seq<ContestInfo>, now: int): (r: seq<ContestInfo>)
    ensures multiset(r) == multiset(Upcoming(cs, now))
    ensures Sorting.Sorted(r, EventKey)
    ensures forall c :: c in r <==> c in cs && WithinTwoWeeks(c, now)
    ensures forall i, j | 0 <= i < j < |r| :: r[i].start <= r[j].start
  {
    var r := Sorting.SortBy(Upcoming(cs, now), EventKey);
    assert forall c :: c in r <==> c in multiset(r);
    forall i, j | 0 <= i < j < |r|
      ensures r[i].start <= r[j].start
    {
      KeyStartsWithTimes(r[i]);
      KeyStartsWithTimes(r[j]);
      assert Sorting.LexLe(EventKey(r[i]), EventKey(r[j]));
    }
    r
  }

  lemma KeyStartsWithTimes(c: ContestInfo)
    ensures EventKey(c)[0] == c.start && EventKey(c)[1] == c.end
  {
  }

  /** `AsyncClistAPI.get_upcoming_contests` after the request: sorted by start and end only. */
  function AsyncUpcoming(cs: seq<ContestInfo>, now: int): (r: seq<ContestInfo>)
    ensures multiset(r) == multiset(Upcoming(cs, now))
    ensures Sorting.Sorted(r, TimesKey)
    ensures forall c :: c in r <==> c in cs && WithinTwoWeeks(c, now)
    ensures forall i, j | 0 <= i < j < |r| :: r[i].start <= r[j].start
  {
    var r := Sorting.SortBy(Upcoming(cs, now), TimesKey);
    assert forall c :: c in r <==> c in multiset(r);
    forall i, j | 0 <= i < j < |r|
      ensures r[i].start <= r[j].start
    {
      Sorting.LexLePairs(r[i].start, r[i].end, r[j].start, r[j].end);
    }
    r
  }

  /** Contests with the same start and end keep their fetched order in the asynchronous listing. */
  lemma AsyncUpcomingStable(cs: seq<ContestInfo>, now: int, start: int, end: int)
    ensures Sorting.KeyFilter(AsyncUpcoming(cs, now), TimesKey, [start, end])
         == Sorting.KeyFilter(Upcoming(cs, now), TimesKey, [start, end])
  {
    Sorting.SortStable(Upcoming(cs, now), TimesKey, [start, end]);
  }

  /** Both listings hold the same contests; they differ at most in the order of contests with equal times. */
  lemma UpcomingVariantsAgree(cs: seq<ContestInfo>, now: int)
    ensures multiset(SyncUpcoming(cs, now)) == multiset(AsyncUpcoming(cs, now))
  {
  }
}

=== FILE: collections.dfy ===
/** Order-preserving filtering: Python's `[x for x in s if p(x)]`. */
module Collections {

  function Filter<T>(s: seq<T>, p: T -> bool): (r: seq<T>)
    ensures |r| <= |s|
    ensures forall i | 0 <= i < |r| :: r[i] in s && p(r[i])
    ensures forall i | 0 <= i < |s| :: p(s[i]) ==> s[i] in r
  {
    if |s| == 0 then []
    else (if p(s[0]) then [s[0]] else []) + Filter(s[1..], p)
  }

  /** How often `x` occurs in the filtered sequence. */
  lemma {:induction false} FilterCount<T>(s: seq<T>, p: T -> bool, x: T)
    ensures multiset(Filter(s, p))[x] == if p(x) then multiset(s)[x] else 0
  {
    if |s| > 0 {
      assert s == [s[0]] + s[1..];
      FilterCount(s[1..], p, x);
    }
  }

  /** Filtering two permutations of each other gives permutations of each other. */
  lemma FilterPermutation<T>(s: seq<T>, t: seq<T>, p: T -> bool)
    requires multiset(s) == multiset(t)
    ensures multiset(Filter(s, p)) == multiset(Filter(t, p))
  {
    forall x ensures multiset(Filter(s, p))[x] == multiset(Filter(t, p))[x] {
      FilterCount(s, p, x);
      FilterCount(t, p, x);
    }
  }

  /** Filtering by `p` and then by `q` is filtering by both at once. */
  lemma {:induction false} FilterFilter<T>(s: seq<T>, p: T -> bool, q: T -> bool, pq: T -> bool)
    requires forall x :: pq(x) == (p(x) && q(x))
    ensures Filter(Filter(s, p), q) == Filter(s, pq)
  {
    if |s| > 0 {
      FilterFilter(s[1..], p, q, pq);
      var fp := Filter(s, p);
      if p(s[0]) {
        assert fp == [s[0]] + Filter(s[1..], p);
        assert fp[0] == s[0] && fp[1..] == Filter(s[1..], p);
        assert Filter(fp, q) == (if q(s[0]) then [s[0]] else []) + Filter(fp[1..], q);
      } else {
        assert fp == Filter(s[1..], p);
      }
    }
  }

  /** Filtering distributes over concatenation, so the kept elements stay in their relative order. */
  lemma {:induction false} FilterAppend<T>(a: seq<T>, b: seq<T>, p: T -> bool)
    ensures Filter(a + b, p) == Filter(a, p) + Filter(b, p)
  {
    if |a| == 0 {
      assert a + b == b;
    } else {
      assert (a + b)[0] == a[0] && (a + b)[1..] == a[1..] + b;
      FilterAppend(a[1..], b, p);
    }
  }

  /** Filtering by a condition every element meets keeps everything. */
  lemma {:induction false} FilterAll<T>(s: seq<T>, p: T -> bool)
    requires forall i | 0 <= i < |s| :: p(s[i])
    ensures Filter(s, p) == s
  {
    if |s| > 0 {
      FilterAll(s[1..], p);
    }
  }

  /** Filtering by a condition no element meets keeps nothing. */
  lemma FilterNone<T>(s: seq<T>, p: T -> bool)
    requires forall i | 0 <= i < |s| :: !p(s[i])
    ensures Filter(s, p) == []
  {
  }

  /** Filtering depends only on the verdicts of the condition on the elements. */
  lemma {:induction false} FilterCongruent<T>(s: seq<T>, p: T -> bool, q: T -> bool)
    requires forall i | 0 <= i < |s| :: p(s[i]) == q(s[i])
    ensures Filter(s, p) == Filter(s, q)
  {
    if |s| > 0 {
      FilterCongruent(s[1..], p, q);
    }
  }

  /** `any(p(x) for x in s)`. */
  predicate Any<T>(s: seq<T>, p: T -> bool) {
    exists i | 0 <= i < |s| :: p(s[i])
  }
}

=== FILE: errors.dfy ===
/** The exceptions the modelled code raises or lets escape to its caller. */
module Errors {

  datatype Exception =
    | CodeforcesError(message: string)
    | ClistError(message: string)
      /** `resp.json()` could not decode the body. */
    | JsonDecodeError
      /** aiohttp's `resp.json()` refused a media type other than `application/json`. */
    | ContentTypeError
    | IndexError
    | KeyError(key: string)
    | ValueError(text: string)
      /** An attribute read on `None`: `capwords(None)` for a missing rank, `None.id` for a missing problem. */
    | AttributeError
      /** `None["id"]`: a subscript of a missing sender. */
    | TypeError
}

=== FILE: predicted_deltas.dfy ===
/**
 * The table scraper behind predicted rating changes: an event-driven state
 * machine over the start-tag, text and end-tag callbacks of an HTML parser.
 * Tag names arrive lower-cased, as the HTML parser reports them.
 */
module PredictedDeltas {
  import opened Wrappers
  import opened Errors
  import Text

  datatype Event = StartTag(tag: string) | Data(text: string) | EndTag(tag: string)

  /** One stored row: the rank, the handle and the signed rating change as text. */
  datatype DeltaRow = DeltaRow(rank: int, handle: string, change: string)

  /**
   * `parsing` is true between `<tbody>` and `</tbody>`; `row` holds the
   * stripped cells of the current row; `content` the text of the current cell.
   */
  datatype Parser = Parser(parsing: bool, data: map<string, DeltaRow>, row: seq<string>, content: string)

  const Initial := Parser(false, map[], [], "")

  /** A change that does not start with `-` gets a `+` in front. */
  function SignedChange(change: string): (r: string)
    ensures |r| > 0 && (r[0] == '+' || r[0] == '-')
    ensures r == change || r == "+" + change
    ensures r == change <==> |change| > 0 && change[0] == '-'
  {
    if |change| > 0 && change[0] == '-' then change else "+" + change
  }

  /** The row a `</tr>` inside the table stores, or the error it raises. */
  function RowOf(row: seq<string>): (r: Result<DeltaRow, Exception>)
    ensures |row| < 3 ==> r == Failure(IndexError)
    ensures |row| >= 3 ==> (r.Failure? <==> Text.ParseInt(row[0]).None?)
    ensures |row| >= 3 && r.Failure? ==> r == Failure(ValueError(row[0]))
    ensures r.Success? ==> |row| >= 3 && Some(r.value.rank) == Text.ParseInt(row[0])
    ensures r.Success? ==> r.value.handle == row[1] && r.value.change == SignedChange(row[2])
  {
    if |row| < 3 then Failure(IndexError)
    else
      var change := SignedChange(row[2]);
      match Text.ParseInt(row[0])
      case None => Failure(ValueError(row[0]))
      case Some(rank) => Success(DeltaRow(rank, row[1], change))
  }

  /** The parser's reaction to one callback. */
  function Step(p: Parser, e: Event): (r: Result<Parser, Exception>)
    ensures e.StartTag? ==> r.Success? && r.value.data == p.data
    ensures e == StartTag("tbody") ==> r == Success(p.(parsing := true))
    ensures e == StartTag("tr") ==> r == Success(p.(row := []))
    ensures e == StartTag("td") ==> r == Success(p.(content := ""))
    ensures e.Data? ==> r == Success(if p.parsing then p.(content := p.content + e.text) else p)
    ensures e == EndTag("td") && p.parsing ==> r == Success(p.(row := p.row + [Text.Strip(p.content)]))
    ensures e == EndTag("tr") && p.parsing ==> r.Failure? == RowOf(p.row).Failure?
    ensures e == EndTag("tr") && p.parsing && r.Failure? ==> r == Failure(RowOf(p.row).error)
    ensures e == EndTag("tr") && p.parsing && r.Success?
        ==> r.value == p.(data := p.data[p.row[1] := RowOf(p.row).value])
    ensures e == EndTag("tbody") ==> r == Success(p.(parsing := false))
    ensures e.EndTag? && !p.parsing && e.tag != "tbody" ==> r == Success(p)
  {
    match e
    case StartTag(tag) =>
      if tag == "tbody" then Success(p.(parsing := true))
      else if tag == "tr" then Success(p.(row := []))
      else if tag == "td" then Success(p.(content := ""))
      else Success(p)
    case Data(text) =>
      if p.parsing then Success(p.(content := p.content + text)) else Success(p)
    case EndTag(tag) =>
      if tag == "td" && p.parsing then Success(p.(row := p.row + [Text.Strip(p.content)]))
      else if tag == "tr" && p.parsing then
        var stored :- RowOf(p.row);
        Success(p.(data := p.data[p.row[1] := stored]))
      else if tag == "tbody" then Success(p.(parsing := false))
      else Success(p)
  }

  /**
   * `parser.feed(...)` over a sequence of callbacks; the first exception stops it.
   * Only the end of a row can raise or touch the stored table.
   */
  function Feed(p: Parser, es: seq<Event>): (r: Result<Parser, Exception>)
    ensures (forall i | 0 <= i < |es| :: es[i] != EndTag("tr")) ==> r.Success? && r.value.data == p.data
    ensures r.Failure? ==> exists i | 0 <= i < |es| :: es[i] == EndTag("tr")
    decreases |es|
  {
    if |es| == 0 then Success(p)
    else
      var q :- Step(p, es[0]);
      Feed(q, es[1..])
  }

  /** Feeding two chunks one after the other is feeding their concatenation. */
  lemma {:induction false} FeedAppend(p: Parser, a: seq<Event>, b: seq<Event>)
    ensures Feed(p, a + b) == (match Feed(p, a) case Success(q) => Feed(q, b) case Failure(e) => Failure(e))
    decreases |a|
  {
    if |a| == 0 {
      assert a + b == b;
    } else {
      assert (a + b)[0] == a[0] && (a + b)[1..] == a[1..] + b;
      match Step(p, a[0])
      case Success(q) => FeedAppend(q, a[1..], b);
      case Failure(_) =>
    }
  }

  /** Every stored row is filed under its own handle with a signed change. */
  ghost predicate WellFormed(data: map<string, DeltaRow>) {
    forall h | h in data :: data[h].handle == h && |data[h].change| > 0 && data[h].change[0] in "+-"
  }

  lemma {:induction false} FeedKeepsWellFormed(p: Parser, es: seq<Event>)
    requires WellFormed(p.data)
    ensures Feed(p, es).Success? ==> WellFormed(Feed(p, es).value.data)
    decreases |es|
  {
    if |es| > 0 {
      match Step(p, es[0])
      case Success(q) =>
        assert WellFormed(q.data);
        FeedKeepsWellFormed(q, es[1..]);
      case Failure(_) =>
    }
  }

  /** Outside the table nothing is stored and no text is collected. */
  lemma {:induction false} FeedOutsideTable(p: Parser, es: seq<Event>)
    requires !p.parsing
    requires forall i | 0 <= i < |es| :: es[i] != StartTag("tbody")
    ensures Feed(p, es).Success?
    ensures Feed(p, es).value.data == p.data && !Feed(p, es).value.parsing
    ensures Feed(p, es).value.content == p.content || Feed(p, es).value.content == ""
    decreases |es|
  {
    if |es| > 0 {
      var q := Step(p, es[0]).value;
      assert q.data == p.data && !q.parsing && (q.content == p.content || q.content == "");
      FeedOutsideTable(q, es[1..]);
    }
  }

  /** A table row as the page writes it: a rank, a handle and a delta, one cell each. */
  datatype TableRow = TableRow(rank: int, handle: string, delta: int)

  function CellEvents(text: string): seq<Event> {
    [StartTag("td"), Data(text), EndTag("td")]
  }

  function Cells(cells: seq<string>): seq<Event> {
    if |cells| == 0 then [] else CellEvents(cells[0]) + Cells(cells[1..])
  }

  /** A `<tr>` holding one cell per string. */
  function RowFrame(cells: seq<string>): seq<Event> {
    [StartTag("tr")] + Cells(cells) + [EndTag("tr")]
  }

  /** The three cell texts of a row: the rank, the handle and the delta, as `str()` writes them. */
  function RowCells(t: TableRow): seq<string> {
    [Text.IntToString(t.rank), t.handle, Text.IntToString(t.delta)]
  }

  function RowEvents(t: TableRow): seq<Event> {
    RowFrame(RowCells(t))
  }

  function RowsEvents(ts: seq<TableRow>): seq<Event> {
    if |ts| == 0 then [] else RowEvents(ts[0]) + RowsEvents(ts[1..])
  }

  /** One cell inside the table appends its stripped text to the row. */
  lemma CellStep(p: Parser, text: string)
    requires p.parsing
    ensures Feed(p, CellEvents(text)) == Success(p.(content := text, row := p.row + [Text.Strip(text)]))
  {
    var e := CellEvents(text);
    var p1 := p.(content := "");
    var p2 := p.(content := text);
    assert Feed(p, e) == Feed(p1, [Data(text), EndTag("td")]) by {
      assert Step(p, StartTag("td")) == Success(p1);
      assert e[1..] == [Data(text), EndTag("td")];
    }
    assert Feed(p1, [Data(text), EndTag("td")]) == Feed(p2, [EndTag("td")]) by {
      assert p1.content + text == text;
      assert Step(p1, Data(text)) == Success(p2);
      assert [Data(text), EndTag("td")][1..] == [EndTag("td")];
    }
    assert Feed(p2, [EndTag("td")]) == Step(p2, EndTag("td")) by {
      assert [EndTag("td")][1..] == [];
    }
  }

  lemma ConcatAssoc<T>(a: seq<T>, b: seq<T>, c: seq<T>)
    ensures a + (b + c) == (a + b) + c
  {
  }

  /** The text of the last cell, or `content` when there are no cells. */
  function LastCell(content: string, cells: seq<string>): string {
    if |cells| == 0 then content else cells[|cells| - 1]
  }

  /** Cells inside the table append their stripped texts to the row and store nothing. */
  lemma {:induction false} CellsStep(p: Parser, cells: seq<string>)
    requires p.parsing
    ensures Feed(p, Cells(cells)) == Success(p.(content := LastCell(p.content, cells), row := p.row + Text.StripEach(cells)))
    decreases |cells|
  {
    if |cells| == 0 {
      assert p.row + Text.StripEach(cells) == p.row;
    } else {
      var q := CellsHead(p, cells);
      CellsStep(q, cells[1..]);
      RowAfterHead(p, cells);
    }
  }

  /** The first cell of a non-empty run is consumed on its own. */
  lemma CellsHead(p: Parser, cells: seq<string>) returns (q: Parser)
    requires p.parsing && |cells| > 0
    ensures q == p.(content := cells[0], row := p.row + [Text.Strip(cells[0])])
    ensures Feed(p, Cells(cells)) == Feed(q, Cells(cells[1..]))
  {
    q := p.(content := cells[0], row := p.row + [Text.Strip(cells[0])]);
    CellStep(p, cells[0]);
    FeedAppend(p, CellEvents(cells[0]), Cells(cells[1..]));
  }

  /** Stripping the first cell and then the rest extends the row as stripping them all. */
  lemma RowAfterHead(p: Parser, cells: seq<string>)
    requires |cells| > 0
    ensures var q := p.(content := cells[0], row := p.row + [Text.Strip(cells[0])]);
      q.(content := LastCell(q.content, cells[1..]), row := q.row + Text.StripEach(cells[1..]))
        == p.(content := LastCell(p.content, cells), row := p.row + Text.StripEach(cells))
  {
    assert Text.StripEach(cells) == [Text.Strip(cells[0])] + Text.StripEach(cells[1..]);
    ConcatAssoc(p.row, [Text.Strip(cells[0])], Text.StripEach(cells[1..]));
  }

  /** Stripping cells that have no surrounding whitespace changes none of them. */
  lemma StripEachTrimmedCells(cells: seq<string>)
    requires forall i | 0 <= i < |cells| :: Text.Trimmed(cells[i])
    ensures Text.StripEach(cells) == cells
  {
    forall i | 0 <= i < |cells| ensures Text.StripEach(cells)[i] == cells[i] {
      Text.StripTrimmed(cells[i]);
    }
  }

  /**
   * A whole row inside the table ends in the `</tr>` step with the stripped
   * cells as the row: stored under its handle cell, or the error of `RowOf`.
   */
  lemma RowFeed(p: Parser, cells: seq<string>)
    requires p.parsing
    ensures Feed(p, RowFrame(cells))
         == Step(p.(row := Text.StripEach(cells), content := LastCell(p.content, cells)), EndTag("tr"))
  {
    var p1 := p.(row := []);
    var q := p.(row := Text.StripEach(cells), content := LastCell(p.content, cells));
    RowOpens(p, cells);
    RowCellsRead(p1, cells);
    FeedOne(q, EndTag("tr"));
  }

  /** `<tr>` empties the row before the cells and the `</tr>` are read. */
  lemma RowOpens(p: Parser, cells: seq<string>)
    ensures Feed(p, RowFrame(cells)) == Feed(p.(row := []), Cells(cells) + [EndTag("tr")])
  {
    FeedAppend(p, [StartTag("tr")], Cells(cells) + [EndTag("tr")]);
    assert RowFrame(cells) == [StartTag("tr")] + (Cells(cells) + [EndTag("tr")]);
  }

  /** The cells of a row fill the emptied row with their stripped texts before `</tr>` is read. */
  lemma RowCellsRead(p1: Parser, cells: seq<string>)
    requires p1.parsing && p1.row == []
    ensures Feed(p1, Cells(cells) + [EndTag("tr")])
         == Feed(p1.(row := Text.StripEach(cells), content := LastCell(p1.content, cells)), [EndTag("tr")])
  {
    CellsStep(p1, cells);
    assert p1.row + Text.StripEach(cells) == Text.StripEach(cells);
    FeedAppend(p1, Cells(cells), [EndTag("tr")]);
  }

  /** Feeding a single callback is taking that one step. */
  lemma FeedOne(p: Parser, e: Event)
    ensures Feed(p, [e]) == Step(p, e)
  {
    assert [e][1..] == [];
  }

  /** A row of fewer than three cells inside the table raises `IndexError`. */
  lemma ShortRowRaises(p: Parser, cells: seq<string>)
    requires p.parsing && |cells| < 3
    ensures Feed(p, RowFrame(cells)) == Failure(IndexError)
  {
    RowFeed(p, cells);
  }

  /** A row whose first cell is not an integer raises `ValueError`. */
  lemma BadRankRaises(p: Parser, cells: seq<string>)
    requires p.parsing && |cells| >= 3 && Text.ParseInt(Text.Strip(cells[0])).None?
    ensures Feed(p, RowFrame(cells)).Failure?
    ensures Feed(p, RowFrame(cells)).error.ValueError?
  {
    RowFeed(p, cells);
    var row := Text.StripEach(cells);
    assert row[0] == Text.Strip(cells[0]);
    assert RowOf(row) == Failure(ValueError(row[0]));
  }

  /** The cells of a rendered row have no surrounding whitespace, so stripping keeps them. */
  lemma RowCellsStripped(t: TableRow)
    requires Text.Trimmed(t.handle)
    ensures Text.StripEach(RowCells(t)) == RowCells(t)
  {
    Text.IntToStringStripped(t.rank);
    Text.StripTrimmed(t.handle);
    Text.IntToStringStripped(t.delta);
    StripEachFixed(Text.IntToString(t.rank), t.handle, Text.IntToString(t.delta));
  }

  /** Three cells that stripping leaves alone are left alone together. */
  lemma StripEachFixed(a: string, b: string, c: string)
    requires Text.Strip(a) == a && Text.Strip(b) == b && Text.Strip(c) == c
    ensures Text.StripEach([a, b, c]) == [a, b, c]
  {
    StripEachCons(c, []);
    assert [c] + [] == [c];
    StripEachCons(b, [c]);
    assert [b] + [c] == [b, c];
    StripEachCons(a, [b, c]);
    assert [a] + [b, c] == [a, b, c];
  }

  lemma StripEachCons(a: string, rest: seq<string>)
    requires Text.Strip(a) == a && Text.StripEach(rest) == rest
    ensures Text.StripEach([a] + rest) == [a] + rest
  {
    assert ([a] + rest)[1..] == rest;
  }

  /** The cells of a rendered row are read back as the row they render. */
  lemma RowCellsParsed(t: TableRow)
    ensures RowOf(RowCells(t)) == Success(Expected(t))
  {
    Text.IntToStringRoundTrip(t.rank);
  }

  /** A row whose cells need no stripping and parse as `row` is stored under the row's handle. */
  lemma RowStored(p: Parser, cells: seq<string>, row: DeltaRow)
    requires p.parsing && Text.StripEach(cells) == cells && RowOf(cells) == Success(row)
    ensures Feed(p, RowFrame(cells)).Success?
    ensures Feed(p, RowFrame(cells)).value.parsing
    ensures Feed(p, RowFrame(cells)).value.data == p.data[row.handle := row]
  {
    RowFeed(p, cells);
  }

  /** One rendered row inside the table is stored under its handle; rank and change are read back exactly. */
  lemma RowRoundTrip(p: Parser, t: TableRow)
    requires p.parsing && Text.Trimmed(t.handle)
    ensures Feed(p, RowEvents(t)).Success?
    ensures Feed(p, RowEvents(t)).value.parsing
    ensures Feed(p, RowEvents(t)).value.data == p.data[t.handle := Expected(t)]
  {
    RowCellsStripped(t);
    RowCellsParsed(t);
    RowStored(p, RowCells(t), Expected(t));
  }

  lemma {:induction false} RowsRoundTrip(p: Parser, ts: seq<TableRow>)
    requires p.parsing
    requires forall i | 0 <= i < |ts| :: Text.Trimmed(ts[i].handle)
    ensures Feed(p, RowsEvents(ts)).Success?
    ensures Feed(p, RowsEvents(ts)).value.parsing
    ensures Feed(p, RowsEvents(ts)).value.data == Store(p.data, ts)
    decreases |ts|
  {
    if |ts| > 0 {
      RowRoundTrip(p, ts[0]);
      var q := Feed(p, RowEvents(ts[0])).value;
      FeedAppend(p, RowEvents(ts[0]), RowsEvents(ts[1..]));
      RowsRoundTrip(q, ts[1..]);
    }
  }

  /** The callbacks of a page whose table body holds `ts`. */
  function TableEvents(ts: seq<TableRow>): seq<Event> {
    [StartTag("tbody")] + RowsEvents(ts) + [EndTag("tbody")]
  }

  /** What the parser is meant to store for a row. */
  function Expected(t: TableRow): DeltaRow {
    DeltaRow(t.rank, t.handle, SignedChange(Text.IntToString(t.delta)))
  }

  /** Storing rows from first to last, so a later row overwrites an earlier one with the same handle. */
  function Store(data: map<string, DeltaRow>, ts: seq<TableRow>): map<string, DeltaRow>
    decreases |ts|
  {
    if |ts| == 0 then data else Store(data[ts[0].handle := Expected(ts[0])], ts[1..])
  }

  /** A later row wins: storing one more row overwrites that handle's entry and nothing else. */
  lemma {:induction false} StoreLastWins(data: map<string, DeltaRow>, ts: seq<TableRow>, t: TableRow)
    ensures Store(data, ts + [t]) == Store(data, ts)[t.handle := Expected(t)]
    decreases |ts|
  {
    if |ts| > 0 {
      assert (ts + [t])[0] == ts[0] && (ts + [t])[1..] == ts[1..] + [t];
      StoreLastWins(data[ts[0].handle := Expected(ts[0])], ts[1..], t);
    }
  }

  /** A handle that occurs in no row keeps its entry. */
  lemma {:induction false} StoreOthersUnchanged(data: map<string, DeltaRow>, ts: seq<TableRow>, h: string)
    requires forall i | 0 <= i < |ts| :: ts[i].handle != h
    ensures h in Store(data, ts) <==> h in data
    ensures h in data ==> Store(data, ts)[h] == data[h]
    decreases |ts|
  {
    if |ts| > 0 {
      StoreOthersUnchanged(data[ts[0].handle := Expected(ts[0])], ts[1..], h);
    }
  }

  /**
   * The scraper reads back every row of a rendered table: the result maps
   * each handle to its last row, with the rank and the signed change.
   */
  lemma TableRoundTrip(p: Parser, ts: seq<TableRow>)
    requires !p.parsing
    requires forall i | 0 <= i < |ts| :: Text.Trimmed(ts[i].handle)
    ensures Feed(p, TableEvents(ts)).Success?
    ensures Feed(p, TableEvents(ts)).value.data == Store(p.data, ts)
    ensures !Feed(p, TableEvents(ts)).value.parsing
  {
    var p1 := p.(parsing := true);
    var rows := RowsEvents(ts);
    assert Feed(p, TableEvents(ts)) == Feed(p1, rows + [EndTag("tbody")]) by {
      assert TableEvents(ts) == [StartTag("tbody")] + (rows + [EndTag("tbody")]);
      FeedAppend(p, [StartTag("tbody")], rows + [EndTag("tbody")]);
    }
    RowsRoundTrip(p1, ts);
    var q := Feed(p1, rows).value;
    assert Feed(p1, rows + [EndTag("tbody")]) == Feed(q, [EndTag("tbody")]) by {
      FeedAppend(p1, rows, [EndTag("tbody")]);
    }
    assert Feed(q, [EndTag("tbody")]) == Success(q.(parsing := false)) by {
      assert [EndTag("tbody")][1..] == [];
    }
  }
}

=== FILE: sorting.dfy ===
/**
 * Python's stable `list.sort(key=...)`, with keys encoded as integer sequences
 * compared lexicographically: the order Python uses for tuples of integers and
 * for strings (by code point, a proper prefix first).
 */
module Sorting {

  /** Lexicographic "less than or equal" on integer sequences. */
  predicate LexLe(a: seq<int>, b: seq<int>)
    decreases |a|
  {
    |a| == 0 || (|b| > 0 && (a[0] < b[0] || (a[0] == b[0] && LexLe(a[1..], b[1..]))))
  }

  lemma {:induction false} LexLeReflexive(a: seq<int>)
    ensures LexLe(a, a)
    decreases |a|
  {
    if |a| > 0 {
      LexLeReflexive(a[1..]);
    }
  }

  lemma {:induction false} LexLeTotal(a: seq<int>, b: seq<int>)
    ensures LexLe(a, b) || LexLe(b, a)
    decreases |a|
  {
    if |a| > 0 && |b| > 0 && a[0] == b[0] {
      LexLeTotal(a[1..], b[1..]);
    }
  }

  lemma {:induction false} LexLeTransitive(a: seq<int>, b: seq<int>, c: seq<int>)
    requires LexLe(a, b) && LexLe(b, c)
    ensures LexLe(a, c)
    decreases |a|
  {
    if |a| > 0 && a[0] == b[0] && b[0] == c[0] {
      LexLeTransitive(a[1..], b[1..], c[1..]);
    }
  }

  lemma {:induction false} LexLeAntisymmetric(a: seq<int>, b: seq<int>)
    requires LexLe(a, b) && LexLe(b, a)
    ensures a == b
    decreases |a|
  {
    if |a| > 0 {
      LexLeAntisymmetric(a[1..], b[1..]);
      assert a == [a[0]] + a[1..];
      assert b == [b[0]] + b[1..];
    }
  }

  /** A two-element key `[x, y]` compares its first components first. */
  lemma LexLePairs(x1: int, y1: int, x2: int, y2: int)
    ensures LexLe([x1, y1], [x2, y2]) <==> x1 < x2 || (x1 == x2 && y1 <= y2)
  {
    assert [x1, y1][1..] == [y1];
    assert [x2, y2][1..] == [y2];
    assert [y1][1..] == [] && [y2][1..] == [];
    assert LexLe([y1], [y2]) <==> y1 <= y2;
  }

  /** A one-element key compares as its only component. */
  lemma LexLeSingle(x: int, y: int)
    ensures LexLe([x], [y]) <==> x <= y
  {
    assert [x][1..] == [] && [y][1..] == [];
  }

  /** The sequence is in non-decreasing key order. */
  ghost predicate Sorted<T>(s: seq<T>, key: T -> seq<int>) {
    forall i, j | 0 <= i < j < |s| :: LexLe(key(s[i]), key(s[j]))
  }

  /** Inserts `x` before the first element whose key is not smaller than its own. */
  function Insert<T>(x: T, s: seq<T>, key: T -> seq<int>): (r: seq<T>)
    ensures multiset(r) == multiset(s) + multiset{x}
    ensures Sorted(s, key) ==> Sorted(r, key)
  {
    if |s| == 0 || LexLe(key(x), key(s[0])) then
      assert Sorted(s, key) ==> Sorted([x] + s, key) by {
        if Sorted(s, key) { InsertFrontSorted(x, s, key); }
      }
      [x] + s
    else
      var rest := Insert(x, s[1..], key);
      assert s == [s[0]] + s[1..];
      assert Sorted(s, key) ==> Sorted([s[0]] + rest, key) by {
        if Sorted(s, key) { InsertBehindSorted(x, s, rest, key); }
      }
      [s[0]] + rest
  }

  /** A key no larger than the first one keeps a sorted sequence sorted when put in front. */
  lemma InsertFrontSorted<T>(x: T, s: seq<T>, key: T -> seq<int>)
    requires Sorted(s, key) && (|s| == 0 || LexLe(key(x), key(s[0])))
    ensures Sorted([x] + s, key)
  {
    if |s| > 0 {
      forall j | 1 <= j < |s| + 1
        ensures LexLe(key(x), key(([x] + s)[j]))
      {
        if j > 1 { LexLeTransitive(key(x), key(s[0]), key(s[j - 1])); }
      }
    }
  }

  /** The head of a sorted sequence stays in front of `x` inserted into its tail. */
  lemma InsertBehindSorted<T>(x: T, s: seq<T>, rest: seq<T>, key: T -> seq<int>)
    requires Sorted(s, key) && |s| > 0 && !LexLe(key(x), key(s[0]))
    requires multiset(rest) == multiset(s[1..]) + multiset{x} && Sorted(rest, key)
    ensures Sorted([s[0]] + rest, key)
  {
    LexLeTotal(key(x), key(s[0]));
    forall j | 0 <= j < |rest|
      ensures LexLe(key(s[0]), key(rest[j]))
    {
      assert rest[j] in multiset(rest);
      assert rest[j] == x || rest[j] in s[1..];
    }
  }

  /** Stable insertion sort by `key`. */
  function SortBy<T>(s: seq<T>, key: T -> seq<int>): (r: seq<T>)
    ensures multiset(r) == multiset(s)
    ensures Sorted(r, key)
  {
    if |s| == 0 then []
    else
      assert s == [s[0]] + s[1..];
      Insert(s[0], SortBy(s[1..], key), key)
  }

  /** Sorting keeps exactly the elements it was given. */
  lemma SortByMembers<T>(s: seq<T>, key: T -> seq<int>)
    ensures forall x :: x in SortBy(s, key) <==> x in s
  {
    var r := SortBy(s, key);
    forall x ensures x in r <==> x in s {
      assert x in r <==> x in multiset(r);
      assert x in s <==> x in multiset(s);
    }
  }

  /** The elements of `s` whose key is exactly `k`, in order. */
  function KeyFilter<T>(s: seq<T>, key: T -> seq<int>, k: seq<int>): seq<T> {
    if |s| == 0 then []
    else (if key(s[0]) == k then [s[0]] else []) + KeyFilter(s[1..], key, k)
  }

  /** `KeyFilter` of a sequence with a known head. */
  lemma KeyFilterCons<T>(y: T, t: seq<T>, key: T -> seq<int>, k: seq<int>)
    ensures KeyFilter([y] + t, key, k) == (if key(y) == k then [y] else []) + KeyFilter(t, key, k)
  {
    assert ([y] + t)[0] == y;
    assert ([y] + t)[1..] == t;
  }

  lemma {:induction false} InsertKeyFilter<T>(x: T, s: seq<T>, key: T -> seq<int>, k: seq<int>)
    ensures KeyFilter(Insert(x, s, key), key, k)
         == (if key(x) == k then [x] else []) + KeyFilter(s, key, k)
  {
    if |s| == 0 || LexLe(key(x), key(s[0])) {
      assert Insert(x, s, key) == [x] + s;
      KeyFilterCons(x, s, key, k);
    } else {
      var rest := Insert(x, s[1..], key);
      assert Insert(x, s, key) == [s[0]] + rest;
      InsertKeyFilter(x, s[1..], key, k);
      KeyFilterCons(s[0], rest, key, k);
      assert s == [s[0]] + s[1..];
      KeyFilterCons(s[0], s[1..], key, k);
      LexLeReflexive(key(x));
      assert !(key(x) == k && key(s[0]) == k);
      var a := if key(s[0]) == k then [s[0]] else [];
      var b := if key(x) == k then [x] else [];
      var t := KeyFilter(s[1..], key, k);
      if key(s[0]) == k {
        assert b == [] && b + t == t;
        assert a + t == b + (a + t);
      } else {
        assert a == [] && a + t == t;
        assert a + (b + t) == b + t;
      }
    }
  }

  /** Stability: elements with equal keys keep their original relative order. */
  lemma {:induction false} SortStable<T>(s: seq<T>, key: T -> seq<int>, k: seq<int>)
    ensures KeyFilter(SortBy(s, key), key, k) == KeyFilter(s, key, k)
  {
    if |s| > 0 {
      SortStable(s[1..], key, k);
      InsertKeyFilter(s[0], SortBy(s[1..], key), key, k);
    }
  }

  lemma {:induction false} KeyFilterMembers<T>(s: seq<T>, key: T -> seq<int>, k: seq<int>)
    ensures forall i | 0 <= i < |KeyFilter(s, key, k)| :: KeyFilter(s, key, k)[i] in s
    ensures forall i | 0 <= i < |KeyFilter(s, key, k)| :: key(KeyFilter(s, key, k)[i]) == k
  {
    if |s| > 0 {
      KeyFilterMembers(s[1..], key, k);
    }
  }

  /**
   * The first element of the sorted sequence is the earliest element of the
   * input among those with the smallest key.
   */
  lemma SortedHeadIsFirstMinimum<T>(s: seq<T>, key: T -> seq<int>)
    requires |s| > 0
    ensures var r := SortBy(s, key);
      && |KeyFilter(s, key, key(r[0]))| > 0
      && r[0] == KeyFilter(s, key, key(r[0]))[0]
      && forall x | x in s :: LexLe(key(r[0]), key(x))
  {
    var r := SortBy(s, key);
    assert r[0] in multiset(s);
    SortStable(s, key, key(r[0]));
    assert KeyFilter(r, key, key(r[0])) == [r[0]] + KeyFilter(r[1..], key, key(r[0]));
    forall x | x in s
      ensures LexLe(key(r[0]), key(x))
    {
      assert x in multiset(r);
      var j :| 0 <= j < |r| && r[j] == x;
      if j == 0 { LexLeReflexive(key(x)); }
    }
  }
}

=== FILE: text.dfy ===
/**
 * The Python string operations the bot relies on, stated over `seq<char>`:
 * `str.isspace`/`strip`, `split`, `replace`, `lower`, `in`, `int()` and `str(int)`.
 */
module Text {
  import opened Wrappers

  /** Python's `str.isspace()` character class: the characters `str.strip()` removes. */
  predicate IsSpace(c: char) {
    || c == ' ' || c == '\t' || c == '\n' || c == '\U{B}' || c == '\U{C}' || c == '\r'
    || c == '\U{1C}' || c == '\U{1D}' || c == '\U{1E}' || c == '\U{1F}'
    || c == '\U{85}' || c == '\U{A0}' || c == '\U{1680}'
    || c == '\U{2000}' || c == '\U{2001}' || c == '\U{2002}' || c == '\U{2003}' || c == '\U{2004}'
    || c == '\U{2005}' || c == '\U{2006}' || c == '\U{2007}' || c == '\U{2008}' || c == '\U{2009}'
    || c == '\U{200A}' || c == '\U{2028}' || c == '\U{2029}' || c == '\U{202F}' || c == '\U{205F}'
    || c == '\U{3000}'
  }

  /** `s and not s.isspace()`: the string has at least one non-whitespace character. */
  predicate NonBlank(s: string) {
    exists i | 0 <= i < |s| :: !IsSpace(s[i])
  }

  /** No whitespace at either end: what `strip()` leaves. */
  predicate Trimmed(s: string) {
    s == [] || (!IsSpace(s[0]) && !IsSpace(s[|s| - 1]))
  }

  /** How many whitespace characters open `s`; the next character, if any, is not whitespace. */
  function Leading(s: string): (n: nat)
    ensures n <= |s|
    ensures n < |s| ==> !IsSpace(s[n])
  {
    if |s| > 0 && IsSpace(s[0]) then 1 + Leading(s[1..]) else 0
  }

  /** Every character counted by `Leading` is whitespace. */
  lemma {:induction false} LeadingIsSpace(s: string)
    ensures forall k | 0 <= k < Leading(s) :: IsSpace(s[k])
  {
    if |s| > 0 && IsSpace(s[0]) {
      LeadingIsSpace(s[1..]);
      forall k | 1 <= k < Leading(s) ensures IsSpace(s[k]) {
        assert s[k] == s[1..][k - 1];
      }
    }
  }

  /** How many whitespace characters close `s`; the character before them, if any, is not whitespace. */
  function Trailing(s: string): (n: nat)
    ensures n <= |s|
    ensures n < |s| ==> !IsSpace(s[|s| - 1 - n])
  {
    if |s| > 0 && IsSpace(s[|s| - 1]) then 1 + Trailing(s[..|s| - 1]) else 0
  }

  /** Every character counted by `Trailing` is whitespace. */
  lemma {:induction false} TrailingIsSpace(s: string)
    ensures forall k | |s| - Trailing(s) <= k < |s| :: IsSpace(s[k])
  {
    if |s| > 0 && IsSpace(s[|s| - 1]) {
      TrailingIsSpace(s[..|s| - 1]);
      forall k | |s| - Trailing(s) <= k < |s| - 1 ensures IsSpace(s[k]) {
        assert s[k] == s[..|s| - 1][k];
      }
    }
  }

  /** `lstrip()`: a suffix of `s` that does not start with whitespace. */
  function StripLeft(s: string): (r: string)
    ensures r == [] || !IsSpace(r[0])
  {
    s[Leading(s)..]
  }

  /** `rstrip()`: a prefix of `s` that does not end with whitespace. */
  function StripRight(s: string): (r: string)
    ensures r == [] || !IsSpace(r[|r| - 1])
  {
    s[..|s| - Trailing(s)]
  }

  /**
   * Python's `str.strip()`: the slice of `s` that starts after its leading
   * whitespace and stops before its trailing whitespace. Only whitespace is
   * cut, and nothing is cut from a string that comes back whole.
   */
  function Strip(s: string): (r: string)
    ensures Trimmed(r)
    ensures |r| <= |s|
    ensures |r| == |s| ==> Leading(s) == 0 && Trailing(s) == 0
    ensures Leading(s) + |r| <= |s| && r == s[Leading(s)..Leading(s) + |r|]
    ensures forall k | 0 <= k < Leading(s) :: IsSpace(s[k])
    ensures forall k | Leading(s) + |r| <= k < |s| :: IsSpace(s[k])
  {
    var l := StripLeft(s);
    LeadingIsSpace(s);
    TrailingIsSpace(l);
    var r := StripRight(l);
    forall k | Leading(s) + |r| <= k < |s| ensures IsSpace(s[k]) {
      assert s[k] == l[k - Leading(s)];
    }
    assert |r| == |s| ==> l == s;
    r
  }

  /** `[s.strip() for s in ss]`. */
  function StripEach(ss: seq<string>): (r: seq<string>)
    ensures |r| == |ss|
    ensures forall i | 0 <= i < |ss| :: r[i] == Strip(ss[i])
  {
    if |ss| == 0 then [] else [Strip(ss[0])] + StripEach(ss[1..])
  }

  lemma StripTrimmed(s: string)
    requires Trimmed(s)
    ensures Strip(s) == s
  {
  }

  /** `strip()` is idempotent. */
  lemma StripIdempotent(s: string)
    ensures Strip(Strip(s)) == Strip(s)
  {
    StripTrimmed(Strip(s));
  }

  /** A trimmed string is non-blank exactly when it is non-empty. */
  lemma TrimmedNonBlank(s: string)
    requires Trimmed(s)
    ensures NonBlank(s) <==> s != []
  {
    if s != [] {
      assert !IsSpace(s[0]);
    }
  }

  /** Position of the first occurrence of `c` in `s`. */
  function IndexOf(s: string, c: char): (r: Option<nat>)
    ensures r.None? ==> c !in s
    ensures r.Some? ==> r.value < |s| && s[r.value] == c && c !in s[..r.value]
  {
    if |s| == 0 then None
    else if s[0] == c then Some(0)
    else match IndexOf(s[1..], c)
      case None => None
      case Some(i) =>
        assert s[1..][..i] == s[1..i + 1];
        Some(i + 1)
  }

  lemma {:induction false} IndexOfFirst(s: string, c: char, k: nat)
    requires k < |s| && s[k] == c && c !in s[..k]
    ensures IndexOf(s, c) == Some(k)
  {
    if k > 0 {
      assert s[0] == s[..k][0];
      assert s[1..][..k - 1] == s[1..k];
      IndexOfFirst(s[1..], c, k - 1);
    }
  }

  /** `sep.join(parts)`. */
  function Join(sep: string, parts: seq<string>): string {
    if |parts| == 0 then ""
    else if |parts| == 1 then parts[0]
    else parts[0] + sep + Join(sep, parts[1..])
  }

  lemma JoinTwo(sep: string, a: string, b: string)
    ensures Join(sep, [a, b]) == a + sep + b
  {
    assert [a, b][1..] == [b];
  }

  /** A character that occurs neither in the separator nor in any piece does not occur in the joined text. */
  lemma {:induction false} JoinAvoids(sep: string, parts: seq<string>, c: char)
    requires c !in sep
    requires forall i | 0 <= i < |parts| :: c !in parts[i]
    ensures c !in Join(sep, parts)
    decreases |parts|
  {
    if |parts| > 1 {
      JoinAvoids(sep, parts[1..], c);
    }
  }

  /** The joined text ends with the last piece. */
  lemma {:induction false} JoinEndsWithLast(sep: string, parts: seq<string>)
    requires |parts| >= 1
    ensures |Join(sep, parts)| >= |parts[|parts| - 1]|
    ensures Join(sep, parts)[|Join(sep, parts)| - |parts[|parts| - 1]|..] == parts[|parts| - 1]
    decreases |parts|
  {
    if |parts| > 1 {
      JoinEndsWithLast(sep, parts[1..]);
      var rest := Join(sep, parts[1..]);
      assert Join(sep, parts) == (parts[0] + sep) + rest;
    }
  }

  /** Joining pieces the first of which is non-empty gives a non-empty string. */
  lemma JoinNonEmpty(sep: string, parts: seq<string>)
    requires |parts| >= 1 && parts[0] != []
    ensures Join(sep, parts) != []
  {
    if |parts| > 1 {
      assert |Join(sep, parts)| >= |parts[0]|;
    }
  }

  /** Python's `s.split(sep)` for a one-character separator: the pieces between the separators. */
  function Split(s: string, sep: char): (r: seq<string>)
    ensures |r| >= 1
    ensures forall i | 0 <= i < |r| :: sep !in r[i]
    ensures Join([sep], r) == s
    decreases |s|
  {
    match IndexOf(s, sep)
    case None => [s]
    case Some(i) =>
      var rest := Split(s[i + 1..], sep);
      assert s == s[..i] + [sep] + s[i + 1..];
      [s[..i]] + rest
  }

  /** `split` undoes `join` when no piece contains the separator. */
  lemma {:induction false} SplitJoin(parts: seq<string>, sep: char)
    requires |parts| >= 1
    requires forall i | 0 <= i < |parts| :: sep !in parts[i]
    ensures Split(Join([sep], parts), sep) == parts
    decreases |parts|
  {
    var s := Join([sep], parts);
    if |parts| == 1 {
      assert IndexOf(s, sep).None?;
    } else {
      var tail := Join([sep], parts[1..]);
      assert s == parts[0] + [sep] + tail;
      var k := |parts[0]|;
      assert s[k] == sep;
      assert s[..k] == parts[0];
      IndexOfFirst(s, sep, k);
      assert s[k + 1..] == tail;
      SplitJoin(parts[1..], sep);
    }
  }

  /** Python's `s.split(sep, maxsplit=1)`: the text before the first separator and, if there is one, the rest. */
  function SplitOnce(s: string, sep: char): (r: (string, Option<string>))
    ensures r.1.None? ==> r.0 == s && sep !in s
    ensures r.1.Some? ==> s == r.0 + [sep] + r.1.value && sep !in r.0
  {
    match IndexOf(s, sep)
    case None => (s, None)
    case Some(i) => (s[..i], Some(s[i + 1..]))
  }

  /** Splitting at the first separator of `x + [sep] + y` gives `x` and `y` when `x` has no separator. */
  lemma SplitOnceAt(x: string, sep: char, y: string)
    requires sep !in x
    ensures SplitOnce(x + [sep] + y, sep) == (x, Some(y))
  {
    var s := x + [sep] + y;
    assert s[..|x|] == x;
    IndexOfFirst(s, sep, |x|);
    assert s[|x| + 1..] == y;
  }

  /** `sub in s` for strings: `sub` occurs as a contiguous slice of `s`. */
  predicate Contains(s: string, sub: string) {
    exists i | 0 <= i <= |s| :: sub <= s[i..]
  }

  lemma ContainsPrefix(s: string, sub: string)
    requires sub <= s
    ensures Contains(s, sub)
  {
    assert s[0..] == s;
  }

  /** Text placed between two others occurs in the whole. */
  lemma ContainsMiddle(a: string, b: string, c: string)
    ensures Contains(a + b + c, b)
  {
    var s := a + b + c;
    assert b <= s[|a|..];
  }

  /** Text after more text still occurs in the whole. */
  lemma ContainsPrepend(a: string, s: string, sub: string)
    requires Contains(s, sub)
    ensures Contains(a + s, sub)
  {
    var i :| 0 <= i <= |s| && sub <= s[i..];
    assert (a + s)[|a| + i..] == s[i..];
  }

  /** Text followed by more text still occurs in the whole. */
  lemma ContainsExtend(s: string, b: string, sub: string)
    requires Contains(s, sub)
    ensures Contains(s + b, sub)
  {
    var i :| 0 <= i <= |s| && sub <= s[i..];
    assert (s + b)[i..] == s[i..] + b;
  }

  /** Each piece occurs in the joined text. */
  lemma {:induction false} JoinContains(sep: string, parts: seq<string>, i: nat)
    requires i < |parts|
    ensures Contains(Join(sep, parts), parts[i])
    decreases |parts|
  {
    if |parts| == 1 {
      ContainsPrefix(parts[0], parts[0]);
    } else if i == 0 {
      ContainsPrefix(Join(sep, parts), parts[0]);
    } else {
      JoinContains(sep, parts[1..], i - 1);
      assert Join(sep, parts) == (parts[0] + sep) + Join(sep, parts[1..]);
      ContainsPrepend(parts[0] + sep, Join(sep, parts[1..]), parts[i]);
    }
  }

  /** Python's `s.replace(pat, "")`: removes the non-overlapping occurrences of `pat`, scanning left to right. */
  function RemoveAll(s: string, pat: string): (r: string)
    requires |pat| > 0
    ensures |r| <= |s|
    decreases |s|
  {
    if |s| == 0 then ""
    else if pat <= s then RemoveAll(s[|pat|..], pat)
    else [s[0]] + RemoveAll(s[1..], pat)
  }

  /** Removing a pattern that does not occur changes nothing. */
  lemma {:induction false} RemoveAllAbsent(s: string, pat: string)
    requires |pat| > 0 && !Contains(s, pat)
    ensures RemoveAll(s, pat) == s
    decreases |s|
  {
    if |s| > 0 {
      assert s[0..] == s;
      forall i | 0 <= i <= |s| - 1
        ensures !(pat <= s[1..][i..])
      {
        assert s[1..][i..] == s[i + 1..];
      }
      RemoveAllAbsent(s[1..], pat);
    }
  }

  /** Removing a pattern that starts with `m` leaves every prefix free of `m` untouched. */
  lemma {:induction false} RemoveAllPrefix(a: string, b: string, pat: string)
    requires |pat| > 0 && pat[0] !in a
    ensures RemoveAll(a + b, pat) == a + RemoveAll(b, pat)
    decreases |a|
  {
    if |a| > 0 {
      assert (a + b)[0] == a[0] != pat[0];
      assert !(pat <= a + b);
      assert (a + b)[1..] == a[1..] + b;
      RemoveAllPrefix(a[1..], b, pat);
    } else {
      assert a + b == b;
    }
  }

  /** ASCII lower-casing of one character. */
  function LowerChar(c: char): char {
    if 'A' <= c <= 'Z' then (c as int + 32) as char else c
  }

  /** `s.lower()` restricted to ASCII letters. */
  function Lower(s: string): (r: string)
    ensures |r| == |s|
    ensures forall i | 0 <= i < |s| :: r[i] == LowerChar(s[i])
  {
    if |s| == 0 then "" else [LowerChar(s[0])] + Lower(s[1..])
  }

  /** `t` starts the lower-cased `s` when each of its characters is the lower-cased one of `s` at that place. */
  lemma LowerPrefix(s: string, t: string)
    requires |t| <= |s|
    requires forall i | 0 <= i < |t| :: LowerChar(s[i]) == t[i]
    ensures t <= Lower(s)
  {
  }

  predicate IsDigit(c: char) {
    '0' <= c <= '9'
  }

  function DigitValue(c: char): (d: nat)
    requires IsDigit(c)
    ensures d < 10
  {
    c as int - '0' as int
  }

  function DigitChar(d: nat): (c: char)
    requires d < 10
    ensures IsDigit(c) && DigitValue(c) == d
  {
    ('0' as int + d) as char
  }

  /** Decimal digits of a natural number, most significant first, without leading zeros. */
  function NatToString(n: nat): (r: string)
    ensures |r| >= 1
    ensures forall i | 0 <= i < |r| :: IsDigit(r[i])
  {
    if n < 10 then [DigitChar(n)] else NatToString(n / 10) + [DigitChar(n % 10)]
  }

  /** Python's `str(n)` for an integer. */
  function IntToString(n: int): (r: string)
    ensures |r| >= 1
    ensures r[0] == '-' || IsDigit(r[0])
    ensures forall i | 1 <= i < |r| :: IsDigit(r[i])
  {
    if n < 0 then "-" + NatToString(-n) else NatToString(n)
  }

  /** The value of a string of decimal digits. */
  function DigitsValue(ds: string): nat
    requires forall i | 0 <= i < |ds| :: IsDigit(ds[i])
  {
    if |ds| == 0 then 0
    else DigitsValue(ds[..|ds| - 1]) * 10 + DigitValue(ds[|ds| - 1])
  }

  predicate AllDigits(s: string) {
    forall i | 0 <= i < |s| :: IsDigit(s[i])
  }

  /**
   * Python's `int(s)` on a string: surrounding whitespace, an optional sign and
   * at least one ASCII digit. `None` is the `ValueError` case.
   */
  function ParseInt(s: string): Option<int> {
    ParseSigned(Strip(s))
  }

  /** `int()` on text without surrounding whitespace: an optional sign, then digits. */
  function ParseSigned(t: string): Option<int> {
    if |t| > 0 && (t[0] == '-' || t[0] == '+') then
      var ds := t[1..];
      if |ds| > 0 && AllDigits(ds) then
        var v: int := if t[0] == '-' then -(DigitsValue(ds) as int) else DigitsValue(ds);
        Some(v)
      else None
    else if |t| > 0 && AllDigits(t) then Some(DigitsValue(t))
    else None
  }

  lemma {:induction false} NatToStringValue(n: nat)
    ensures DigitsValue(NatToString(n)) == n
  {
    if n >= 10 {
      var s := NatToString(n);
      assert s[..|s| - 1] == NatToString(n / 10);
      NatToStringValue(n / 10);
    }
  }

  /** `int(str(n)) == n`. */
  lemma IntToStringRoundTrip(n: int)
    ensures ParseInt(IntToString(n)) == Some(n)
  {
    IntToStringTrimmed(n);
    StripTrimmed(IntToString(n));
    SignedRoundTrip(n);
  }

  /** The sign and digits `str(n)` writes are read back as `n`. */
  lemma SignedRoundTrip(n: int)
    ensures ParseSigned(IntToString(n)) == Some(n)
  {
    var s := IntToString(n);
    if n < 0 {
      var ds := NatToString(-n);
      assert s == "-" + ds && s[1..] == ds;
      assert AllDigits(ds);
      NatToStringValue(-n);
    } else {
      var ds := NatToString(n);
      assert s == ds && AllDigits(ds);
      assert s[0] != '-' && s[0] != '+';
      NatToStringValue(n);
    }
  }

  /** `str` is injective on integers. */
  lemma IntToStringInjective(a: int, b: int)
    requires IntToString(a) == IntToString(b)
    ensures a == b
  {
    IntToStringRoundTrip(a);
    IntToStringRoundTrip(b);
  }

  /** The decimal text of an integer has no whitespace, so it is already stripped. */
  lemma IntToStringTrimmed(n: int)
    ensures Trimmed(IntToString(n))
  {
  }

  /** `str(n).strip() == str(n)`. */
  lemma IntToStringStripped(n: int)
    ensures Strip(IntToString(n)) == IntToString(n)
  {
    IntToStringTrimmed(n);
    StripTrimmed(IntToString(n));
  }
}

=== FILE: utils.dfy ===
/** Human-readable durations (`plural`, `duration`) and the "Starts in / Ends in" countdown line. */
module Utils {
  import Text

  /** `plural(n)`: the suffix that follows a count of `n` units. */
  function Plural(n: int): (r: string)
    ensures r == "" <==> n == 1
    ensures r == "" || r == "s"
  {
    if n == 1 then "" else "s"
  }

  datatype Unit = Day | Hour | Minute | Second

  function UnitSeconds(u: Unit): nat {
    match u
    case Day => 24 * 60 * 60
    case Hour => 60 * 60
    case Minute => 60
    case Second => 1
  }

  function UnitName(u: Unit): string {
    match u
    case Day => "day"
    case Hour => "hour"
    case Minute => "minute"
    case Second => "second"
  }

  /** Position of a unit in the order the text lists them. */
  function UnitRank(u: Unit): nat {
    match u
    case Day => 0
    case Hour => 1
    case Minute => 2
    case Second => 3
  }

  datatype Parts = Parts(days: int, hours: int, minutes: int, seconds: int)

  function PartsTotal(p: Parts): int {
    p.days * UnitSeconds(Day) + p.hours * UnitSeconds(Hour) + p.minutes * UnitSeconds(Minute) + p.seconds
  }

  ghost predicate Normal(p: Parts) {
    0 <= p.hours < 24 && 0 <= p.minutes < 60 && 0 <= p.seconds < 60
  }

  /**
   * The successive floor divisions and modulos of `duration`. Python's `//`
   * and `%` by a positive divisor agree with Dafny's Euclidean ones, so a
   * negative total gives negative days and non-negative smaller units.
   */
  function Decompose(total: int): (p: Parts)
    ensures PartsTotal(p) == total
    ensures Normal(p)
  {
    var days := total / (24 * 60 * 60);
    var s1 := total % (24 * 60 * 60);
    var hours := s1 / (60 * 60);
    var s2 := s1 % (60 * 60);
    Parts(days, hours, s2 / 60, s2 % 60)
  }

  /** The decomposition is the only one with hours, minutes and seconds in range. */
  lemma DecomposeUnique(total: int, p: Parts)
    requires PartsTotal(p) == total && Normal(p)
    ensures p == Decompose(total)
  {
    var q := Decompose(total);
    var rp := p.hours * 3600 + p.minutes * 60 + p.seconds;
    var rq := q.hours * 3600 + q.minutes * 60 + q.seconds;
    assert 0 <= rp < 86400 && 0 <= rq < 86400;
    assert (p.days - q.days) * 86400 == rq - rp;
    assert p.days == q.days;
    assert (p.hours - q.hours) * 3600 == (q.minutes * 60 + q.seconds) - (p.minutes * 60 + p.seconds);
    assert p.hours == q.hours;
    assert (p.minutes - q.minutes) * 60 == q.seconds - p.seconds;
  }

  /** The only normal decomposition of zero seconds is all zeros. */
  lemma ZeroParts(p: Parts)
    requires PartsTotal(p) == 0 && Normal(p)
    ensures p == Parts(0, 0, 0, 0)
  {
    var rest := p.hours * 3600 + p.minutes * 60 + p.seconds;
    assert 0 <= rest < 86400;
    assert p.days == 0;
    assert p.minutes * 60 + p.seconds < 3600;
    assert p.hours == 0;
  }

  /** The unit listed at position `k`. */
  function UnitAt(k: nat): (u: Unit)
    requires k < 4
    ensures UnitRank(u) == k
  {
    if k == 0 then Day else if k == 1 then Hour else if k == 2 then Minute else Second
  }

  function Count(p: Parts, u: Unit): int {
    match u
    case Day => p.days
    case Hour => p.hours
    case Minute => p.minutes
    case Second => p.seconds
  }

  /** Seconds accounted for by the units at positions `k` and later. */
  function TotalFrom(p: Parts, k: nat): int
    requires k <= 4
    decreases 4 - k
  {
    if k == 4 then 0 else Count(p, UnitAt(k)) * UnitSeconds(UnitAt(k)) + TotalFrom(p, k + 1)
  }

  function UnitsTotal(us: seq<(int, Unit)>): int {
    if |us| == 0 then 0 else us[0].0 * UnitSeconds(us[0].1) + UnitsTotal(us[1..])
  }

  /** The non-zero units at positions `k` and later, in order. */
  function UnitsFrom(p: Parts, k: nat): (r: seq<(int, Unit)>)
    requires k <= 4
    ensures |r| <= 4 - k
    ensures forall i | 0 <= i < |r| :: r[i].0 != 0 && UnitRank(r[i].1) >= k
    ensures forall i | 0 <= i < |r| - 1 :: UnitRank(r[i].1) < UnitRank(r[i + 1].1)
    ensures UnitsTotal(r) == TotalFrom(p, k)
    decreases 4 - k
  {
    if k == 4 then []
    else
      var u := UnitAt(k);
      var rest := UnitsFrom(p, k + 1);
      if Count(p, u) != 0 then
        assert ([(Count(p, u), u)] + rest)[1..] == rest;
        [(Count(p, u), u)] + rest
      else rest
  }

  lemma NoUnitsOfZero()
    ensures UnitsFrom(Parts(0, 0, 0, 0), 0) == []
  {
    var p := Parts(0, 0, 0, 0);
    assert UnitsFrom(p, 3) == [];
    assert UnitsFrom(p, 2) == [];
    assert UnitsFrom(p, 1) == [];
  }

  /** The non-zero units of a duration, largest first; together they add up to the duration. */
  function Units(total: int): (r: seq<(int, Unit)>)
    ensures |r| <= 4
    ensures forall i | 0 <= i < |r| :: r[i].0 != 0
    ensures forall i | 0 <= i < |r| - 1 :: UnitRank(r[i].1) < UnitRank(r[i + 1].1)
    ensures UnitsTotal(r) == total
    ensures r == [] <==> total == 0
  {
    var p := Decompose(total);
    assert TotalFrom(p, 0) == PartsTotal(p);
    var r := UnitsFrom(p, 0);
    assert total == 0 ==> r == [] by {
      if total == 0 {
        ZeroParts(p);
        NoUnitsOfZero();
      }
    }
    r
  }

  function RenderUnits(us: seq<(int, Unit)>): (r: seq<string>)
    ensures |r| == |us|
    ensures forall i | 0 <= i < |us| :: r[i] == RenderUnit(us[i])
  {
    if |us| == 0 then [] else [RenderUnit(us[0])] + RenderUnits(us[1..])
  }

  /** One unit as text: `"<n> <unit>"` plus the plural suffix. */
  function RenderUnit(u: (int, Unit)): string {
    Text.IntToString(u.0) + " " + UnitName(u.1) + Plural(u.0)
  }

  /** `duration(td)` for a whole number of seconds: at most the two largest non-zero units. */
  function Duration(total: int): (r: string)
    ensures |Units(total)| == 0 ==> r == ""
    ensures |Units(total)| == 1 ==> r == RenderUnit(Units(total)[0])
    ensures |Units(total)| >= 2 ==> r == RenderUnit(Units(total)[0]) + " " + RenderUnit(Units(total)[1])
  {
    var us := Units(total);
    var shown := if |us| <= 2 then us else us[..2];
    var pieces := RenderUnits(shown);
    if |us| >= 2 then
      assert pieces == [RenderUnit(us[0]), RenderUnit(us[1])];
      Text.JoinTwo(" ", pieces[0], pieces[1]);
      Text.Join(" ", pieces)
    else Text.Join(" ", pieces)
  }

  /** A rendered unit shows its count and the plural suffix exactly when the count is not one. */
  lemma RenderUnitShape(u: (int, Unit))
    ensures Text.IntToString(u.0) <= RenderUnit(u)
    ensures (RenderUnit(u)[|RenderUnit(u)| - 1] == 's') <==> u.0 != 1
  {
    var body := Text.IntToString(u.0) + " " + UnitName(u.1);
    assert RenderUnit(u) == body + Plural(u.0);
    assert body[|body| - 1] != 's';
  }

  /** The duration text is empty exactly for a zero duration. */
  lemma DurationEmptyIff(total: int)
    ensures Duration(total) == "" <==> total == 0
  {
    var us := Units(total);
    if total != 0 {
      var shown := if |us| <= 2 then us else us[..2];
      var pieces := RenderUnits(shown);
      assert pieces[0] == RenderUnit(shown[0]);
      Text.JoinNonEmpty(" ", pieces);
    }
  }

  /** A countdown to a contest's start, or to its end once it has started. */
  datatype Countdown = StartsIn(seconds: int) | EndsIn(seconds: int)

  /** The countdown chosen from `now`: `Starts in` strictly before the start, `Ends in` from the start on. */
  function CountdownAt(now: int, start: int, end: int): (c: Countdown)
    ensures c.StartsIn? <==> now < start
    ensures c.StartsIn? ==> c.seconds > 0 && now + c.seconds == start
    ensures c.EndsIn? ==> now + c.seconds == end
  {
    if now < start then StartsIn(start - now) else EndsIn(end - now)
  }

  const StartsInText := "Starts in "
  const EndsInText := "Ends in "

  /** The countdown line: which event is counted down to, then the time left. */
  function CountdownText(c: Countdown): (r: string)
    ensures c.StartsIn? ==> StartsInText <= r && r[|StartsInText|..] == Duration(c.seconds)
    ensures c.EndsIn? ==> EndsInText <= r && r[|EndsInText|..] == Duration(c.seconds)
  {
    match c
    case StartsIn(s) => StartsInText + Duration(s)
    case EndsIn(s) => EndsInText + Duration(s)
  }
}

=== FILE: verification.dfy ===
/**
 * Handle verification: a pending record per user asks them to submit to a
 * given problem; a check, repeated every 30 seconds, binds the handle once a
 * recent submission to that problem shows up, and gives up after twenty
 * checks. Three deployments share the flow; they differ in the team filter,
 * in announcing the handle list, and in how the next check is scheduled.
 */
module Verification {
  import opened Wrappers
  import opened Errors
  import Text
  import Collections
  import opened CfModels

  /** A proving submission must be at most ten minutes old. */
  const Window := 10 * 60

  /** A record is checked again while its count is below this. */
  const RecheckLimit := 19

  /** Seconds between two checks. */
  const RecheckDelay := 30

  /** The submission is to the problem and, where teams are refused, by a single user. */
  predicate ToProblem(s: Submission, problemId: string, teamsAllowed: bool) {
    ProblemId(s.problem) == problemId && (teamsAllowed || NotTeam(s.author))
  }

  predicate Recent(s: Submission, now: int) {
    now - s.creationTimeSeconds <= Window
  }

  /**
   * `verify`: keep the submissions to the problem (dropping team ones where
   * teams are refused) and ask whether any is recent. The verdict plays no part.
   */
  function Verify(status: seq<Submission>, problemId: string, now: int, teamsAllowed: bool): (r: bool)
    ensures r <==> exists i | 0 <= i < |status| ::
      ToProblem(status[i], problemId, teamsAllowed) && Recent(status[i], now)
  {
    var candidates := Collections.Filter(status, (s: Submission) => ToProblem(s, problemId, teamsAllowed));
    var r := Collections.Any(candidates, (s: Submission) => Recent(s, now));
    assert r ==> exists i | 0 <= i < |status| :: ToProblem(status[i], problemId, teamsAllowed) && Recent(status[i], now) by {
      if r {
        var j :| 0 <= j < |candidates| && Recent(candidates[j], now);
        var i :| 0 <= i < |status| && status[i] == candidates[j];
      }
    }
    r
  }

  /** Changing the verdict of a submission never changes the answer. */
  lemma VerdictIgnored(status: seq<Submission>, k: nat, verdict: Option<string>, problemId: string, now: int, teamsAllowed: bool)
    requires k < |status|
    ensures Verify(status[k := status[k].(verdict := verdict)], problemId, now, teamsAllowed)
         == Verify(status, problemId, now, teamsAllowed)
  {
    var changed := status[k := status[k].(verdict := verdict)];
    forall i | 0 <= i < |status|
      ensures Proves(changed[i], problemId, now, teamsAllowed) == Proves(status[i], problemId, now, teamsAllowed)
    {
      assert changed[i].problem == status[i].problem && changed[i].author == status[i].author;
      assert changed[i].creationTimeSeconds == status[i].creationTimeSeconds;
    }
    assert Verify(changed, problemId, now, teamsAllowed) == Verify(status, problemId, now, teamsAllowed) by {
      VerifyIsProves(changed, problemId, now, teamsAllowed);
      VerifyIsProves(status, problemId, now, teamsAllowed);
    }
  }

  /** The submission proves the claim. */
  predicate Proves(s: Submission, problemId: string, now: int, teamsAllowed: bool) {
    ToProblem(s, problemId, teamsAllowed) && Recent(s, now)
  }

  lemma VerifyIsProves(status: seq<Submission>, problemId: string, now: int, teamsAllowed: bool)
    ensures Verify(status, problemId, now, teamsAllowed) <==> exists i | 0 <= i < |status| :: Proves(status[i], problemId, now, teamsAllowed)
  {
  }

  /** Refusing team submissions can only turn a success into a failure, and changes nothing when no submission is a team's. */
  lemma TeamFilterStronger(status: seq<Submission>, problemId: string, now: int)
    ensures Verify(status, problemId, now, false) ==> Verify(status, problemId, now, true)
    ensures (forall i | 0 <= i < |status| :: NotTeam(status[i].author)) ==>
      Verify(status, problemId, now, false) == Verify(status, problemId, now, true)
  {
  }

  /** The `user_id` field of a check request: a user id, or, when wrapped once more, an object holding one. */
  datatype Payload = UserId(id: int) | Wrapped(inner: Payload)

  /** `str(user_id)`: the document key the check looks up. */
  function DocKey(p: Payload): (k: string)
    ensures |k| > 0
  {
    match p
    case UserId(id) => Text.IntToString(id)
    case Wrapped(inner) => "{'user_id': " + DocKey(inner) + "}"
  }

  /** A wrapped payload never names the record of any user. */
  lemma WrappedKeyIsNoUserKey(inner: Payload, id: int)
    ensures DocKey(Wrapped(inner)) != Text.IntToString(id)
  {
    assert DocKey(Wrapped(inner))[0] == '{';
  }

  /** A pending verification: the handle claimed, the problem to submit to, where to reply, and the checks done. */
  datatype Pending = Pending(handle: string, problemId: string, chatId: int, messageId: int, count: int)

  /** The pending records and the handle bindings, both keyed by the user id as text. */
  datatype Db = Db(pending: map<string, Pending>, bindings: map<string, string>)

  /** Records are only ever created under a user id, so no key starts with `{`. */
  predicate UserKeyed(db: Db) {
    forall k | k in db.pending :: |k| > 0 && k[0] != '{'
  }

  /** What a check asks of the outside world. */
  datatype Effect =
    | Reply(chatId: int, messageId: int, text: string)
    | ApproveJoin(user: Payload)
    | PostHandles(handles: set<string>)
    | Schedule(payload: Payload, at: int)

  datatype Checked = Checked(db: Db, effects: seq<Effect>, answer: string)

  /** The three deployments of the check. */
  datatype Deployment = TgbotFunctions | GcpMain | Standalone

  const DocDeleted := "doc was deleted"
  const Successful := "verification successful"
  const StillPending := "pending verification"
  const Failed := "verification failed"

  function SuccessText(handle: string): string {
    "驗證成功，你的 codeforces handle 為 " + handle
  }

  const FailureText := "驗證失敗"

  /** The standalone deployment refuses team submissions; the others accept them. */
  predicate TeamsAllowed(d: Deployment) {
    d != Standalone
  }

  /** Only the standalone deployment leaves the update service's handle list alone. */
  predicate PostsHandles(d: Deployment) {
    d != Standalone
  }

  /**
   * What a check does with the record under `key` once `verify` has
   * answered; `next` is what the rescheduled check will carry.
   */
  function Decide(d: Deployment, db: Db, key: string, incoming: Payload, verified: bool, now: int, next: Payload): (r: Checked)
    requires key in db.pending
    ensures r.answer == Successful <==> verified
    ensures r.answer == Successful ==>
      && r.db == Db(db.pending - {key}, db.bindings[key := db.pending[key].handle])
      && ApproveJoin(incoming) in r.effects
      && Reply(db.pending[key].chatId, db.pending[key].messageId, SuccessText(db.pending[key].handle)) in r.effects
      && (PostsHandles(d) <==> PostHandles(r.db.bindings.Values) in r.effects)
    ensures r.answer == StillPending <==> !verified && db.pending[key].count < RecheckLimit
    ensures r.answer == StillPending ==>
      && r.db == db.(pending := db.pending[key := db.pending[key].(count := db.pending[key].count + 1)])
      && r.effects == [Schedule(next, now + RecheckDelay)]
    ensures r.answer == Failed <==> !verified && db.pending[key].count >= RecheckLimit
    ensures r.answer == Failed ==>
      && r.db == db.(pending := db.pending - {key})
      && r.effects == [Reply(db.pending[key].chatId, db.pending[key].messageId, FailureText)]
  {
    var rec := db.pending[key];
    if verified then
      var db' := Db(db.pending - {key}, db.bindings[key := rec.handle]);
      var told := [Reply(rec.chatId, rec.messageId, SuccessText(rec.handle)), ApproveJoin(incoming)];
      var effects := if PostsHandles(d) then told + [PostHandles(db'.bindings.Values)] else told;
      assert PostHandles(db'.bindings.Values) !in told;
      Checked(db', effects, Successful)
    else if rec.count < RecheckLimit then
      Checked(db.(pending := db.pending[key := rec.(count := rec.count + 1)]), [Schedule(next, now + RecheckDelay)], StillPending)
    else
      Checked(db.(pending := db.pending - {key}), [Reply(rec.chatId, rec.messageId, FailureText)], Failed)
  }

  /** The submission list of a handle, as `get_status(handle, count=10)` answers it. */
  type StatusFetch = string -> Result<seq<Submission>, Exception>

  /**
   * `cf_verification`: look up the record named by the payload; a missing
   * record ends the chain; otherwise fetch the handle's submissions and decide.
   * An exception from the fetch escapes before anything is written.
   */
  function CheckWith(d: Deployment, db: Db, incoming: Payload, status: StatusFetch, now: int, next: Payload)
    : (r: Result<Checked, Exception>)
    ensures DocKey(incoming) !in db.pending ==> r == Success(Checked(db, [], DocDeleted))
    ensures r.Failure? <==> DocKey(incoming) in db.pending && status(db.pending[DocKey(incoming)].handle).Failure?
    ensures r.Success? && DocKey(incoming) in db.pending ==>
      var rec := db.pending[DocKey(incoming)];
      r.value == Decide(d, db, DocKey(incoming), incoming,
                        Verify(status(rec.handle).value, rec.problemId, now, TeamsAllowed(d)), now, next)
  {
    var key := DocKey(incoming);
    if key !in db.pending then Success(Checked(db, [], DocDeleted))
    else
      var rec := db.pending[key];
      var submissions :- status(rec.handle);
      Success(Decide(d, db, key, incoming, Verify(submissions, rec.problemId, now, TeamsAllowed(d)), now, next))
  }

  /** The payload the rescheduled check carries: the incoming one, handed on unchanged. */
  function Rescheduled(incoming: Payload): Payload {
    incoming
  }

  /**
   * The payload as the code schedules it: `tgbot/functions.py` passes an
   * object `{"user_id": user_id}` where `schedule_task` expects the id, and
   * `schedule_task` wraps what it gets once more.
   */
  function RescheduledAsWritten(d: Deployment, incoming: Payload): Payload {
    if d == TgbotFunctions then Wrapped(incoming) else incoming
  }

  /** One check, rescheduling with the same payload. */
  function Check(d: Deployment, db: Db, incoming: Payload, status: StatusFetch, now: int): (r: Result<Checked, Exception>)
    ensures r.Success? && r.value.answer == StillPending ==> r.value.effects == [Schedule(incoming, now + RecheckDelay)]
  {
    CheckWith(d, db, incoming, status, now, Rescheduled(incoming))
  }

  /** One check as the code schedules the next one. */
  function CheckAsWritten(d: Deployment, db: Db, incoming: Payload, status: StatusFetch, now: int): (r: Result<Checked, Exception>)
    ensures r.Success? && r.value.answer == StillPending ==>
      r.value.effects == [Schedule(RescheduledAsWritten(d, incoming), now + RecheckDelay)]
  {
    CheckWith(d, db, incoming, status, now, RescheduledAsWritten(d, incoming))
  }

  /** The payload of the check a check scheduled, if it scheduled one. */
  function NextCheck(effects: seq<Effect>): (r: Option<Payload>)
    ensures r.Some? ==> exists at :: Schedule(r.value, at) in effects
  {
    if |effects| == 0 then None
    else if effects[0].Schedule? then Some(effects[0].payload)
    else NextCheck(effects[1..])
  }

  /**
   * The answers of a chain of at most `n` checks, each run as the queued job the
   * previous one scheduled 30 seconds later, and the store after the last.
   */
  function Follow(d: Deployment, asWritten: bool, db: Db, p: Payload, n: nat, status: StatusFetch, now: int)
    : (r: (seq<string>, Db))
    ensures |r.0| <= n
    ensures r.0 == [] ==> r.1 == db
    ensures n > 0 ==>
      var step := if asWritten then CheckAsWritten(d, db, p, status, now) else Check(d, db, p, status, now);
      (step.Success? <==> r.0 != []) && (step.Success? ==> r.0[0] == step.value.answer)
    decreases n
  {
    if n == 0 then ([], db)
    else
      var step := if asWritten then CheckAsWritten(d, db, p, status, now) else Check(d, db, p, status, now);
      match step
      case Failure(_) => ([], db)
      case Success(c) =>
        match NextCheck(c.effects)
        case None => ([c.answer], c.db)
        case Some(q) =>
          var rest := Follow(d, asWritten, c.db, q, n - 1, status, now + RecheckDelay);
          ([c.answer] + rest.0, rest.1)
  }

  /** `n` copies of `s`. */
  function Repeat(s: string, n: nat): (r: seq<string>)
    ensures |r| == n
    ensures forall i | 0 <= i < n :: r[i] == s
  {
    if n == 0 then [] else [s] + Repeat(s, n - 1)
  }

  /** The handle's submissions never include one to the problem. */
  predicate NeverSubmits(status: StatusFetch, handle: string, problemId: string) {
    && status(handle).Success?
    && forall i | 0 <= i < |status(handle).value| :: ProblemId(status(handle).value[i].problem) != problemId
  }

  /** A check of a user who never submits to the problem is a failed verification. */
  lemma UnprovenCheck(d: Deployment, db: Db, id: int, status: StatusFetch, now: int)
    requires Text.IntToString(id) in db.pending
    requires NeverSubmits(status, db.pending[Text.IntToString(id)].handle, db.pending[Text.IntToString(id)].problemId)
    ensures Check(d, db, UserId(id), status, now)
         == Success(Decide(d, db, Text.IntToString(id), UserId(id), false, now, UserId(id)))
  {
    var rec := db.pending[Text.IntToString(id)];
    assert DocKey(UserId(id)) == Text.IntToString(id);
    assert !Verify(status(rec.handle).value, rec.problemId, now, TeamsAllowed(d));
  }

  /** One step of a chain of corrected checks. */
  lemma FollowStep(d: Deployment, db: Db, p: Payload, n: nat, status: StatusFetch, now: int, c: Checked)
    requires n > 0 && Check(d, db, p, status, now) == Success(c)
    ensures Follow(d, false, db, p, n, status, now)
         == if NextCheck(c.effects).None? then ([c.answer], c.db)
            else
              var rest := Follow(d, false, c.db, NextCheck(c.effects).value, n - 1, status, now + RecheckDelay);
              ([c.answer] + rest.0, rest.1)
  {
  }

  /**
   * A user who never submits to the problem is checked until the count
   * reaches the limit: from count `c`, `19 - c` checks answer "pending" and
   * the next one fails and deletes the record.
   */
  lemma {:induction false} ExpiresAfterTwentyChecks(d: Deployment, db: Db, id: int, n: nat, status: StatusFetch, now: int)
    requires Text.IntToString(id) in db.pending
    requires 0 <= db.pending[Text.IntToString(id)].count <= RecheckLimit
    requires NeverSubmits(status, db.pending[Text.IntToString(id)].handle, db.pending[Text.IntToString(id)].problemId)
    requires n >= RecheckLimit + 1 - db.pending[Text.IntToString(id)].count
    ensures Follow(d, false, db, UserId(id), n, status, now)
         == (Repeat(StillPending, RecheckLimit - db.pending[Text.IntToString(id)].count) + [Failed],
             db.(pending := db.pending - {Text.IntToString(id)}))
    decreases RecheckLimit - db.pending[Text.IntToString(id)].count
  {
    var key := Text.IntToString(id);
    var rec := db.pending[key];
    UnprovenCheck(d, db, id, status, now);
    var c := Decide(d, db, key, UserId(id), false, now, UserId(id));
    FollowStep(d, db, UserId(id), n, status, now, c);
    if rec.count < RecheckLimit {
      assert NextCheck(c.effects) == Some(UserId(id)) by {
        assert c.effects == [Schedule(UserId(id), now + RecheckDelay)];
      }
      assert c.db.pending[key].count == rec.count + 1;
      ExpiresAfterTwentyChecks(d, c.db, id, n - 1, status, now + RecheckDelay);
      assert c.db.(pending := c.db.pending - {key}) == db.(pending := db.pending - {key}) by {
        assert c.db.pending - {key} == db.pending - {key};
      }
      var later := Repeat(StillPending, RecheckLimit - rec.count - 1);
      assert [StillPending] + (later + [Failed]) == ([StillPending] + later) + [Failed];
      assert [StillPending] + later == Repeat(StillPending, RecheckLimit - rec.count);
    } else {
      assert NextCheck(c.effects) == None by {
        assert c.effects == [Reply(rec.chatId, rec.messageId, FailureText)];
        assert c.effects[1..] == [];
      }
      assert Repeat(StillPending, RecheckLimit - rec.count) + [Failed] == [Failed];
    }
  }

  /** A fresh record of a user who never submits gets exactly twenty checks: nineteen "pending", then "failed". */
  lemma TwentyChecksAtMost(d: Deployment, db: Db, id: int, n: nat, status: StatusFetch, now: int)
    requires Text.IntToString(id) in db.pending && db.pending[Text.IntToString(id)].count == 0
    requires NeverSubmits(status, db.pending[Text.IntToString(id)].handle, db.pending[Text.IntToString(id)].problemId)
    requires n >= 20
    ensures |Follow(d, false, db, UserId(id), n, status, now).0| == 20
    ensures Follow(d, false, db, UserId(id), n, status, now).0[19] == Failed
    ensures Text.IntToString(id) !in Follow(d, false, db, UserId(id), n, status, now).1.pending
  {
    ExpiresAfterTwentyChecks(d, db, id, n, status, now);
  }

  /**
   * As written, `tgbot/functions.py` stalls: the rescheduled check carries a
   * wrapped id, finds no record under that key, and answers "doc was
   * deleted"; the record stays pending with its count raised by one and is
   * never checked again.
   */
  lemma AsWrittenStallsAfterOneCheck(db: Db, id: int, n: nat, status: StatusFetch, now: int)
    requires UserKeyed(db)
    requires Text.IntToString(id) in db.pending && db.pending[Text.IntToString(id)].count < RecheckLimit
    requires NeverSubmits(status, db.pending[Text.IntToString(id)].handle, db.pending[Text.IntToString(id)].problemId)
    requires n >= 2
    ensures var r := Follow(TgbotFunctions, true, db, UserId(id), n, status, now);
      && r.0 == [StillPending, DocDeleted]
      && Text.IntToString(id) in r.1.pending
      && r.1.pending[Text.IntToString(id)].count == db.pending[Text.IntToString(id)].count + 1
  {
    var c := AsWrittenFirstCheck(db, id, status, now);
    var q := Wrapped(UserId(id));
    assert DocKey(q) !in c.db.pending by {
      assert DocKey(q)[0] == '{';
    }
    var second := CheckAsWritten(TgbotFunctions, c.db, q, status, now + RecheckDelay);
    assert second == Success(Checked(c.db, [], DocDeleted));
    assert NextCheck([]) == None;
  }

  /**
   * The first check of that chain: the handle has not solved the problem, so
   * the record's count goes up by one and the next check is queued with the
   * id wrapped once more.
   */
  lemma AsWrittenFirstCheck(db: Db, id: int, status: StatusFetch, now: int) returns (c: Checked)
    requires UserKeyed(db)
    requires Text.IntToString(id) in db.pending && db.pending[Text.IntToString(id)].count < RecheckLimit
    requires NeverSubmits(status, db.pending[Text.IntToString(id)].handle, db.pending[Text.IntToString(id)].problemId)
    ensures CheckAsWritten(TgbotFunctions, db, UserId(id), status, now) == Success(c)
    ensures c.answer == StillPending && NextCheck(c.effects) == Some(Wrapped(UserId(id)))
    ensures c.db.pending.Keys == db.pending.Keys && UserKeyed(c.db)
    ensures c.db.pending[Text.IntToString(id)].count == db.pending[Text.IntToString(id)].count + 1
  {
    var key := Text.IntToString(id);
    var rec := db.pending[key];
    assert DocKey(UserId(id)) == key;
    assert !Verify(status(rec.handle).value, rec.problemId, now, TeamsAllowed(TgbotFunctions));
    c := CheckAsWritten(TgbotFunctions, db, UserId(id), status, now).value;
    assert c.answer == StillPending;
    assert NextCheck(c.effects) == Some(Wrapped(UserId(id)));
  }
}

=== FILE: wrappers.dfy ===
/** Failure-compatible result types shared by every module of the model. */
module Wrappers {

  /** A value that may be missing: Python's `Optional[T]` / `None`. */
  datatype Option<+T> = None | Some(value: T) {
    predicate IsFailure() { None? }

    function PropagateFailure<U>(): Option<U>
      requires None?
    {
      None
    }

    function Extract(): T
      requires Some?
    {
      value
    }

    function GetOr(default: T): T {
      match this
      case Some(v) => v
      case None => default
    }
  }

  /** The outcome of an operation that may raise: `Success` or the exception it raised. */
  datatype Result<+R, +E> = Success(value: R) | Failure(error: E) {
    predicate IsFailure() { Failure? }

    function PropagateFailure<U>(): Result<U, E>
      requires Failure?
    {
      Failure(error)
    }

    function Extract(): R
      requires Success?
    {
      value
    }
  }
}
